=== FILE: README.md ===
# Shell change notifications and the FreeLoader text UI, in Dafny

This project models two pieces of ReactOS and proves properties about them.

**The shell change-notification server** (`CChangeNotifyServer`) is the window in explorer that receives the `CN_*` messages. It keeps a table of registrations (`m_items`) and a registration-id counter (`m_nNextRegID`). Messages register or unregister an entry. A delivery ticket is sent to every registration whose entry should see it (`ShouldNotify`). When a process goes away, its registrations are removed.

- The table is a `seq<Item>` field of class `ChangeNotifyServer.Server`.
- The cross-process shared memory is a map from handles to blocks.
- Each table operation is also written as a function of the old table, in module `NotifyRegistry`. The methods are proved to produce exactly those results.
- The invariant the corrected server keeps is `Owns`: the table holds every live clone of a registration entry exactly once, in a slot that is in use.
- Calls into code outside the model leave their traces in ghost logs. These are SHFreeShared, DestroyWindow, RequestTermination, SendMessageW, `delete` and RequestAllWatchersTermination.

**The FreeLoader text UI** (`tui.c`) draws on a text-mode screen buffer of width × height cells, two bytes each: the character, then the attribute. The model is class `TuiScreen.Screen` over an `array<byte>`. It covers these operations:

- the primitives: fill an area, draw text, save and restore the screen;
- the centred multi-line text;
- the critical message box and its layout;
- the progress bar;
- the colour and fill-style names;
- the date and time line;
- the edit box.

The edit box is split in two:

- The key handling of its loop is a function, `Apply`, over the state (buffer, text length, cursor position). The proofs are about `Apply`.
- `EditBox.Press` performs the same edits in place on the caller's array, with the `memmove` calls as loops.

The keyboard is given as the sequence of keys it delivers. `MachBeep` becomes a `beep` flag in the outcome.

The measuring scan of TuiDrawCenteredText counts the first line one column short: LastIndex starts at 0 rather than before the text. This is not a visible defect. Centred by the shorter width, the true box still lies inside the rectangle whenever it fits, and its margins differ by at most one column, as `UndercountStillCentred` proves. Only the odd spare column moves from the right margin to the left. The model keeps the width as the code computes it.

## Model

| member | source | states |
|---|---|---|
| NotifyMatch.ShouldNotify | dll/win32/shell32/shelldesktop/CChangeNotifyServer.cpp:396-450 | the early returns in the source's order: the ticket's level must be one the entry asked for (interrupt level also needs a pidl), the event id must share a bit with the entry's mask; then an entry without a pidl or a global event is notified, and otherwise the path test decides (ILIsParent at any depth when recursive; ILIsEqual or an immediate ILIsParent otherwise) |
| NotifyMatch.InterruptIsNotGlobal | dll/win32/shell32/shelldesktop/CChangeNotifyServer.cpp:403-428 | the interrupt bit is not among the global-event bits, so a global ticket passes the source test at either level |
| NotifyMatch.SourceLevelsSeparate | dll/win32/shell32/shelldesktop/CChangeNotifyServer.cpp:403-414 | an interrupt-level ticket never reaches an entry without SHCNRF_InterruptLevel or without a pidl; a shell-level ticket never reaches an entry without SHCNRF_ShellLevel; this holds for any pidl comparison |
| NotifyMatch.MasksMustIntersect | dll/win32/shell32/shelldesktop/CChangeNotifyServer.cpp:416-417 | no notification unless the ticket's event id and the entry's event mask share a bit |
| NotifyMatch.GlobalOrUnscopedMatches | dll/win32/shell32/shelldesktop/CChangeNotifyServer.cpp:419-428 | once the source and mask tests pass, an entry without a pidl or a global ticket is notified, whatever ILIsParent/ILIsEqual answer |
| NotifyMatch.RecursiveSeesMore | dll/win32/shell32/shelldesktop/CChangeNotifyServer.cpp:430-446 | if the PIDL comparisons are coherent, a recursive registration is notified of everything the same non-recursive registration would be |
| NotifyMatch.NonRecursiveIgnoresDeeperPaths | dll/win32/shell32/shelldesktop/CChangeNotifyServer.cpp:438-448 | a non-recursive registration ignores a non-global ticket whose pidls are neither its own pidl nor immediate children of it |
| NotifyRegistry.LockedEntry | dll/win32/shell32/shelldesktop/CChangeNotifyServer.cpp:209-215 | a registration entry is accepted exactly when the handle maps a block that is an entry carrying REGENTRY_MAGIC |
| NotifyRegistry.LockedTicket | dll/win32/shell32/shelldesktop/CChangeNotifyServer.cpp:347-353 | a ticket is accepted exactly when the handle maps a ticket block carrying DELITICKET_MAGIC |
| NotifyRegistry.NextRegId | dll/win32/shell32/shelldesktop/CChangeNotifyServer.cpp:332-338 | the next id is never INVALID_REG_ID; it is the old id mod (2^32 - 1), plus one |
| NotifyRegistry.NextRegIdStep | dll/win32/shell32/shelldesktop/CChangeNotifyServer.cpp:332-338 | on an id already handed out, the increment gives one more, or 1 after 2^32 - 1 |
| NotifyRegistry.IssuedIdCycles | dll/win32/shell32/shelldesktop/CChangeNotifyServer.cpp:332-338 | starting from INVALID_REG_ID, the k-th id handed out is ((k - 1) mod (2^32 - 1)) + 1 |
| NotifyRegistry.IssuedIdsDistinct | dll/win32/shell32/shelldesktop/CChangeNotifyServer.cpp:332-338 | any 2^32 - 1 consecutive ids are pairwise distinct |
| NotifyRegistry.IssuedIdWraps | dll/win32/shell32/shelldesktop/CChangeNotifyServer.cpp:332-338 | an id comes back after exactly 2^32 - 1 calls |
| NotifyRegistry.FirstFree | dll/win32/shell32/shelldesktop/CChangeNotifyServer.cpp:102-105 | finds the first slot whose id is INVALID_REG_ID, with all slots before it in use; None when every slot is in use |
| NotifyRegistry.AddedTo | dll/win32/shell32/shelldesktop/CChangeNotifyServer.cpp:98-120 | the new item lands in the first free slot, or is appended when none is free; every other slot is unchanged |
| NotifyRegistry.Selects | dll/win32/shell32/shelldesktop/CChangeNotifyServer.cpp:155-170 | the slots a removal pass destroys: those with the given registration id (RemoveItemsByRegID) or the given user process (RemoveItemsByProcess) |
| NotifyRegistry.TeardownOf | dll/win32/shell32/shelldesktop/CChangeNotifyServer.cpp:122-175 | the calls of a whole removal pass that starts with hwndBroker = NULL: for each selected slot in index order, its entry freed, its watcher stopped, its broker destroyed unless it is the last one destroyed |
| NotifyRegistry.Cleared | dll/win32/shell32/shelldesktop/CChangeNotifyServer.cpp:141-145 | after a removal pass, every selected slot is blank and every other slot is kept |
| NotifyRegistry.Victims | dll/win32/shell32/shelldesktop/CChangeNotifyServer.cpp:153-160 | the slots a pass destroys are exactly the selected ones, in increasing order |
| NotifyRegistry.TeardownFreesVictims | dll/win32/shell32/shelldesktop/CChangeNotifyServer.cpp:139-140 | a pass calls SHFreeShared once for each destroyed slot's entry, in slot order |
| NotifyRegistry.TeardownStopsWatchers | dll/win32/shell32/shelldesktop/CChangeNotifyServer.cpp:133-137 | a pass asks exactly the non-NULL watchers of the destroyed slots to terminate |
| NotifyRegistry.TeardownDestroysBrokers | dll/win32/shell32/shelldesktop/CChangeNotifyServer.cpp:124-131 | only non-NULL brokers of destroyed slots are destroyed; never the same broker twice in a row; *phwndBroker ends as the last one destroyed |
| NotifyRegistry.FreesOnce | dll/win32/shell32/shelldesktop/CChangeNotifyServer.cpp:139-140 | when the selected slots hold distinct live entries, no handle is freed twice and NULL is never freed |
| NotifyRegistry.NothingSelected | dll/win32/shell32/shelldesktop/CChangeNotifyServer.cpp:150-161 | a pass that matches no slot destroys nothing |
| NotifyRegistry.RemovalIdempotent | dll/win32/shell32/shelldesktop/CChangeNotifyServer.cpp:148-175 | after a pass with a real key no slot matches; a second pass finds nothing and changes nothing |
| NotifyRegistry.FoundIffPresent | dll/win32/shell32/shelldesktop/CChangeNotifyServer.cpp:150-161 | bFound is TRUE exactly when some slot held the id before the pass |
| NotifyRegistry.RemovalStep | dll/win32/shell32/shelldesktop/CChangeNotifyServer.cpp:150-160 | visiting one more slot adds that slot's DestroyItem calls when the selector picks it, and none otherwise |
| NotifyRegistry.After | dll/win32/shell32/shelldesktop/CChangeNotifyServer.cpp:124-145 | the calls logged before a pass followed by the calls of the pass; the last broker is the pass's |
| NotifyRegistry.AfterDestroyCalls | dll/win32/shell32/shelldesktop/CChangeNotifyServer.cpp:124-145 | destroying one more slot after the calls so far is the same as extending the pass by that slot |
| NotifyRegistry.Deliveries | dll/win32/shell32/shelldesktop/CChangeNotifyServer.cpp:355-388 | the sends of one delivery pass, in slot order: one SendMessageW for each slot in use whose entry locks with REGENTRY_MAGIC and should be notified, with the entry's window and message, the ticket and its owner |
| NotifyRegistry.DeliveriesExact | dll/win32/shell32/shelldesktop/CChangeNotifyServer.cpp:355-388 | a delivery pass sends once to each eligible slot and to no other, in index order; each send carries the slot's window and message with the ticket and its owner |
| NotifyRegistry.DeliveriesStep | dll/win32/shell32/shelldesktop/CChangeNotifyServer.cpp:356-388 | visiting one more slot adds at most that slot's own send |
| NotifyRegistry.FreedAreVictimEntries | dll/win32/shell32/shelldesktop/CChangeNotifyServer.cpp:139-140 | the handles a pass frees are exactly the entries of the slots it destroys |
| NotifyRegistry.Owns | dll/win32/shell32/shelldesktop/CChangeNotifyServer.cpp:98-146 | the table owns exactly the live clones: a free slot is blank, a slot in use holds a non-NULL clone, every clone is held by a slot in use, and no two slots in use hold the same clone; AddItem fills a slot with a clone and DestroyItem frees it and blanks the slot |
| NotifyRegistry.OwnsAfterClear | dll/win32/shell32/shelldesktop/CChangeNotifyServer.cpp:148-175 | a removal pass keeps the table owning its clones minus the freed ones; every freed handle was a clone, and each is freed once |
| NotifyRegistry.SelectedInUse | dll/win32/shell32/shelldesktop/CChangeNotifyServer.cpp:148-175 | with a real id or process id, a removal pass selects only slots in use |
| NotifyRegistry.ClearedOwns | dll/win32/shell32/shelldesktop/CChangeNotifyServer.cpp:148-175 | the table after a removal pass owns exactly the clones that were not freed |
| NotifyRegistry.OwnsAfterAdd | dll/win32/shell32/shelldesktop/CChangeNotifyServer.cpp:98-120 | adding an in-use slot that holds a fresh clone keeps ownership |
| NotifyRegistry.UnheldCloneBreaksOwnership | dll/win32/shell32/shelldesktop/CChangeNotifyServer.cpp:231-251 | a live clone that no slot holds breaks ownership |
| NotifyRegistry.SentinelSlotBreaksOwnership | dll/win32/shell32/shelldesktop/CChangeNotifyServer.cpp:258-259 | a clone placed in a slot whose id is INVALID_REG_ID breaks ownership |
| ChangeNotifyServer.RegisterOutcome | dll/win32/shell32/shelldesktop/CChangeNotifyServer.cpp:226-259 | the three outcomes of a registration after the entry is locked: a failed clone resets the entry's id and changes nothing else; a failed RequestAddWatcher resets it, deletes the watcher and leaves the clone allocated; otherwise the clone joins the table with the watcher, if the entry asked for one |
| ChangeNotifyServer.WithId | dll/win32/shell32/shelldesktop/CChangeNotifyServer.cpp:217-219 | after the id step the entry's id is never INVALID_REG_ID; an entry that had an id keeps it; one without takes the next counter value |
| ChangeNotifyServer.WatcherFailureLeaksClone | dll/win32/shell32/shelldesktop/CChangeNotifyServer.cpp:240-252 | as written, a failed RequestAddWatcher returns FALSE and leaves the clone allocated with no slot holding it |
| ChangeNotifyServer.PresetIdMisfiled | dll/win32/shell32/shelldesktop/CChangeNotifyServer.cpp:217-259 | as written, an entry that arrives with its own id is filed under the counter's value; on a fresh server that value is INVALID_REG_ID, so the slot looks free while it holds a clone |
| ChangeNotifyServer.Server.LockShared | dll/win32/shell32/shelldesktop/CChangeNotifyServer.cpp:347-353 | SHLockSharedEx: the block the handle maps, or None when it maps nothing; a view that was returned is counted as open |
| ChangeNotifyServer.Server.UnlockShared | dll/win32/shell32/shelldesktop/CChangeNotifyServer.cpp:369-387 | SHUnlockShared: a view that was open is released; None (NULL) is accepted and changes nothing |
| ChangeNotifyServer.Server.FreeShared | dll/win32/shell32/shelldesktop/CChangeNotifyServer.cpp:139-140 | SHFreeShared: the handle maps nothing afterwards, is no longer a clone, and is logged as freed |
| ChangeNotifyServer.Server.constructor | dll/win32/shell32/shelldesktop/CChangeNotifyServer.cpp:89-92 | empty table, counter at INVALID_REG_ID, ownership holds |
| ChangeNotifyServer.Server.GetNextRegID | dll/win32/shell32/shelldesktop/CChangeNotifyServer.cpp:332-338 | the counter and the result are NextRegId of the old counter, never INVALID_REG_ID |
| ChangeNotifyServer.Server.AddItem | dll/win32/shell32/shelldesktop/CChangeNotifyServer.cpp:98-120 | the loop leaves the table equal to AddedTo of the old table; always TRUE |
| ChangeNotifyServer.Server.DestroyItem | dll/win32/shell32/shelldesktop/CChangeNotifyServer.cpp:122-146 | blanks the slot and frees its entry; stops its watcher; destroys its broker unless NULL or just destroyed; nothing else changes |
| ChangeNotifyServer.Server.RemoveSelected | dll/win32/shell32/shelldesktop/CChangeNotifyServer.cpp:148-175 | the shared removal loop: the table becomes Cleared; the logs grow by TeardownOf; found iff some slot was destroyed |
| ChangeNotifyServer.Server.VisitSlot | dll/win32/shell32/shelldesktop/CChangeNotifyServer.cpp:150-160 | one loop turn: slot i is blanked and torn down exactly when the selector picks it; the logs grow by its DestroyItem calls; the other fields are kept |
| ChangeNotifyServer.Server.RemoveItemsByRegID | dll/win32/shell32/shelldesktop/CChangeNotifyServer.cpp:148-162 | no slot holds the id afterwards; TRUE iff one did before; every destroyed slot is torn down; ownership is kept |
| ChangeNotifyServer.Server.RemoveItemsByProcess | dll/win32/shell32/shelldesktop/CChangeNotifyServer.cpp:164-175 | no slot of the process remains; every destroyed slot is torn down; ownership is kept |
| ChangeNotifyServer.Server.OnUnRegister | dll/win32/shell32/shelldesktop/CChangeNotifyServer.cpp:266-282 | INVALID_REG_ID is refused, and no field changes; otherwise removal by id, with TRUE iff the id was present, and the table, shared memory, frees, stops and destroyed windows are those of RemoveItemsByRegID; the counter, sends, deleted watchers and stop-all requests never change |
| ChangeNotifyServer.Server.OnRemoveByPID | dll/win32/shell32/shelldesktop/CChangeNotifyServer.cpp:317-323 | removes the process's slots, keeps ownership, answers 0; the table, shared memory, frees, stops and destroyed windows are those of RemoveItemsByProcess, and the counter, sends, deleted watchers and stop-all requests are unchanged |
| ChangeNotifyServer.Server.DeliverNotification | dll/win32/shell32/shelldesktop/CChangeNotifyServer.cpp:342-394 | FALSE and no sends for an invalid ticket; otherwise exactly the Deliveries sends; every view locked is unlocked |
| ChangeNotifyServer.Server.NotifySlot | dll/win32/shell32/shelldesktop/CChangeNotifyServer.cpp:358-387 | one loop step: a send exactly when the slot is eligible |
| ChangeNotifyServer.Server.OnDeliverNotification | dll/win32/shell32/shelldesktop/CChangeNotifyServer.cpp:288-301 | delivers, then frees the ticket whatever the answer; the table, the clones, the counter, the stops, the destroyed windows, the deleted watchers and the stop-all requests are untouched |
| ChangeNotifyServer.Server.OnRegister | dll/win32/shell32/shelldesktop/CChangeNotifyServer.cpp:202-260 | as written: refuses an invalid entry; assigns the id; then RegisterOutcome with the counter as the slot id: a clone failure or a failed RequestAddWatcher resets the id and returns FALSE (the latter leaving the clone allocated); otherwise AddItem |
| ChangeNotifyServer.Server.CloneAndAdd | dll/win32/shell32/shelldesktop/CChangeNotifyServer.cpp:230-259 | the clone, watcher and AddItem part of OnRegister, as RegisterOutcome states it |
| ChangeNotifyServer.Server.OnRegisterFixed | dll/win32/shell32/shelldesktop/CChangeNotifyServer.cpp:202-260 | corrected registration: the slot takes the entry's own id, a failed RequestAddWatcher frees the clone, and ownership is kept |
| ChangeNotifyServer.Server.CloneAndAddFixed | dll/win32/shell32/shelldesktop/CChangeNotifyServer.cpp:230-259 | the corrected clone-and-add step; keeps ownership |
| ChangeNotifyServer.Server.OnSuspendResume | dll/win32/shell32/shelldesktop/CChangeNotifyServer.cpp:305-311 | always FALSE |
| ChangeNotifyServer.Server.OnDestroy | dll/win32/shell32/shelldesktop/CChangeNotifyServer.cpp:325-329 | asks all watchers to terminate once and answers 0 |
| ChangeNotifyServer.Server.Dispatch | dll/win32/shell32/shelldesktop/CChangeNotifyServer.cpp:65-72 | with the corrected registration, every message handler keeps the table owning exactly the live clones |
| TuiStrings.StrLen | boot/freeldr/freeldr/ui/tui.c:126 | the index of the first NUL, or the whole length |
| TuiStrings.At | boot/freeldr/freeldr/ui/tui.c:628 | reading at or after the string's end gives NUL; before it, the character, which is not NUL |
| TuiStrings.LineEndIsFirstNewline | boot/freeldr/freeldr/ui/tui.c:628-632 | the inner scan stops at the first newline, or at the end of the string |
| TuiStrings.Lines | boot/freeldr/freeldr/ui/tui.c:618-662 | the pieces of the message between its newlines, always at least one |
| TuiStrings.JoinLinesOfLines | boot/freeldr/freeldr/ui/tui.c:651-662 | cutting the message into lines loses nothing: joining them with newlines gives it back |
| TuiStrings.LinesCount | boot/freeldr/freeldr/ui/tui.c:618-623 | a message has one line more than it has newlines |
| TuiStrings.LinesSnoc | boot/freeldr/freeldr/ui/tui.c:651-662 | reading a newline opens an empty line; any other character extends the last line |
| TuiStrings.LinesSnocNewline | boot/freeldr/freeldr/ui/tui.c:653-659 | reading a newline keeps the lines read so far and opens an empty one |
| TuiStrings.LinesSnocOther | boot/freeldr/freeldr/ui/tui.c:660-661 | reading any other character appends it to the last line and keeps the others |
| TuiStrings.Longest | boot/freeldr/freeldr/ui/tui.c:625-639 | the length of some line, and at least every line's length |
| TuiScreen.CharByte | boot/freeldr/freeldr/ui/tui.c:99 | the (UCHAR) cast keeps the low eight bits |
| TuiScreen.CellBytes | boot/freeldr/freeldr/ui/tui.c:99-100 | a byte belongs to cell (row, col) exactly when it is at 2·(row·w + col) or the byte after it |
| TuiScreen.CellInside | boot/freeldr/freeldr/ui/tui.c:324-325 | every on-screen cell lies inside the w·h·2 bytes |
| TuiScreen.Filled | boot/freeldr/freeldr/ui/tui.c:319-327 | inside the rectangle every cell is (ch, attr); outside it every byte is unchanged |
| TuiScreen.FillResult | boot/freeldr/freeldr/ui/tui.c:304-328 | what TuiFillArea leaves: the old screen when the top-left corner is off screen; otherwise the rectangle filled after clipping its right and bottom edges to the screen |
| TuiScreen.FillResultInside | boot/freeldr/freeldr/ui/tui.c:304-328 | no change if the top-left corner is off screen; otherwise every cell of the rectangle, clipped at the right and bottom edges, holds the fill character and attribute at the source's offsets |
| TuiScreen.FillResultOutside | boot/freeldr/freeldr/ui/tui.c:304-328 | every on-screen cell outside the rectangle keeps both bytes |
| TuiScreen.TextDrawn | boot/freeldr/freeldr/ui/tui.c:96-105 | the n cells from (x, y) hold the text's characters with the attribute; every other byte is kept |
| TuiScreen.DrawnCount | boot/freeldr/freeldr/ui/tui.c:96 | the loop writes the smallest of strlen, the room left on the row, and MaxNumChars (0 means no limit) |
| TuiScreen.Screen.PutCell | boot/freeldr/freeldr/ui/tui.c:324-325 | exactly the two bytes of one cell change |
| TuiScreen.Screen.FillArea | boot/freeldr/freeldr/ui/tui.c:304-328 | the screen becomes FillResult of the old screen |
| TuiScreen.Screen.DrawText2 | boot/freeldr/freeldr/ui/tui.c:79-106 | no change when (x, y) is off screen; otherwise the screen becomes TextDrawn with DrawnCount characters |
| TuiScreen.Screen.DrawText | boot/freeldr/freeldr/ui/tui.c:62-69 | DrawText2 without a character limit |
| TuiScreen.Screen.SaveScreen | boot/freeldr/freeldr/ui/tui.c:568-577 | the buffer's first w·h·2 bytes equal the screen; the rest of the buffer is kept |
| TuiScreen.Screen.RestoreScreen | boot/freeldr/freeldr/ui/tui.c:579-588 | the screen equals the buffer's first w·h·2 bytes |
| TuiScreen.U32 | boot/freeldr/freeldr/ui/tui.c:160-161 | ULONG arithmetic is below 2^32, and the identity on values that fit |
| TuiMessageBox.MessageHeight | boot/freeldr/freeldr/ui/tui.c:618-623 | the height is the number of lines of the message |
| TuiMessageBox.MessageWidth | boot/freeldr/freeldr/ui/tui.c:625-639 | the width is the longest line's length, but at least 8 |
| TuiMessageBox.ScanLine | boot/freeldr/freeldr/ui/tui.c:628-632 | the inner scan ends at the end of the current line |
| TuiMessageBox.MeasureLine | boot/freeldr/freeldr/ui/tui.c:626-639 | one turn of the width scan: the length of line i, the running maximum after it, and the start of line i + 1 |
| TuiMessageBox.NextLine | boot/freeldr/freeldr/ui/tui.c:628-638 | the scan from j measures line i; skipping its newline moves to the lines that follow it |
| TuiMessageBox.LineEndOfRest | boot/freeldr/freeldr/ui/tui.c:628-632 | the line starting at j ends at a newline or at the end of the string |
| TuiMessageBox.BoxArea | boot/freeldr/freeldr/ui/tui.c:641-645 | the box of a message width columns by height lines, in ULONG arithmetic: x1 = (screenWidth - (width + 2)) / 2, y1 = (screenHeight - height - 2) / 2 + 1, x2 = x1 + width + 3, y2 = y1 + height + 4 |
| TuiMessageBox.BoxAreaCentred | boot/freeldr/freeldr/ui/tui.c:641-645 | when the message fits, the box is centred; it is width + 4 columns by height + 5 rows; the lines lie strictly inside its frame |
| TuiMessageBox.DrawMessageBoxCritical | boot/freeldr/freeldr/ui/tui.c:607-666 | the box is BoxArea of the measured message; line l of the message is drawn on row y1 + 1 + l |
| TuiMessageBox.DrawLines | boot/freeldr/freeldr/ui/tui.c:650-662 | one draw per line, in order, on consecutive rows, each with exactly that line's text |
| TuiMessageBox.MessageBox | boot/freeldr/freeldr/ui/tui.c:590-605 | the screen ends exactly as it was |
| TuiCenteredText.BreakBefore | boot/freeldr/freeldr/ui/tui.c:135-139 | the index of the last newline read, or -1 |
| TuiCenteredText.Measure | boot/freeldr/freeldr/ui/tui.c:125-153 | the first scan gives ScanWidth as the width and the number of lines as the height |
| TuiCenteredText.LinesShape | boot/freeldr/freeldr/ui/tui.c:132-150 | there is one line exactly when no newline was read; the last line runs from the last newline to the end |
| TuiCenteredText.ScanWidth | boot/freeldr/freeldr/ui/tui.c:131-150 | the width the first scan measures: each character after the last newline counts Index - LastIndex columns, with LastIndex starting at 0 |
| TuiCenteredText.MeasuredWidth | boot/freeldr/freeldr/ui/tui.c:131-150 | the width by lines: the first line one column short, every later line in full, the largest of these |
| TuiCenteredText.ScanWidthMeasures | boot/freeldr/freeldr/ui/tui.c:132-150 | the scan's width is every later line's length and the first line's length minus one, whichever is largest |
| TuiCenteredText.OneLineUndercount | boot/freeldr/freeldr/ui/tui.c:131-148 | a text without newlines measures one column less than its length |
| TuiCenteredText.Origin | boot/freeldr/freeldr/ui/tui.c:160-161 | RealLeft and RealTop: the text box centred on the hint rectangle, in ULONG arithmetic |
| TuiCenteredText.UndercountStillCentred | boot/freeldr/freeldr/ui/tui.c:130-161 | centred by its undercounted width, a box of the true width still lies inside the rectangle, and its left margin is its right margin or one column more |
| TuiCenteredText.OriginCentres | boot/freeldr/freeldr/ui/tui.c:155-161 | when the box fits without wrap-around, it lies inside the rectangle, and the space on its left is the space on its right or one less |
| TuiCenteredText.Glyphs | boot/freeldr/freeldr/ui/tui.c:163-184 | the glyphs of the first n lines, line after line: character j of line k at column x + j, row y + k |
| TuiCenteredText.LineGlyphs | boot/freeldr/freeldr/ui/tui.c:174-183 | character j of line k goes to column x + j, row y + k (ULONG) |
| TuiCenteredText.GlyphsStep | boot/freeldr/freeldr/ui/tui.c:165-184 | a newline adds no glyph and moves to the next row; any other character adds one glyph at the next column of the current row |
| TuiCenteredText.GlyphsStepNewline | boot/freeldr/freeldr/ui/tui.c:168-173 | a newline opens an empty line and adds no glyph |
| TuiCenteredText.GlyphsStepChar | boot/freeldr/freeldr/ui/tui.c:175-183 | any other character lengthens the current line by one and adds its glyph at the next column |
| TuiCenteredText.DrawGlyphs | boot/freeldr/freeldr/ui/tui.c:163-184 | the second scan draws exactly the glyphs of every line, in order |
| TuiCenteredText.ScanGlyph | boot/freeldr/freeldr/ui/tui.c:165-184 | one turn of the second scan: the row, column and glyphs drawn match the lines read up to and including the character |
| TuiCenteredText.U32Succ | boot/freeldr/freeldr/ui/tui.c:171 | RealTop++ in ULONG commutes with the wrap-around |
| TuiCenteredText.DrawCenteredText | boot/freeldr/freeldr/ui/tui.c:109-185 | the text is drawn line by line from the origin centred on the measured box |
| TuiProgressBar.BarRect | boot/freeldr/freeldr/ui/tui.c:734-738 | the margins: two columns left and right, one row top and bottom, in ULONG |
| TuiProgressBar.BarWidth | boot/freeldr/freeldr/ui/tui.c:740-741 | ProgressBarWidth = Right - Left + 1, in ULONG |
| TuiProgressBar.FilledCells | boot/freeldr/freeldr/ui/tui.c:743-755 | the loop bound: the position clipped to the range, times the width in ULONG, divided by the range |
| TuiProgressBar.Clip | boot/freeldr/freeldr/ui/tui.c:743-745 | the position clipped to the range |
| TuiProgressBar.FilledWithinWidth | boot/freeldr/freeldr/ui/tui.c:755 | however the ULONG product wraps, the solid part never exceeds the bar width |
| TuiProgressBar.FilledProportional | boot/freeldr/freeldr/ui/tui.c:755 | without wrap-around, the solid cells are the clipped position's share of the width, rounded down |
| TuiProgressBar.FilledNoneAtStart | boot/freeldr/freeldr/ui/tui.c:755 | at position 0 nothing is solid |
| TuiProgressBar.FilledAllAtEnd | boot/freeldr/freeldr/ui/tui.c:743-755 | from the range on the whole bar is solid, provided range·width fits in a ULONG |
| TuiProgressBar.WrappedBarNotFull | boot/freeldr/freeldr/ui/tui.c:755 | when range·width wraps, a finished bar can show empty (position = range = 2^31, width 2) |
| TuiProgressBar.OneCellDrawn | boot/freeldr/freeldr/ui/tui.c:757-758 | one single-character draw sets that cell and keeps every other |
| TuiProgressBar.OtherCellKept | boot/freeldr/freeldr/ui/tui.c:757-758 | a single-character draw keeps every other cell |
| TuiProgressBar.DrawnCellHolds | boot/freeldr/freeldr/ui/tui.c:757-758 | a single-character draw on screen leaves that cell holding the character and the attribute |
| TuiProgressBar.DrawSolid | boot/freeldr/freeldr/ui/tui.c:757-758 | the cell holds the solid character; all other cells are kept |
| TuiProgressBar.DrawSolidRun | boot/freeldr/freeldr/ui/tui.c:754-759 | the first `filled` cells of the bar's row hold the solid character |
| TuiProgressBar.ShadeRest | boot/freeldr/freeldr/ui/tui.c:760-762 | the cells from x1 + filled to x2 hold the shaded character; the solid cells before them are kept |
| TuiProgressBar.CellKeptWithRow | boot/freeldr/freeldr/ui/tui.c:764 | a bar cell keeps its character and attribute when a later draw changes no byte of its row |
| TuiProgressBar.DrawProgressBar | boot/freeldr/freeldr/ui/tui.c:720-766 | the fill count is FilledCells, at most the width; the closing TuiUpdateDateTime leaves the clock as UpdateDateTime states it; on screen the bar is solid up to the fill count and shaded after it, whenever the date and time lines leave the bar's row alone (no clock drawn, a clock out of range, or a bar row other than 1 and 2) |
| TuiProgressBar.RedrawClock | boot/freeldr/freeldr/ui/tui.c:764-765 | the closing TuiUpdateDateTime: the clock as UpdateDateTime states it, and a drawn bar still holds when the date and time lines leave its row alone |
| TuiProgressBar.BarKept | boot/freeldr/freeldr/ui/tui.c:754-765 | a drawn bar (solid up to the fill count, shaded after it) survives any later draw that changes no byte of the bar's row |
| TuiProgressBar.DrawBar | boot/freeldr/freeldr/ui/tui.c:754-762 | on the bar's row, the first `filled` cells hold the solid character and the cells after them up to x2 the shaded one |
| TuiNames.Lower | boot/freeldr/freeldr/ui/tui.c:797 | ASCII case folding as _stricmp does it |
| TuiNames.SameIgnoringCaseEquivalence | boot/freeldr/freeldr/ui/tui.c:797-803 | comparing up to case is reflexive, symmetric and transitive |
| TuiNames.Lookup | boot/freeldr/freeldr/ui/tui.c:800-806 | the value of the first table entry whose name matches up to case, or the default when none does |
| TuiNames.LookupFirstMatch | boot/freeldr/freeldr/ui/tui.c:800-804 | the lookup gives the value of the first entry the name matches |
| TuiNames.LookupNoMatch | boot/freeldr/freeldr/ui/tui.c:800-806 | a name that matches no entry gives the default |
| TuiNames.LookupIgnoresCase | boot/freeldr/freeldr/ui/tui.c:800-804 | spellings that differ only in case look up the same value |
| TuiNames.LookupInTable | boot/freeldr/freeldr/ui/tui.c:800-806 | every result is the default or one of the table's values |
| TuiNames.Find | boot/freeldr/freeldr/ui/tui.c:800-806 | the loop returns exactly Lookup |
| TuiNames.ColorOf | boot/freeldr/freeldr/ui/tui.c:797-806 | MachDefaultTextColor for "Default" in any case, otherwise the colour of the first matching name, and COLOR_BLACK for an unknown name |
| TuiNames.TextToColor | boot/freeldr/freeldr/ui/tui.c:770-807 | "Default" gives MachDefaultTextColor; otherwise the named colour, and COLOR_BLACK for an unknown name |
| TuiNames.ColorNamesDistinct | boot/freeldr/freeldr/ui/tui.c:776-798 | no two colour names are equal up to case, and none equals "Default" |
| TuiNames.NamesDiffer | boot/freeldr/freeldr/ui/tui.c:778-793 | two colour names of the same length differ at some letter, up to case |
| TuiNames.ColorPairDistinct | boot/freeldr/freeldr/ui/tui.c:776-798 | two different entries of the colour table never name the same colour up to case |
| TuiNames.DefaultIsNoColor | boot/freeldr/freeldr/ui/tui.c:776-798 | "Default" is not a colour name, in any case |
| TuiNames.ColorNameGivesColor | boot/freeldr/freeldr/ui/tui.c:776-804 | each colour's name, in any case, gives the colour at its position, 0 to 15 |
| TuiNames.UnknownColorIsBlack | boot/freeldr/freeldr/ui/tui.c:797-806 | any other name gives COLOR_BLACK; every result is a colour 0..15 or the machine default |
| TuiNames.TextToFillStyle | boot/freeldr/freeldr/ui/tui.c:809-830 | the fill style named, LIGHT_FILL for an unknown name |
| TuiNames.FillStyleNames | boot/freeldr/freeldr/ui/tui.c:815-829 | Light, Medium and Dark, in any case, give their styles; any other name gives LIGHT_FILL; the result is always one of the three |
| TuiEditBox.Apply | boot/freeldr/freeldr/ui/tui.c:996-1082 | one key, matched in the source's order: ENTER accepts, ESC cancels; BACKSPACE, DELETE, HOME, END, RIGHT and LEFT edit or move, or beep at the ends; any other key is inserted at the cursor, or beeps when the buffer is full |
| TuiEditBox.Removed | boot/freeldr/freeldr/ui/tui.c:1012-1016 | the memmove down keeps the buffer's size |
| TuiEditBox.Inserted | boot/freeldr/freeldr/ui/tui.c:1066-1072 | the memmove up plus the two writes keep the buffer's size |
| TuiEditBox.RemovedKeepsInv | boot/freeldr/freeldr/ui/tui.c:1012-1016 | removing a character before the end keeps a NUL-terminated text with the cursor within it |
| TuiEditBox.InsertedKeepsInv | boot/freeldr/freeldr/ui/tui.c:1066-1072 | inserting into a buffer that is not full keeps a NUL-terminated text with the cursor within it |
| TuiEditBox.ApplyKeepsInv | boot/freeldr/freeldr/ui/tui.c:996-1082 | every key keeps the cursor within the text and the text within the buffer, ends it with a NUL and keeps the size; a beep changes nothing |
| TuiEditBox.InsertAtCursor | boot/freeldr/freeldr/ui/tui.c:1061-1077 | a plain key goes in at the cursor and the cursor moves past it; when the buffer is full it beeps |
| TuiEditBox.BackspaceRemovesBefore | boot/freeldr/freeldr/ui/tui.c:1006-1021 | BACKSPACE removes the character before the cursor and moves back; at the start it beeps |
| TuiEditBox.DeleteRemovesAt | boot/freeldr/freeldr/ui/tui.c:1023-1037 | DELETE removes the character under the cursor and stays; at the end it beeps |
| TuiEditBox.InsertedByMemmove | boot/freeldr/freeldr/ui/tui.c:1066-1072 | Inserted equals the memmove up followed by buf[pos] = key and buf[len + 1] = NUL |
| TuiEditBox.RemovedText | boot/freeldr/freeldr/ui/tui.c:1012-1016 | removing place p leaves the text without its p-th character, ended by NUL |
| TuiEditBox.CursorKeys | boot/freeldr/freeldr/ui/tui.c:1039-1060 | HOME and END go to the start and the end; RIGHT and LEFT move by one and beep at the ends; the text is unchanged |
| TuiEditBox.TextStaysNulFree | boot/freeldr/freeldr/ui/tui.c:1006-1077 | typed keys never put a NUL into the text |
| TuiEditBox.EditBox.constructor | boot/freeldr/freeldr/ui/tui.c:958-960 | the text is the buffer up to its NUL, and the cursor starts at 0 |
| TuiEditBox.EditBox.Press | boot/freeldr/freeldr/ui/tui.c:996-1082 | the outcome is Apply of the old state, and the buffer, length and position become its next state |
| TuiEditBox.EditBox.Backspace | boot/freeldr/freeldr/ui/tui.c:1006-1021 | the in-place BACKSPACE performs Apply |
| TuiEditBox.EditBox.Delete | boot/freeldr/freeldr/ui/tui.c:1023-1037 | the in-place DELETE performs Apply |
| TuiEditBox.EditBox.Insert | boot/freeldr/freeldr/ui/tui.c:1061-1077 | the in-place insertion performs Apply |
| TuiEditBox.EditBox.PutKey | boot/freeldr/freeldr/ui/tui.c:1066-1072 | the memmove up, the key at the cursor and the NUL after the text leave the state Inserted describes, with cursor and length one further |
| TuiEditBox.EditBox.MoveDown | boot/freeldr/freeldr/ui/tui.c:1012-1014 | memmove(buf + p, buf + p + 1, n) |
| TuiEditBox.EditBox.MoveUp | boot/freeldr/freeldr/ui/tui.c:1066-1068 | memmove(buf + p + 1, buf + p, n), copying from the top down |
| TuiEditBox.EditLineOf | boot/freeldr/freeldr/ui/tui.c:961-963 | EditBoxLine = y2 - 2, EditBoxStartX = x1 + 3, EditBoxEndX = x2 - 3 |
| TuiEditBox.EditLineInsideBox | boot/freeldr/freeldr/ui/tui.c:935-963 | the edit line lies below the message and inside the box frame, and is width - 2 columns wide |
| TuiEditBox.Cursor | boot/freeldr/freeldr/ui/tui.c:1088-1097 | EditBoxCursorX and EditBoxTextDisplayIndex: past the line's span the cursor stays at the end column and the text scrolls; otherwise the cursor is at the start column plus the position |
| TuiEditBox.CursorOnLine | boot/freeldr/freeldr/ui/tui.c:1088-1099 | the cursor column is on the edit line; with the display index it gives back the position, and the shown part of the text contains the position |
| TuiEditBox.ShowEditLine | boot/freeldr/freeldr/ui/tui.c:1085-1099 | the redraw puts the cursor at the column Cursor computes |
| TuiEditBox.Run | boot/freeldr/freeldr/ui/tui.c:984-1109 | the keys in order until one ends the edit: Some(true) for ENTER, Some(false) for ESC, None when the keys run out; and the state the edit leaves |
| TuiEditBox.RunStep | boot/freeldr/freeldr/ui/tui.c:984-1109 | the first key either ends the run or hands the rest of the keys to the state it leaves |
| TuiEditBox.Start | boot/freeldr/freeldr/ui/tui.c:958-960 | the starting state meets the invariant |
| TuiEditBox.RunKeepsInv | boot/freeldr/freeldr/ui/tui.c:984-1109 | whatever keys are typed, the buffer keeps its size and a NUL-terminated text, with the cursor within it |
| TuiEditBox.RunStopsAtEnd | boot/freeldr/freeldr/ui/tui.c:996-1005 | once ENTER or ESC has ended the edit, later keys change nothing |
| TuiEditBox.DrawDialog | boot/freeldr/freeldr/ui/tui.c:912-963 | the edit line is that of the box TuiMessageBoxCritical would draw for the same message |
| TuiEditBox.EditKeys | boot/freeldr/freeldr/ui/tui.c:984-1109 | the key loop ends with exactly the result and the state of Run |
| TuiEditBox.EditBoxDialog | boot/freeldr/freeldr/ui/tui.c:888-1118 | result and buffer equal Run from the caller's text; when ENTER or ESC ends the edit, the screen is restored exactly |
| TuiDateTime.Digit | boot/freeldr/freeldr/ui/tui.c:498 | a decimal digit character |
| TuiDateTime.Decimal | boot/freeldr/freeldr/ui/tui.c:498 | _itoa(n, s, 10): the decimal digits of n, most significant first, "0" for zero |
| TuiDateTime.DecimalRoundTrip | boot/freeldr/freeldr/ui/tui.c:498 | _itoa writes digits only, with no leading zero, and they read back as the number |
| TuiDateTime.DecimalLength | boot/freeldr/freeldr/ui/tui.c:498-522 | numbers below 10, 100, 1000 and 10000 take 1, 2, at most 3 and at most 4 digits |
| TuiDateTime.TwoDigitsRoundTrip | boot/freeldr/freeldr/ui/tui.c:542-554 | minutes and seconds always show as exactly two digits that read back as the value |
| TuiDateTime.DaySuffix | boot/freeldr/freeldr/ui/tui.c:499-515 | st for days 1, 21 and 31; nd for 2 and 22; rd for 3 and 23; th for every other day |
| TuiDateTime.DateText | boot/freeldr/freeldr/ui/tui.c:495-523 | the month name, the day, its suffix, a blank and the year |
| TuiDateTime.DaySuffixIsOrdinal | boot/freeldr/freeldr/ui/tui.c:499-515 | for days 1..31 the suffix follows the English rule: st, nd, rd after a last digit 1, 2, 3 except in the teens, th otherwise |
| TuiDateTime.DateFits | boot/freeldr/freeldr/ui/tui.c:476-523 | with month names of at most 30 characters, the date and its NUL fit DateString[40] |
| TuiDateTime.Clock | boot/freeldr/freeldr/ui/tui.c:528-537 | as written: hours above 12 lose 12 and are PM, hour 0 becomes 12, and hour 12 stays 12 AM |
| TuiDateTime.ClockFixed | boot/freeldr/freeldr/ui/tui.c:528-537 | the corrected clock: hour mod 12 with 0 shown as 12, PM from hour 12 on |
| TuiDateTime.ClockRange | boot/freeldr/freeldr/ui/tui.c:528-537 | hours 13..23 show as 1..11 PM; 1..12 show as themselves with AM; 0 shows as 12 AM |
| TuiDateTime.NoonShownAsMidnight | boot/freeldr/freeldr/ui/tui.c:528-537 | as written, hour 12 and hour 0 give the same time string, "12:mm:ss AM" |
| TuiDateTime.ClockFixedRoundTrip | boot/freeldr/freeldr/ui/tui.c:528-562 | the corrected clock gives 1..12 with PM exactly from noon on; the hour can be read back from it |
| TuiDateTime.TimeText | boot/freeldr/freeldr/ui/tui.c:538-562 | four blanks, the 12-hour hour, two-digit minutes and seconds, then AM or PM |
| TuiDateTime.TimeFits | boot/freeldr/freeldr/ui/tui.c:477-562 | the time string is 14 or 15 characters long, so it fits TimeString[40] |
| TuiDateTime.TimeInfo.constructor | boot/freeldr/freeldr/ui/tui.c:484 | a clock reading with the given fields |
| TuiDateTime.RightAligned | boot/freeldr/freeldr/ui/tui.c:526 | when the string fits, it ends two columns before the right edge |
| TuiDateTime.BuildDate | boot/freeldr/freeldr/ui/tui.c:495-523 | the strcpy/strcat steps build DateText |
| TuiDateTime.ToTwelveHour | boot/freeldr/freeldr/ui/tui.c:528-537 | TimeInfo->Hour is changed in place to the 12-hour clock, and PMHour is set; no other field changes |
| TuiDateTime.BuildTime | boot/freeldr/freeldr/ui/tui.c:538-562 | the strcpy/strcat steps build the time string |
| TuiDateTime.LineDrawn | boot/freeldr/freeldr/ui/tui.c:526 | a right-aligned TuiDrawText on row y, as the date at line 526 and the time at line 565 are drawn: the string from RightAligned when that cell is on the screen, otherwise no change; no byte of another row ever changes |
| TuiDateTime.UpdateDateTime | boot/freeldr/freeldr/ui/tui.c:473-566 | nothing changes when drawing is disabled or a field is out of range; otherwise the date and time strings are DateText and TimeText, the screen is the date drawn right-aligned on row 1 and then the time on row 2, no other row changes, and the clock's hour is left in 12-hour form |

## Left out

- Windows and ReactOS services are left out, along with the threads and timers behind them: SHLockSharedEx/SHUnlockShared, SHAllocShared, GetWindowThreadProcessId and the directory watchers. Their answers are parameters (`RegisterEnv`), and their effects are ghost logs.
- ILIsParent and ILIsEqual are not part of this model. They enter as the two functions of a `PidlOracle`, and every ShouldNotify lemma holds for any such pair.
- CreateDirectoryWatcherFromRegEntry is not modelled. Its result is the `watcher` parameter, NULL when it fails.
- The values of INVALID_REG_ID, the magic numbers, the SHCNE_* and SHCNRF_* bits, the KEY_* codes, the colours and the fill characters are defined in headers that are not part of this model. The Windows SDK and PC BIOS values are used. The proofs depend only on the values being distinct.
- ChangeNotifyServer.Server.Dispatch: states only that every handler keeps ownership. Each handler's own contract states its results.
- ChangeNotifyServer.Server.OnRegister: states what the call leaves behind, but not ownership, which the as-written code breaks (see Findings).
- The owner-process argument of the shared-memory calls is passed along but not used for lookup, because handles are modelled as global. For the same reason, ChangeNotifyServer.Server.OnDeliverNotification requires that the ticket is not one of the server's clones. The source does not demand this. In the source, a ticket handle lives in the sending process, so freeing it cannot free a registration's clone. With one global handle space, the model has to rule that case out.
- Only the fill of TuiDrawBox (tui.c:433) is modelled. Its frame, corners and shadow (TuiDrawShadow) are drawing details with no property beyond TuiFillArea.
- TuiDrawStatusText, VideoCopyOffScreenBufferToVRAM, MachVideoSetTextCursorPosition, MachHwIdle and the screen backdrop and fade routines are hardware and presentation only.
- The waits for a key in TuiMessageBoxCritical and TuiEditBox are left out, along with the TuiUpdateDateTime call each turn of their key loops makes (tui.c:685, tui.c:1104). The keys arrive as a given sequence, and a run that ends before ENTER or ESC returns None. The clock those loops would redraw is not part of their contracts.
- TuiEditBox.EditBoxDialog: when the keys run out before ENTER or ESC, the screen is not restored. The source would keep waiting for a key.
- UiTruncateStringEllipsis (tui.c:748) is in ui.c, which is not part of this model. The progress text is drawn as given.
- TuiDrawProgressBarCenter (tui.c:693-717) only computes a fixed 50-column rectangle and calls TuiDrawProgressBar. It is not modelled separately.
- TuiProgressBar.DrawProgressBar: does not model the box around the bar, and the caption's contract is not restated. Screen contents are stated only when the margins leave a bar that fits in ULONG and its row is on the screen. When the closing TuiUpdateDateTime draws the clock and the bar lies on row 1 or 2, the date or time line overwrites part of the bar, and the bar cells are not stated. It requires range > 0, because the source divides by the range. The model follows the build without _M_ARM, where the closing TuiUpdateDateTime call is compiled in.
- TuiProgressBar.DrawCaption carries no contract of its own. The caption's layout is TuiCenteredText.DrawCenteredText's contract.
- TuiMessageBox.DrawMessageBoxCritical: returns the rows and texts it draws rather than stating the screen bytes. The OK button's position is computed as in the source but not stated.
- TuiCenteredText.DrawCenteredText: states the glyphs drawn (column, row, character) rather than the screen bytes.
- TuiEditBox.ShowEditLine: states the cursor column but not the screen bytes of the redrawn line.
- The 260-character `temp` buffer of TuiMessageBoxCritical and TuiEditBox can overflow on a longer line. The model draws the line without that limit.
- The signed INT box coordinates x1, x2, y1, y2 are modelled as natural numbers. The model does not follow them into overflow.
- _itoa is modelled by TuiDateTime.Decimal. The month names (UiMonthNames), UiDrawTime and the clock (ArcGetTime) are parameters.
- ChangeNotifyServer.Server.DeliverNotification: SendMessageW can run the CN_REGISTER or CN_UNREGISTER handler of this same window before it returns, and the loop at CChangeNotifyServer.cpp:356 reads the table's size again on every turn. A handler re-entered during delivery is not modelled. NotifyRegistry.DeliveriesExact and DeliverNotification describe the table as it stood when delivery began.
- TuiEditBox.EditBoxDialog: the caller's Length is taken to be the buffer's real size, so the buffer holds a NUL and its text is shorter than Length. The source also clamps the text to Length - 1 characters when Length is smaller than the allocation. That case is not represented, and the `Min` in TuiEditBox.EditBox.constructor never clamps.
- ChangeNotifyServer.Server.OnRemoveByPID: requires a non-zero process id, the condition that RemoveItemsByProcess asserts at CChangeNotifyServer.cpp:167. The handler at CChangeNotifyServer.cpp:317-323 passes wParam on unchecked, so a CN_UNREGISTER_PROCESS message with wParam 0 is not modelled. The same condition is part of ChangeNotifyServer.Server.Acceptable.
- Only a failed RequestAddWatcher fails a registration (CChangeNotifyServer.cpp:245-251). A NULL result from CreateDirectoryWatcherFromRegEntry registers the slot without a watcher.

## Findings

| source | as written | input that shows it | evidently intended | confidence | as-written member | corrected member |
|---|---|---|---|---|---|---|
| dll/win32/shell32/shelldesktop/CChangeNotifyServer.cpp:245-251 | when RequestAddWatcher fails, OnRegister returns FALSE without freeing hNewEntry, the clone allocated at line 231 | an entry with a pidl and SHCNRF_InterruptLevel, a successful clone, a watcher whose RequestAddWatcher fails | free the clone (SHFreeShared(hNewEntry)) before returning FALSE | high, not executed | ChangeNotifyServer.WatcherFailureLeaksClone | ChangeNotifyServer.Server.OnRegisterFixed |
| dll/win32/shell32/shelldesktop/CChangeNotifyServer.cpp:259 | the new slot is filed under m_nNextRegID, not under pRegEntry->nRegID | on a server that has issued no id, an entry that arrives with nRegID = 5: the slot gets INVALID_REG_ID, so it looks free and the id 5 cannot unregister it | AddItem(pRegEntry->nRegID, ...) | medium, not executed | ChangeNotifyServer.PresetIdMisfiled | ChangeNotifyServer.Server.OnRegisterFixed |
| boot/freeldr/freeldr/ui/tui.c:529-537 | only hours above 12 count as PM, so hour 12 shows as "12:mm:ss AM", the same as hour 0 | TimeInfo->Hour = 12 | noon as 12 PM (PM for hours 12 to 23) | medium, not executed | TuiDateTime.NoonShownAsMidnight | TuiDateTime.ClockFixedRoundTrip |

=== FILE: change_notify_server.dfy ===
/**
 * CChangeNotifyServer: the window that owns the table of registrations (m_items) and the
 * registration-id counter (m_nNextRegID), and handles the CN_* messages.  Each handler is
 * modelled as running to completion: a handler re-entered from inside SendMessageW while a
 * notification is being delivered is outside the model, so DeliverNotification sees the table
 * as it stood when delivery began.
 *
 * The cross-process shared memory is the map `shm` from handles to blocks.  The calls into
 * code that is not part of this model leave their traces in ghost logs: SHFreeShared in
 * `freed`, CDirectoryWatcher::RequestTermination in `stopped`, DestroyWindow in
 * `destroyedWindows`, `delete pDirWatch` in `deletedWatchers`, SendMessageW in `sends`,
 * RequestAllWatchersTermination in `stopAllRequests`; `openViews` counts the views locked
 * with SHLockSharedEx and not yet released with SHUnlockShared.  What the environment
 * answers during a registration (the target window's process, the clone's handle or an
 * allocation failure, the watcher or its absence, RequestAddWatcher's verdict) is a
 * parameter.
 */
module ChangeNotifyServer {
  import opened Wrappers
  import opened NotifyMatch
  import opened NotifyRegistry

  /** The environment's answers during one CN_REGISTER. */
  datatype RegisterEnv = RegisterEnv(
    userPid: Pid,          // GetWindowThreadProcessId(pRegEntry->hwnd)
    cloneHandle: Handle,   // SHAllocShared's result; NULL when it fails
    watcher: WatcherRef,   // CreateDirectoryWatcherFromRegEntry's result; NULL when it fails
    addWatcherOk: bool)    // RequestAddWatcher's result

  /** The messages of the server's message map. */
  datatype Message =
    | Register(hRegEntry: Handle, ownerPid: Pid, env: RegisterEnv)
    | UnRegister(regId: RegId)
    | DeliverNotification(hTicket: Handle, ticketOwnerPid: Pid, il: PidlOracle)
    | SuspendResume
    | RemoveByPid(userPid: Pid)
    | Destroy

  /** An entry asks for a directory watcher when it has a pidl and interrupt-level events. */
  predicate WantsWatcher(e: RegEntry) {
    e.pidl.Some? && HasBits(e.sources, SHCNRF_INTERRUPT_LEVEL)
  }

  /** The entry after OnRegister's id step: an entry without id takes the next counter value. */
  function WithId(e: RegEntry, counter: RegId): (r: RegEntry)
    ensures r.regId != INVALID_REG_ID
    ensures e.regId != INVALID_REG_ID ==> r == e
    ensures e.regId == INVALID_REG_ID ==> r == e.(regId := NextRegId(counter))
  {
    if e.regId == INVALID_REG_ID then e.(regId := NextRegId(counter)) else e
  }

  /** The counter after OnRegister's id step. */
  function Counter(e: RegEntry, counter: RegId): (n: RegId) {
    if e.regId == INVALID_REG_ID then NextRegId(counter) else counter
  }

  /** What OnRegister leaves behind once the entry `e` (already holding its id) sits at
      hRegEntry in shm: a clone failure resets the entry's id; a RequestAddWatcher failure
      resets it too, deletes the watcher and leaves the clone allocated; otherwise the clone
      joins the table in a slot with id `slotId`, with the watcher if the entry asked for one. */
  ghost predicate RegisterOutcome(
    items: seq<Item>, shm: map<Handle, Block>, clones: set<Handle>, deleted: seq<WatcherRef>,
    hRegEntry: Handle, e: RegEntry, slotId: RegId, env: RegisterEnv,
    items': seq<Item>, shm': map<Handle, Block>, clones': set<Handle>, deleted': seq<WatcherRef>, ok: bool)
  {
    var clone := env.cloneHandle;
    var watcher := if WantsWatcher(e) then env.watcher else NULL;
    var reset := shm[hRegEntry := EntryBlock(e.(regId := INVALID_REG_ID))];
    if clone == NULL then
      !ok && items' == items && clones' == clones && shm' == reset && deleted' == deleted
    else if watcher != NULL && !env.addWatcherOk then
      && !ok && items' == items
      && shm' == reset[clone := EntryBlock(e)]
      && clones' == clones + {clone}
      && deleted' == deleted + [watcher]
    else
      && ok
      && shm' == shm[clone := EntryBlock(e)]
      && clones' == clones + {clone}
      && deleted' == deleted
      && items' == AddedTo(items, Item(slotId, env.userPid, clone, e.hwndBroker, watcher))
  }

  /** As written, a RequestAddWatcher failure leaves the clone allocated with no slot holding
      it: the table no longer owns exactly the live clones. */
  lemma WatcherFailureLeaksClone(
    items: seq<Item>, shm: map<Handle, Block>, clones: set<Handle>, deleted: seq<WatcherRef>,
    hRegEntry: Handle, e: RegEntry, slotId: RegId, env: RegisterEnv,
    items': seq<Item>, shm': map<Handle, Block>, clones': set<Handle>, deleted': seq<WatcherRef>, ok: bool)
    requires Owns(items, clones)
    requires env.cloneHandle != NULL && env.cloneHandle !in clones && env.cloneHandle != hRegEntry
    requires WantsWatcher(e) && env.watcher != NULL && !env.addWatcherOk
    requires RegisterOutcome(items, shm, clones, deleted, hRegEntry, e, slotId, env,
                             items', shm', clones', deleted', ok)
    ensures !ok && env.cloneHandle in shm' && !Owns(items', clones')
  {
    UnheldCloneBreaksOwnership(items, clones, env.cloneHandle);
  }

  /** As written, the new slot takes the counter's value: an entry that arrives with an id of
      its own is filed under another id, and on a server that has never issued an id the
      slot is filed under the sentinel, so it looks free while it holds a clone. */
  lemma PresetIdMisfiled(
    items: seq<Item>, shm: map<Handle, Block>, clones: set<Handle>, deleted: seq<WatcherRef>,
    hRegEntry: Handle, e: RegEntry, env: RegisterEnv,
    items': seq<Item>, shm': map<Handle, Block>, clones': set<Handle>, deleted': seq<WatcherRef>, ok: bool)
    requires Owns(items, clones)
    requires e.regId != INVALID_REG_ID
    requires env.cloneHandle != NULL && env.cloneHandle !in clones
    requires !WantsWatcher(e)
    requires RegisterOutcome(items, shm, clones, deleted, hRegEntry, e, INVALID_REG_ID, env,
                             items', shm', clones', deleted', ok)
    ensures ok
    ensures forall k :: 0 <= k < |items'| && items'[k].regEntry == env.cloneHandle ==> items'[k].regId != e.regId
    ensures !Owns(items', clones')
  {
    var it := Item(INVALID_REG_ID, env.userPid, env.cloneHandle, e.hwndBroker, NULL);
    SentinelSlotBreaksOwnership(items, clones, it);
    forall k | 0 <= k < |items'| && items'[k].regEntry == env.cloneHandle
      ensures items'[k].regId != e.regId
    {
      if k < |items| && items'[k] == items[k] {
        assert false;
      }
    }
  }

  class Server {
    var items: seq<Item>
    var nextRegId: RegId
    var shm: map<Handle, Block>
    /** The process of the server window, GetWindowThreadProcessId(m_hWnd). */
    const serverPid: Pid

    ghost var clones: set<Handle>
    ghost var openViews: int
    ghost var freed: seq<Handle>
    ghost var stopped: seq<WatcherRef>
    ghost var destroyedWindows: seq<Hwnd>
    ghost var deletedWatchers: seq<WatcherRef>
    ghost var sends: seq<Send>
    ghost var stopAllRequests: nat

    /** The table owns exactly the live clones, which are mapped shared blocks. */
    ghost predicate Valid()
      reads this
    {
      && Owns(items, clones)
      && clones <= shm.Keys
      && NULL !in shm
    }

    constructor (pid: Pid, sharedMemory: map<Handle, Block>)
      requires NULL !in sharedMemory
      ensures Valid()
      ensures items == [] && nextRegId == INVALID_REG_ID && shm == sharedMemory && serverPid == pid
      ensures clones == {} && openViews == 0 && stopAllRequests == 0
      ensures freed == [] && stopped == [] && destroyedWindows == [] && deletedWatchers == [] && sends == []
    {
      items := [];
      nextRegId := INVALID_REG_ID;
      shm := sharedMemory;
      serverPid := pid;
      clones := {};
      openViews := 0;
      freed, stopped, destroyedWindows, deletedWatchers, sends := [], [], [], [], [];
      stopAllRequests := 0;
    }

    /** SHLockSharedEx: a view of the block, or None (NULL) for a handle that maps nothing. */
    method LockShared(h: Handle) returns (view: Option<Block>)
      modifies this`openViews
      ensures view == (if h in shm then Some(shm[h]) else None)
      ensures openViews == old(openViews) + (if view.Some? then 1 else 0)
    {
      if h in shm {
        view := Some(shm[h]);
        openViews := openViews + 1;
      } else {
        view := None;
      }
    }

    /** SHUnlockShared: releases a view; NULL is accepted and ignored. */
    method UnlockShared(view: Option<Block>)
      modifies this`openViews
      ensures openViews == old(openViews) - (if view.Some? then 1 else 0)
    {
      if view.Some? {
        openViews := openViews - 1;
      }
    }

    /** SHFreeShared. */
    method FreeShared(h: Handle)
      modifies this`shm, this`clones, this`freed
      ensures shm == old(shm) - {h} && clones == old(clones) - {h} && freed == old(freed) + [h]
    {
      shm := shm - {h};
      clones := clones - {h};
      freed := freed + [h];
    }

    /** GetNextRegID: increments the counter, once more if it lands on the sentinel. */
    method GetNextRegID() returns (id: RegId)
      modifies this`nextRegId
      ensures id == nextRegId == NextRegId(old(nextRegId))
      ensures id != INVALID_REG_ID
    {
      nextRegId := ((nextRegId as int + 1) % 0x1_0000_0000) as RegId;
      if nextRegId == INVALID_REG_ID {
        nextRegId := ((nextRegId as int + 1) % 0x1_0000_0000) as RegId;
      }
      id := nextRegId;
    }

    /** AddItem: fills the first free slot, or appends a slot; always succeeds. */
    method AddItem(regId: RegId, userPid: Pid, hRegEntry: Handle, hwndBroker: Hwnd, watcher: WatcherRef)
      returns (ok: bool)
      modifies this`items
      ensures ok
      ensures items == AddedTo(old(items), Item(regId, userPid, hRegEntry, hwndBroker, watcher))
    {
      var it := Item(regId, userPid, hRegEntry, hwndBroker, watcher);
      var i := 0;
      while i < |items|
        invariant 0 <= i <= |items| && items == old(items)
        invariant forall j :: 0 <= j < i ==> !IsFree(items[j])
      {
        if items[i].regId == INVALID_REG_ID {
          items := items[i := it];
          return true;
        }
        i := i + 1;
      }
      items := items + [it];
      return true;
    }

    /** DestroyItem: destroys the slot's broker window unless it is NULL or the window this
        pass destroyed last, asks its watcher to terminate, frees its entry and blanks it. */
    method DestroyItem(i: nat, ownerPid: Pid, lastBroker: Hwnd) returns (newLastBroker: Hwnd)
      requires i < |items|
      modifies this
      ensures items == old(items)[i := EMPTY_ITEM]
      ensures Teardown(freed, stopped, destroyedWindows, newLastBroker)
                == DestroyCalls(Teardown(old(freed), old(stopped), old(destroyedWindows), lastBroker), old(items)[i])
      ensures shm == old(shm) - {old(items)[i].regEntry}
      ensures clones == old(clones) - {old(items)[i].regEntry}
      ensures nextRegId == old(nextRegId) && sends == old(sends) && openViews == old(openViews)
      ensures deletedWatchers == old(deletedWatchers) && stopAllRequests == old(stopAllRequests)
    {
      var item := items[i];
      newLastBroker := lastBroker;
      if item.hwndBroker != NULL && item.hwndBroker != lastBroker {
        destroyedWindows := destroyedWindows + [item.hwndBroker];
        newLastBroker := item.hwndBroker;
      }
      if item.watcher != NULL {
        stopped := stopped + [item.watcher];
      }
      FreeShared(item.regEntry);
      items := items[i := EMPTY_ITEM];
    }

    /** The loop shared by RemoveItemsByRegID and RemoveItemsByProcess: destroys every slot
        the selector picks, in index order, and tells whether it found one. */
    method RemoveSelected(sel: Selector, ownerPid: Pid) returns (found: bool)
      modifies this
      ensures items == Cleared(old(items), sel)
      ensures found == (Victims(old(items), sel) != [])
      ensures freed == old(freed) + TeardownOf(old(items), sel).freed
      ensures stopped == old(stopped) + TeardownOf(old(items), sel).stopped
      ensures destroyedWindows == old(destroyedWindows) + TeardownOf(old(items), sel).destroyed
      ensures shm == old(shm) - Elems(TeardownOf(old(items), sel).freed)
      ensures clones == old(clones) - Elems(TeardownOf(old(items), sel).freed)
      ensures nextRegId == old(nextRegId) && sends == old(sends) && openViews == old(openViews)
      ensures deletedWatchers == old(deletedWatchers) && stopAllRequests == old(stopAllRequests)
    {
      found := false;
      var hwndBroker: Hwnd := NULL;
      var i := 0;
      ghost var s := items;
      ghost var before := Teardown(freed, stopped, destroyedWindows, NULL);
      assert s[..0] == [];
      while i < |items|
        invariant 0 <= i <= |items| == |s|
        invariant forall k :: 0 <= k < |s| ==>
                    items[k] == (if k < i && Selects(sel, s[k]) then EMPTY_ITEM else s[k])
        invariant found == exists k :: 0 <= k < i && Selects(sel, s[k])
        invariant Teardown(freed, stopped, destroyedWindows, hwndBroker) == After(before, TeardownOf(s[..i], sel))
        invariant shm == old(shm) - Elems(TeardownOf(s[..i], sel).freed)
        invariant clones == old(clones) - Elems(TeardownOf(s[..i], sel).freed)
        invariant nextRegId == old(nextRegId) && sends == old(sends) && openViews == old(openViews)
        invariant deletedWatchers == old(deletedWatchers) && stopAllRequests == old(stopAllRequests)
      {
        var hit;
        hwndBroker, hit := VisitSlot(i, sel, ownerPid, hwndBroker, s, before);
        found := found || hit;
        i := i + 1;
      }
      assert s[..i] == s;
      FoundIffPresent(s, sel);
    }

    /** One turn of the removal loop: slot i is destroyed when the selector picks it. */
    method VisitSlot(i: nat, sel: Selector, ownerPid: Pid, hwndBroker: Hwnd, ghost s: seq<Item>, ghost before: Teardown)
      returns (newBroker: Hwnd, hit: bool)
      requires i < |s| == |items|
      requires forall k :: 0 <= k < |s| ==> items[k] == (if k < i && Selects(sel, s[k]) then EMPTY_ITEM else s[k])
      requires Teardown(freed, stopped, destroyedWindows, hwndBroker) == After(before, TeardownOf(s[..i], sel))
      modifies this
      ensures |items| == |s| && hit == Selects(sel, s[i])
      ensures forall k :: 0 <= k < |s| ==>
                items[k] == (if k < i + 1 && Selects(sel, s[k]) then EMPTY_ITEM else s[k])
      ensures Teardown(freed, stopped, destroyedWindows, newBroker) == After(before, TeardownOf(s[..i + 1], sel))
      ensures Elems(TeardownOf(s[..i + 1], sel).freed)
              == Elems(TeardownOf(s[..i], sel).freed) + (if hit then {s[i].regEntry} else {})
      ensures shm == old(shm) - (if hit then {s[i].regEntry} else {})
      ensures clones == old(clones) - (if hit then {s[i].regEntry} else {})
      ensures nextRegId == old(nextRegId) && sends == old(sends) && openViews == old(openViews)
      ensures deletedWatchers == old(deletedWatchers) && stopAllRequests == old(stopAllRequests)
    {
      RemovalStep(s, i, sel);
      newBroker, hit := hwndBroker, false;
      if Selects(sel, items[i]) {
        hit := true;
        AfterDestroyCalls(before, TeardownOf(s[..i], sel), s[i]);
        newBroker := DestroyItem(i, ownerPid, hwndBroker);
      }
    }

    /** RemoveItemsByRegID: destroys every slot holding the id; TRUE iff there was one. */
    method RemoveItemsByRegID(regId: RegId, ownerPid: Pid) returns (found: bool)
      requires regId != INVALID_REG_ID
      requires Valid()
      modifies this
      ensures Valid()
      ensures found <==> exists i :: 0 <= i < |old(items)| && old(items)[i].regId == regId
      ensures forall i :: 0 <= i < |items| ==> items[i].regId != regId
      ensures items == Cleared(old(items), ByRegId(regId))
      ensures freed == old(freed) + TeardownOf(old(items), ByRegId(regId)).freed
      ensures stopped == old(stopped) + TeardownOf(old(items), ByRegId(regId)).stopped
      ensures destroyedWindows == old(destroyedWindows) + TeardownOf(old(items), ByRegId(regId)).destroyed
      ensures shm == old(shm) - Elems(TeardownOf(old(items), ByRegId(regId)).freed)
      ensures nextRegId == old(nextRegId) && sends == old(sends) && openViews == old(openViews)
      ensures deletedWatchers == old(deletedWatchers) && stopAllRequests == old(stopAllRequests)
    {
      ghost var s, c := items, clones;
      FoundIffPresent(s, ByRegId(regId));
      OwnsAfterClear(s, c, ByRegId(regId));
      found := RemoveSelected(ByRegId(regId), ownerPid);
    }

    /** RemoveItemsByProcess: destroys every slot whose target window belongs to the process. */
    method RemoveItemsByProcess(ownerPid: Pid, userPid: Pid)
      requires userPid != 0
      requires Valid()
      modifies this
      ensures Valid()
      ensures forall i :: 0 <= i < |items| ==> items[i].userPid != userPid
      ensures items == Cleared(old(items), ByUserPid(userPid))
      ensures freed == old(freed) + TeardownOf(old(items), ByUserPid(userPid)).freed
      ensures stopped == old(stopped) + TeardownOf(old(items), ByUserPid(userPid)).stopped
      ensures destroyedWindows == old(destroyedWindows) + TeardownOf(old(items), ByUserPid(userPid)).destroyed
      ensures shm == old(shm) - Elems(TeardownOf(old(items), ByUserPid(userPid)).freed)
      ensures nextRegId == old(nextRegId) && sends == old(sends) && openViews == old(openViews)
      ensures deletedWatchers == old(deletedWatchers) && stopAllRequests == old(stopAllRequests)
    {
      ghost var s, c := items, clones;
      OwnsAfterClear(s, c, ByUserPid(userPid));
      var _ := RemoveSelected(ByUserPid(userPid), ownerPid);
    }

    /** OnUnRegister (CN_UNREGISTER): refuses the sentinel, otherwise removes by id with the
        server's own process as owner. */
    method OnUnRegister(regId: RegId) returns (ok: bool)
      requires Valid()
      modifies this
      ensures Valid()
      ensures regId == INVALID_REG_ID ==>
                && !ok && items == old(items) && shm == old(shm) && clones == old(clones)
                && freed == old(freed) && stopped == old(stopped) && destroyedWindows == old(destroyedWindows)
      ensures regId != INVALID_REG_ID ==>
                && (ok <==> exists i :: 0 <= i < |old(items)| && old(items)[i].regId == regId)
                && items == Cleared(old(items), ByRegId(regId))
                && freed == old(freed) + TeardownOf(old(items), ByRegId(regId)).freed
                && stopped == old(stopped) + TeardownOf(old(items), ByRegId(regId)).stopped
                && destroyedWindows == old(destroyedWindows) + TeardownOf(old(items), ByRegId(regId)).destroyed
                && shm == old(shm) - Elems(TeardownOf(old(items), ByRegId(regId)).freed)
      ensures nextRegId == old(nextRegId) && sends == old(sends) && openViews == old(openViews)
      ensures deletedWatchers == old(deletedWatchers) && stopAllRequests == old(stopAllRequests)
    {
      if regId == INVALID_REG_ID {
        return false;
      }
      ok := RemoveItemsByRegID(regId, serverPid);
    }

    /** OnRemoveByPID (CN_UNREGISTER_PROCESS): removes the process's slots; answers 0. */
    method OnRemoveByPID(userPid: Pid) returns (r: int)
      requires userPid != 0
      requires Valid()
      modifies this
      ensures Valid() && r == 0
      ensures items == Cleared(old(items), ByUserPid(userPid))
      ensures freed == old(freed) + TeardownOf(old(items), ByUserPid(userPid)).freed
      ensures stopped == old(stopped) + TeardownOf(old(items), ByUserPid(userPid)).stopped
      ensures destroyedWindows == old(destroyedWindows) + TeardownOf(old(items), ByUserPid(userPid)).destroyed
      ensures shm == old(shm) - Elems(TeardownOf(old(items), ByUserPid(userPid)).freed)
      ensures nextRegId == old(nextRegId) && sends == old(sends) && openViews == old(openViews)
      ensures deletedWatchers == old(deletedWatchers) && stopAllRequests == old(stopAllRequests)
    {
      RemoveItemsByProcess(serverPid, userPid);
      r := 0;
    }

    /** DeliverNotification: validates the ticket, then visits every slot in index order and
        sends the ticket to each slot it should notify; the table is left as it was. */
    method DeliverNotification(hTicket: Handle, ownerPid: Pid, il: PidlOracle) returns (ok: bool)
      modifies this`sends, this`openViews
      ensures ok == LockedTicket(shm, hTicket).Some?
      ensures sends == old(sends) + (if ok then Deliveries(items, shm, LockedTicket(shm, hTicket).value, il, hTicket, ownerPid) else [])
      ensures openViews == old(openViews)
    {
      var ticketView := LockShared(hTicket);
      if ticketView.None? || !ticketView.value.TicketBlock? || ticketView.value.ticket.magic != DELITICKET_MAGIC {
        UnlockShared(ticketView);
        return false;
      }
      var ticket := ticketView.value.ticket;
      var i := 0;
      while i < |items|
        invariant 0 <= i <= |items|
        invariant sends == old(sends) + Deliveries(items[..i], shm, ticket, il, hTicket, ownerPid)
        invariant openViews == old(openViews) + 1
      {
        DeliveriesStep(items, i, shm, ticket, il, hTicket, ownerPid);
        NotifySlot(i, ticket, il, hTicket, ownerPid);
        i := i + 1;
      }
      assert items[..i] == items;
      UnlockShared(ticketView);
      ok := true;
    }

    /** One iteration of the delivery loop: skips a free slot or one whose entry does not
        lock as a registration entry, and sends the ticket to the slot's window if it
        should be notified. */
    method NotifySlot(i: nat, ticket: DeliTicket, il: PidlOracle, hTicket: Handle, ownerPid: Pid)
      requires i < |items|
      modifies this`sends, this`openViews
      ensures sends == old(sends) + (if Eligible(items[i], shm, ticket, il)
                                     then [SendFor(i, LockedEntry(shm, items[i].regEntry).value, hTicket, ownerPid)]
                                     else [])
      ensures openViews == old(openViews)
    {
      if items[i].regId == INVALID_REG_ID || items[i].regEntry == NULL {
        return;
      }
      var entryView := LockShared(items[i].regEntry);
      if entryView.None? || !entryView.value.EntryBlock? || entryView.value.entry.magic != REGENTRY_MAGIC {
        UnlockShared(entryView);
        return;
      }
      var entry := entryView.value.entry;
      if ShouldNotify(ticket, entry, il) {
        sends := sends + [Send(i, entry.hwnd, entry.msg, hTicket, ownerPid)];
      }
      UnlockShared(entryView);
    }

    /** OnDeliverNotification (CN_DELIVER_NOTIFICATION): delivers, then frees the ticket,
        whatever the delivery answered. */
    method OnDeliverNotification(hTicket: Handle, ownerPid: Pid, il: PidlOracle) returns (ok: bool)
      requires Valid()
      requires hTicket !in clones
      modifies this
      ensures Valid()
      ensures ok == LockedTicket(old(shm), hTicket).Some?
      ensures sends == old(sends) + (if ok then Deliveries(items, old(shm), LockedTicket(old(shm), hTicket).value, il, hTicket, ownerPid) else [])
      ensures freed == old(freed) + [hTicket]
      ensures shm == old(shm) - {hTicket}
      ensures items == old(items) && clones == old(clones) && nextRegId == old(nextRegId)
      ensures openViews == old(openViews) && stopped == old(stopped) && destroyedWindows == old(destroyedWindows)
      ensures deletedWatchers == old(deletedWatchers) && stopAllRequests == old(stopAllRequests)
    {
      ok := DeliverNotification(hTicket, ownerPid, il);
      FreeShared(hTicket);
    }

    /** OnRegister (CN_REGISTER), as the source has it: validates the entry, gives it an id if
        it has none, clones it, starts a watcher if it asks for one, and adds a slot whose id
        is m_nNextRegID.  When RequestAddWatcher fails the clone stays allocated and no slot
        holds it; when the entry arrived with an id of its own the slot still gets the
        counter's value. */
    method OnRegister(hRegEntry: Handle, ownerPid: Pid, env: RegisterEnv) returns (ok: bool)
      requires env.cloneHandle == NULL || env.cloneHandle !in shm
      modifies this`items, this`shm, this`clones, this`deletedWatchers, this`nextRegId, this`openViews
      ensures openViews == old(openViews)
      ensures freed == old(freed) && stopped == old(stopped) && sends == old(sends)
      ensures LockedEntry(old(shm), hRegEntry).None? ==>
                !ok && items == old(items) && shm == old(shm) && clones == old(clones)
                && nextRegId == old(nextRegId) && deletedWatchers == old(deletedWatchers)
      ensures LockedEntry(old(shm), hRegEntry).Some? ==>
                var e := WithId(LockedEntry(old(shm), hRegEntry).value, old(nextRegId));
                && nextRegId == Counter(LockedEntry(old(shm), hRegEntry).value, old(nextRegId))
                && RegisterOutcome(old(items), old(shm)[hRegEntry := EntryBlock(e)], old(clones), old(deletedWatchers),
                                   hRegEntry, e, nextRegId, env, items, shm, clones, deletedWatchers, ok)
    {
      var view := LockShared(hRegEntry);
      if view.None? || !view.value.EntryBlock? || view.value.entry.magic != REGENTRY_MAGIC {
        UnlockShared(view);
        return false;
      }
      var entry := view.value.entry;
      ghost var shm0, counter0 := shm, nextRegId;
      assert LockedEntry(shm0, hRegEntry) == Some(entry);
      if entry.regId == INVALID_REG_ID {
        var id := GetNextRegID();
        entry := entry.(regId := id);
        shm := shm[hRegEntry := EntryBlock(entry)];
      }
      assert entry == WithId(LockedEntry(shm0, hRegEntry).value, counter0);
      assert nextRegId == Counter(LockedEntry(shm0, hRegEntry).value, counter0);
      assert shm[hRegEntry := EntryBlock(entry)] == shm0[hRegEntry := EntryBlock(entry)];
      ok := CloneAndAdd(hRegEntry, entry, env, nextRegId);
      UnlockShared(view);
    }

    /** The rest of OnRegister once the entry is locked and has an id: clone it, start its
        watcher, add the slot with id `slotId`; on a failure, reset the entry's id. */
    method CloneAndAdd(hRegEntry: Handle, entry: RegEntry, env: RegisterEnv, slotId: RegId)
      returns (ok: bool)
      requires hRegEntry in shm
      requires env.cloneHandle == NULL || env.cloneHandle !in shm
      modifies this`items, this`shm, this`clones, this`deletedWatchers
      ensures RegisterOutcome(old(items), old(shm)[hRegEntry := EntryBlock(entry)], old(clones),
                              old(deletedWatchers), hRegEntry, entry, slotId, env,
                              items, shm, clones, deletedWatchers, ok)
    {
      shm := shm[hRegEntry := EntryBlock(entry)];
      var hNewEntry := env.cloneHandle;
      if hNewEntry == NULL {
        shm := shm[hRegEntry := EntryBlock(entry.(regId := INVALID_REG_ID))];
        return false;
      }
      shm := shm[hNewEntry := EntryBlock(entry)];
      clones := clones + {hNewEntry};
      var dirWatch: WatcherRef := NULL;
      if entry.pidl.Some? && HasBits(entry.sources, SHCNRF_INTERRUPT_LEVEL) {
        dirWatch := env.watcher;
        if dirWatch != NULL && !env.addWatcherOk {
          assert hNewEntry != hRegEntry;
          shm := shm[hRegEntry := EntryBlock(entry.(regId := INVALID_REG_ID))];
          deletedWatchers := deletedWatchers + [dirWatch];
          return false;
        }
      }
      ok := AddItem(slotId, env.userPid, hNewEntry, entry.hwndBroker, dirWatch);
    }

    /** OnRegister as evidently intended: the slot takes the entry's own id, and a failed
        RequestAddWatcher frees the clone again.  Keeps the table owning exactly the live
        clones. */
    method OnRegisterFixed(hRegEntry: Handle, ownerPid: Pid, env: RegisterEnv) returns (ok: bool)
      requires Valid()
      requires env.cloneHandle == NULL || env.cloneHandle !in shm
      modifies this`items, this`shm, this`clones, this`deletedWatchers, this`freed, this`nextRegId, this`openViews
      ensures Valid()
      ensures openViews == old(openViews) && stopped == old(stopped) && sends == old(sends)
      ensures LockedEntry(old(shm), hRegEntry).None? ==>
                !ok && items == old(items) && shm == old(shm) && nextRegId == old(nextRegId)
      ensures ok ==>
                && LockedEntry(old(shm), hRegEntry).Some?
                && var e := WithId(LockedEntry(old(shm), hRegEntry).value, old(nextRegId));
                && nextRegId == Counter(LockedEntry(old(shm), hRegEntry).value, old(nextRegId))
                && clones == old(clones) + {env.cloneHandle}
                && items == AddedTo(old(items), Item(e.regId, env.userPid, env.cloneHandle, e.hwndBroker,
                                                     if WantsWatcher(e) then env.watcher else NULL))
      ensures !ok ==> items == old(items) && clones == old(clones)
    {
      var view := LockShared(hRegEntry);
      if view.None? || !view.value.EntryBlock? || view.value.entry.magic != REGENTRY_MAGIC {
        UnlockShared(view);
        return false;
      }
      var entry := view.value.entry;
      ghost var shm0, counter0 := shm, nextRegId;
      assert LockedEntry(shm0, hRegEntry) == Some(entry);
      if entry.regId == INVALID_REG_ID {
        var id := GetNextRegID();
        entry := entry.(regId := id);
        shm := shm[hRegEntry := EntryBlock(entry)];
      }
      assert entry == WithId(LockedEntry(shm0, hRegEntry).value, counter0);
      assert nextRegId == Counter(LockedEntry(shm0, hRegEntry).value, counter0);
      ok := CloneAndAddFixed(hRegEntry, entry, env);
      UnlockShared(view);
    }

    /** The rest of OnRegisterFixed: the slot takes the entry's id, and the clone is freed
        again when RequestAddWatcher fails. */
    method CloneAndAddFixed(hRegEntry: Handle, entry: RegEntry, env: RegisterEnv) returns (ok: bool)
      requires Valid()
      requires hRegEntry in shm && entry.regId != INVALID_REG_ID
      requires env.cloneHandle == NULL || env.cloneHandle !in shm
      modifies this`items, this`shm, this`clones, this`deletedWatchers, this`freed
      ensures Valid()
      ensures ok ==>
                && clones == old(clones) + {env.cloneHandle}
                && items == AddedTo(old(items), Item(entry.regId, env.userPid, env.cloneHandle, entry.hwndBroker,
                                                     if WantsWatcher(entry) then env.watcher else NULL))
      ensures !ok ==> items == old(items) && clones == old(clones)
    {
      var hNewEntry := env.cloneHandle;
      if hNewEntry == NULL {
        shm := shm[hRegEntry := EntryBlock(entry.(regId := INVALID_REG_ID))];
        return false;
      }
      shm := shm[hRegEntry := EntryBlock(entry)][hNewEntry := EntryBlock(entry)];
      var dirWatch: WatcherRef := NULL;
      if entry.pidl.Some? && HasBits(entry.sources, SHCNRF_INTERRUPT_LEVEL) {
        dirWatch := env.watcher;
        if dirWatch != NULL && !env.addWatcherOk {
          shm := shm[hRegEntry := EntryBlock(entry.(regId := INVALID_REG_ID))];
          deletedWatchers := deletedWatchers + [dirWatch];
          FreeShared(hNewEntry);
          return false;
        }
      }
      OwnsAfterAdd(items, clones, Item(entry.regId, env.userPid, hNewEntry, entry.hwndBroker, dirWatch));
      clones := clones + {hNewEntry};
      ok := AddItem(entry.regId, env.userPid, hNewEntry, entry.hwndBroker, dirWatch);
    }

    /** OnSuspendResume (CN_SUSPEND_RESUME): not implemented by the source; answers FALSE. */
    method OnSuspendResume() returns (ok: bool)
      ensures !ok
    {
      ok := false;
    }

    /** OnDestroy (WM_DESTROY): asks every directory watcher to terminate; answers 0. */
    method OnDestroy() returns (r: int)
      modifies this`stopAllRequests
      ensures r == 0 && stopAllRequests == old(stopAllRequests) + 1
    {
      stopAllRequests := stopAllRequests + 1;
      r := 0;
    }

    /** What the environment must guarantee for a message: a fresh clone handle for a
        registration, a ticket that is not one of the server's clones for a delivery, a
        non-zero process for CN_UNREGISTER_PROCESS. */
    ghost predicate Acceptable(m: Message)
      reads this
    {
      match m
      case Register(_, _, env) => env.cloneHandle == NULL || env.cloneHandle !in shm
      case DeliverNotification(hTicket, _, _) => hTicket !in clones
      case RemoveByPid(pid) => pid != 0
      case _ => true
    }

    /** The message map, with the corrected registration: every handler keeps the table
        owning exactly the live clones. */
    method Dispatch(m: Message) returns (r: int)
      requires Valid() && Acceptable(m)
      modifies this
      ensures Valid()
    {
      var ok: bool;
      match m {
        case Register(h, pid, env) => ok := OnRegisterFixed(h, pid, env);
        case UnRegister(id) => ok := OnUnRegister(id);
        case DeliverNotification(h, pid, il) => ok := OnDeliverNotification(h, pid, il);
        case SuspendResume => ok := OnSuspendResume();
        case RemoveByPid(pid) => { r := OnRemoveByPID(pid); return; }
        case Destroy => { r := OnDestroy(); return; }
      }
      r := if ok then 1 else 0;
    }
  }
}

=== FILE: notify_match.dfy ===
/**
 * The shared records of the shell change-notification broker and the pure decision
 * `ShouldNotify` that tells whether one delivery ticket concerns one registration entry
 * (CChangeNotifyServer.cpp, ShouldNotify).
 *
 * Item-id lists (PIDLs) are modelled as sequences of item ids.  The shell routines
 * `ILIsParent` and `ILIsEqual` are not part of this model; they enter as the two functions
 * of a `PidlOracle`, and every property below holds for every oracle.
 */
module NotifyMatch {
  import opened Wrappers

  /** An item-id list: the sequence of shell item ids from the desktop down. */
  type Pidl = seq<nat>

  /** Opaque Win32 values; 0 plays the part of NULL. */
  type Handle = nat
  type Hwnd = nat
  type Pid = nat

  const NULL: nat := 0

  /** Event bits of a ticket (wEventId) and of an entry (fEvents). */
  const SHCNE_INTERRUPT: bv32 := 0x8000_0000
  const SHCNE_GLOBALEVENTS: bv32 := 0x0C05_81E0

  /** Source bits of an entry (fSources). */
  const SHCNRF_INTERRUPT_LEVEL: bv32 := 0x0001
  const SHCNRF_SHELL_LEVEL: bv32 := 0x0002

  /** Magic tags that validate a shared block before any field is trusted. */
  const REGENTRY_MAGIC: bv32 := 0xB58B_7B2B
  const DELITICKET_MAGIC: bv32 := 0xDEAD_FACE

  /** A registration id is a 32-bit UINT; 0 is the sentinel of a free slot. */
  newtype RegId = x: int | 0 <= x < 0x1_0000_0000
  const INVALID_REG_ID: RegId := 0

  /** REGENTRY: a registration as it lives in shared memory; `pidl` is None when ibPidl is 0. */
  datatype RegEntry = RegEntry(
    magic: bv32,
    size: nat,
    regId: RegId,
    hwnd: Hwnd,
    msg: nat,
    sources: bv32,
    events: bv32,
    recursive: bool,
    hwndBroker: Hwnd,
    pidl: Option<Pidl>)

  /** DELITICKET: one event to deliver; `pidl1`/`pidl2` are None when their offsets are 0. */
  datatype DeliTicket = DeliTicket(
    magic: bv32,
    eventId: bv32,
    pidl1: Option<Pidl>,
    pidl2: Option<Pidl>)

  /** The shell's PIDL comparisons: ILIsParent(parent, child, immediate) and ILIsEqual(a, b). */
  datatype PidlOracle = PidlOracle(
    isParent: (Pidl, Option<Pidl>, bool) -> bool,
    isEqual: (Pidl, Option<Pidl>) -> bool)

  predicate HasBits(x: bv32, bits: bv32) { x & bits != 0 }

  /** The source test: an interrupt-level ticket needs an interrupt-level entry with a
      pidl, any other ticket needs a shell-level entry. */
  predicate SourceAccepts(t: DeliTicket, e: RegEntry) {
    if HasBits(t.eventId, SHCNE_INTERRUPT) then
      HasBits(e.sources, SHCNRF_INTERRUPT_LEVEL) && e.pidl.Some?
    else
      HasBits(e.sources, SHCNRF_SHELL_LEVEL)
  }

  /** The path test for an entry with a pidl and a ticket that is not global. */
  predicate PathMatches(t: DeliTicket, pidl: Pidl, recursive: bool, il: PidlOracle) {
    if recursive then
      il.isParent(pidl, t.pidl1, false) || (t.pidl2.Some? && il.isParent(pidl, t.pidl2, false))
    else
      il.isEqual(pidl, t.pidl1) || il.isParent(pidl, t.pidl1, true)
        || (t.pidl2.Some? && il.isParent(pidl, t.pidl2, true))
  }

  /** ShouldNotify: the chain of early returns, in the source's order. */
  predicate ShouldNotify(t: DeliTicket, e: RegEntry, il: PidlOracle) {
    if !SourceAccepts(t, e) then false
    else if !HasBits(t.eventId, e.events) then false
    else if e.pidl.None? || HasBits(t.eventId, SHCNE_GLOBALEVENTS) then true
    else PathMatches(t, e.pidl.value, e.recursive, il)
  }

  /** The global-event bits and the interrupt bit are disjoint, so a global ticket can be
      interrupt-level or shell-level. */
  lemma InterruptIsNotGlobal()
    ensures SHCNE_INTERRUPT & SHCNE_GLOBALEVENTS == 0
  {
  }

  /** An interrupt-level ticket never reaches an entry that did not ask for interrupt-level
      events, and a shell-level ticket never reaches an entry that did not ask for shell-level
      events, whatever the oracle. */
  lemma SourceLevelsSeparate(t: DeliTicket, e: RegEntry, il: PidlOracle)
    ensures (HasBits(t.eventId, SHCNE_INTERRUPT) && !HasBits(e.sources, SHCNRF_INTERRUPT_LEVEL))
              ==> !ShouldNotify(t, e, il)
    ensures (!HasBits(t.eventId, SHCNE_INTERRUPT) && !HasBits(e.sources, SHCNRF_SHELL_LEVEL))
              ==> !ShouldNotify(t, e, il)
    ensures HasBits(t.eventId, SHCNE_INTERRUPT) && e.pidl.None? ==> !ShouldNotify(t, e, il)
  {
  }

  /** A notification needs the ticket's and the entry's event masks to intersect. */
  lemma MasksMustIntersect(t: DeliTicket, e: RegEntry, il: PidlOracle)
    ensures t.eventId & e.events == 0 ==> !ShouldNotify(t, e, il)
  {
  }

  /** Once the source and mask tests pass, an entry without a pidl or a global ticket
      matches, and the answer does not depend on the PIDL comparisons at all. */
  lemma GlobalOrUnscopedMatches(t: DeliTicket, e: RegEntry, il: PidlOracle, il': PidlOracle)
    requires SourceAccepts(t, e) && HasBits(t.eventId, e.events)
    requires e.pidl.None? || HasBits(t.eventId, SHCNE_GLOBALEVENTS)
    ensures ShouldNotify(t, e, il) && ShouldNotify(t, e, il')
  {
  }

  /** The shell's comparisons are coherent when an immediate parent is a parent and an
      equal list counts as a (non-immediate) parent. */
  ghost predicate Coherent(il: PidlOracle) {
    && (forall a: Pidl, b: Option<Pidl> :: il.isParent(a, b, true) ==> il.isParent(a, b, false))
    && (forall a: Pidl, b: Option<Pidl> :: il.isEqual(a, b) ==> il.isParent(a, b, false))
  }

  /** With coherent comparisons, a recursive registration sees every ticket that the same
      registration made non-recursive would see. */
  lemma RecursiveSeesMore(t: DeliTicket, e: RegEntry, il: PidlOracle)
    requires Coherent(il)
    requires !e.recursive
    ensures ShouldNotify(t, e, il) ==> ShouldNotify(t, e.(recursive := true), il)
  {
    if ShouldNotify(t, e, il) && e.pidl.Some? && !HasBits(t.eventId, SHCNE_GLOBALEVENTS) {
      var p := e.pidl.value;
      if il.isEqual(p, t.pidl1) {
        assert il.isParent(p, t.pidl1, false);
      } else if il.isParent(p, t.pidl1, true) {
        assert il.isParent(p, t.pidl1, false);
      } else {
        assert il.isParent(p, t.pidl2, true);
        assert il.isParent(p, t.pidl2, false);
      }
    }
  }

  /** A non-recursive registration ignores a ticket whose pidls are neither its own pidl
      nor immediate children of it, unless the ticket is global. */
  lemma NonRecursiveIgnoresDeeperPaths(t: DeliTicket, e: RegEntry, il: PidlOracle)
    requires !e.recursive && e.pidl.Some?
    requires !HasBits(t.eventId, SHCNE_GLOBALEVENTS)
    requires !il.isEqual(e.pidl.value, t.pidl1) && !il.isParent(e.pidl.value, t.pidl1, true)
    requires t.pidl2.None? || !il.isParent(e.pidl.value, t.pidl2, true)
    ensures !ShouldNotify(t, e, il)
  {
  }
}

=== FILE: notify_registry.dfy ===
/**
 * The slot table of the change-notification server (m_items) as values: the ITEM record,
 * the registration-id counter, and the effect of each table operation written as a
 * function of the old table.  The class in change_notify_server.dfy runs the source's
 * loops and is proved to produce exactly these results.
 */
module NotifyRegistry {
  import opened Wrappers
  import opened NotifyMatch

  /** CDirectoryWatcher*: an opaque watcher; 0 is NULL. */
  type WatcherRef = nat

  /** ITEM: one slot of m_items. A slot whose id is INVALID_REG_ID is free. */
  datatype Item = Item(
    regId: RegId,
    userPid: Pid,
    regEntry: Handle,
    hwndBroker: Hwnd,
    watcher: WatcherRef)

  /** The state DestroyItem leaves a slot in. */
  const EMPTY_ITEM := Item(INVALID_REG_ID, 0, NULL, NULL, NULL)

  predicate IsFree(it: Item) { it.regId == INVALID_REG_ID }

  /** A block of cross-process shared memory, as seen through the shared-memory gateway. */
  datatype Block = EntryBlock(entry: RegEntry) | TicketBlock(ticket: DeliTicket)

  /** SHLockSharedEx followed by the REGENTRY_MAGIC check: the entry, or None when the
      handle maps nothing or the block is not a registration entry. */
  function LockedEntry(shm: map<Handle, Block>, h: Handle): (r: Option<RegEntry>)
    ensures r.Some? ==> h in shm && shm[h] == EntryBlock(r.value) && r.value.magic == REGENTRY_MAGIC
    ensures r.None? ==> h !in shm || !shm[h].EntryBlock? || shm[h].entry.magic != REGENTRY_MAGIC
  {
    if h in shm && shm[h].EntryBlock? && shm[h].entry.magic == REGENTRY_MAGIC then Some(shm[h].entry)
    else None
  }

  /** SHLockSharedEx followed by the DELITICKET_MAGIC check. */
  function LockedTicket(shm: map<Handle, Block>, h: Handle): (r: Option<DeliTicket>)
    ensures r.Some? ==> h in shm && shm[h] == TicketBlock(r.value) && r.value.magic == DELITICKET_MAGIC
    ensures r.None? ==> h !in shm || !shm[h].TicketBlock? || shm[h].ticket.magic != DELITICKET_MAGIC
  {
    if h in shm && shm[h].TicketBlock? && shm[h].ticket.magic == DELITICKET_MAGIC then Some(shm[h].ticket)
    else None
  }

  // ---------------------------------------------------------------------------------------
  // GetNextRegID

  /** The number of distinct non-sentinel ids: 2^32 - 1. */
  const ID_CYCLE: int := 0xFFFF_FFFF

  /** The UINT increment of m_nNextRegID, done a second time when it lands on the sentinel. */
  function NextRegId(n: RegId): (r: RegId)
    ensures r != INVALID_REG_ID
    ensures n != INVALID_REG_ID ==> r as int == n as int % ID_CYCLE + 1
  {
    var m := (n as int + 1) % 0x1_0000_0000;
    if m == INVALID_REG_ID as int then ((m + 1) % 0x1_0000_0000) as RegId else m as RegId
  }

  /** The id handed out by the k-th call of GetNextRegID on a server whose counter starts,
      as the constructor sets it, at INVALID_REG_ID (k = 0 is that starting value). */
  function IssuedId(k: nat): (id: RegId)
  {
    if k == 0 then INVALID_REG_ID else NextRegId(IssuedId(k - 1))
  }

  /** The counter walks through 1, 2, ..., 2^32 - 1 and starts over at 1: it never hands
      out the sentinel, and the k-th id is ((k - 1) mod (2^32 - 1)) + 1. */
  lemma {:induction false} IssuedIdCycles(k: nat)
    requires k >= 1
    ensures IssuedId(k) as int == (k - 1) % ID_CYCLE + 1
  {
    if k > 1 {
      IssuedIdCycles(k - 1);
      NextRegIdStep(IssuedId(k - 1));
      ModStep(k - 2);
    }
  }

  /** On an issued id the increment is plain: one more, or back to 1 after 2^32 - 1. */
  lemma NextRegIdStep(n: RegId)
    requires 1 <= n as int <= ID_CYCLE
    ensures NextRegId(n) as int == if n as int < ID_CYCLE then n as int + 1 else 1
  {
  }

  /** The residue of x + 1 is one more than that of x, or 0 after ID_CYCLE - 1. */
  lemma ModStep(x: nat)
    ensures (x + 1) % ID_CYCLE == if x % ID_CYCLE + 1 < ID_CYCLE then x % ID_CYCLE + 1 else 0
  {
    var q, r := x / ID_CYCLE, x % ID_CYCLE;
    assert x + 1 == q * ID_CYCLE + (r + 1);
    if r + 1 == ID_CYCLE {
      assert x + 1 == (q + 1) * ID_CYCLE;
    }
  }

  /** Any 2^32 - 1 consecutive calls of GetNextRegID hand out pairwise distinct ids; an id
      comes back only after the counter has wrapped around. */
  lemma IssuedIdsDistinct(j: nat, k: nat)
    requires 1 <= j < k < j + ID_CYCLE
    ensures IssuedId(j) != IssuedId(k)
  {
    ModDiffers(j - 1, k - 1);
    var a, b := (j - 1) % ID_CYCLE, (k - 1) % ID_CYCLE;
    IssuedIdCycles(j);
    IssuedIdCycles(k);
    assert IssuedId(j) as int == a + 1 != b + 1 == IssuedId(k) as int;
  }

  /** Two numbers less than a full cycle apart have different residues. */
  lemma ModDiffers(x: nat, y: nat)
    requires x < y < x + ID_CYCLE
    ensures x % ID_CYCLE != y % ID_CYCLE
  {
    var q, r := x / ID_CYCLE, x % ID_CYCLE;
    assert x == q * ID_CYCLE + r;
    if r + (y - x) < ID_CYCLE {
      assert y == q * ID_CYCLE + (r + (y - x));
    } else {
      assert y == (q + 1) * ID_CYCLE + (r + (y - x) - ID_CYCLE);
    }
  }

  /** The cycle is exactly 2^32 - 1 calls long. */
  lemma IssuedIdWraps(k: nat)
    requires k >= 1
    ensures IssuedId(k + ID_CYCLE) == IssuedId(k)
  {
    IssuedIdCycles(k);
    IssuedIdCycles(k + ID_CYCLE);
  }

  // ---------------------------------------------------------------------------------------
  // AddItem

  /** The first free slot, if any. */
  function FirstFree(s: seq<Item>): (r: Option<nat>)
    ensures r.Some? ==> r.value < |s| && IsFree(s[r.value])
    ensures r.Some? ==> forall j :: 0 <= j < r.value ==> !IsFree(s[j])
    ensures r.None? ==> forall j :: 0 <= j < |s| ==> !IsFree(s[j])
  {
    if s == [] then None
    else if IsFree(s[0]) then Some(0)
    else match FirstFree(s[1..])
      case None => None
      case Some(k) => Some(k + 1)
  }

  /** The table after AddItem(it): the first free slot is filled, or the table grows by one. */
  function AddedTo(s: seq<Item>, it: Item): (r: seq<Item>)
    ensures (exists j :: 0 <= j < |s| && IsFree(s[j])) ==> |r| == |s|
    ensures (forall j :: 0 <= j < |s| ==> !IsFree(s[j])) ==> r == s + [it]
    ensures exists k :: 0 <= k < |r| && r[k] == it && (k < |s| ==> IsFree(s[k]))
              && (forall j :: 0 <= j < k ==> !IsFree(s[j]))
              && (forall j :: 0 <= j < |s| && j != k ==> r[j] == s[j])
  {
    match FirstFree(s)
    case Some(k) => s[k := it]
    case None => assert (s + [it])[|s|] == it; s + [it]
  }

  // ---------------------------------------------------------------------------------------
  // RemoveItemsByRegID, RemoveItemsByProcess and DestroyItem

  /** Which slots a removal pass destroys: those holding a registration id, or those whose
      target window belongs to a user process. */
  datatype Selector = ByRegId(id: RegId) | ByUserPid(pid: Pid)

  predicate Selects(sel: Selector, it: Item) {
    match sel
    case ByRegId(id) => it.regId == id
    case ByUserPid(pid) => it.userPid == pid
  }

  /** The key the source asserts on entry: a real id, a real process id. */
  predicate KeyOk(sel: Selector) {
    match sel
    case ByRegId(id) => id != INVALID_REG_ID
    case ByUserPid(pid) => pid != 0
  }

  /** The table after a removal pass: every selected slot is reset, the others kept. */
  function Cleared(s: seq<Item>, sel: Selector): (r: seq<Item>)
    ensures |r| == |s|
    ensures forall i :: 0 <= i < |s| ==> r[i] == (if Selects(sel, s[i]) then EMPTY_ITEM else s[i])
  {
    seq(|s|, i requires 0 <= i < |s| => if Selects(sel, s[i]) then EMPTY_ITEM else s[i])
  }

  /** The indices of the slots a pass destroys, in the order it visits them. */
  function Victims(s: seq<Item>, sel: Selector): (r: seq<nat>)
    ensures forall k :: 0 <= k < |r| ==> r[k] < |s| && Selects(sel, s[r[k]])
    ensures forall i :: 0 <= i < |s| && Selects(sel, s[i]) ==> i in r
    ensures forall k, l :: 0 <= k < l < |r| ==> r[k] < r[l]
  {
    if s == [] then []
    else
      var p := Victims(s[..|s| - 1], sel);
      if Selects(sel, s[|s| - 1]) then p + [|s| - 1] else p
  }

  /** What the destroyed slots leave behind: SHFreeShared calls, RequestTermination calls
      and DestroyWindow calls, in order, and the last broker window destroyed (the
      *phwndBroker of DestroyItem). */
  datatype Teardown = Teardown(
    freed: seq<Handle>,
    stopped: seq<WatcherRef>,
    destroyed: seq<Hwnd>,
    lastBroker: Hwnd)

  /** DestroyItem's calls for one slot: its broker window is destroyed unless it is NULL or
      the window destroyed last; its watcher, if any, is asked to terminate; its entry is freed. */
  function DestroyCalls(acc: Teardown, it: Item): (t: Teardown) {
    var newBroker := it.hwndBroker != NULL && it.hwndBroker != acc.lastBroker;
    Teardown(
      acc.freed + [it.regEntry],
      acc.stopped + (if it.watcher != NULL then [it.watcher] else []),
      acc.destroyed + (if newBroker then [it.hwndBroker] else []),
      if newBroker then it.hwndBroker else acc.lastBroker)
  }

  /** The calls of a whole removal pass, which starts with hwndBroker = NULL. */
  function TeardownOf(s: seq<Item>, sel: Selector): (t: Teardown) {
    if s == [] then Teardown([], [], [], NULL)
    else
      var acc := TeardownOf(s[..|s| - 1], sel);
      if Selects(sel, s[|s| - 1]) then DestroyCalls(acc, s[|s| - 1]) else acc
  }

  /** The calls made before a pass followed by the calls of the pass. */
  function After(before: Teardown, pass: Teardown): (r: Teardown)
    ensures r.freed == before.freed + pass.freed && r.stopped == before.stopped + pass.stopped
    ensures r.destroyed == before.destroyed + pass.destroyed && r.lastBroker == pass.lastBroker
  {
    Teardown(before.freed + pass.freed, before.stopped + pass.stopped, before.destroyed + pass.destroyed,
             pass.lastBroker)
  }

  /** Destroying one more slot after a pass's calls so far is the pass extended by that slot. */
  lemma AfterDestroyCalls(before: Teardown, pass: Teardown, it: Item)
    ensures After(before, DestroyCalls(pass, it)) == DestroyCalls(After(before, pass), it)
  {
    var w := if it.watcher != NULL then [it.watcher] else [];
    var d := if it.hwndBroker != NULL && it.hwndBroker != pass.lastBroker then [it.hwndBroker] else [];
    assert before.freed + (pass.freed + [it.regEntry]) == before.freed + pass.freed + [it.regEntry];
    assert before.stopped + (pass.stopped + w) == before.stopped + pass.stopped + w;
    assert before.destroyed + (pass.destroyed + d) == before.destroyed + pass.destroyed + d;
  }

  /** Visiting one more slot: a selected slot adds its DestroyCalls; any other slot adds none. */
  lemma RemovalStep(s: seq<Item>, i: nat, sel: Selector)
    requires i < |s|
    ensures TeardownOf(s[..i + 1], sel)
            == if Selects(sel, s[i]) then DestroyCalls(TeardownOf(s[..i], sel), s[i]) else TeardownOf(s[..i], sel)
  {
    assert s[..i + 1][..i] == s[..i] && s[..i + 1][i] == s[i];
  }

  /** A pass frees the entry handle of each destroyed slot exactly once, in slot order. */
  lemma {:induction false} TeardownFreesVictims(s: seq<Item>, sel: Selector)
    ensures |TeardownOf(s, sel).freed| == |Victims(s, sel)|
    ensures forall k :: 0 <= k < |Victims(s, sel)| ==>
              TeardownOf(s, sel).freed[k] == s[Victims(s, sel)[k]].regEntry
  {
    if s != [] {
      var p := s[..|s| - 1];
      TeardownFreesVictims(p, sel);
      assert forall i :: 0 <= i < |p| ==> p[i] == s[i];
    }
  }

  /** A pass asks exactly the watchers of the destroyed slots to terminate. */
  lemma {:induction false} TeardownStopsWatchers(s: seq<Item>, sel: Selector)
    ensures forall w :: w in TeardownOf(s, sel).stopped <==>
              w != NULL && exists i :: 0 <= i < |s| && Selects(sel, s[i]) && s[i].watcher == w
  {
    if s != [] {
      var p := s[..|s| - 1];
      TeardownStopsWatchers(p, sel);
      assert forall i :: 0 <= i < |p| ==> p[i] == s[i];
      forall w | w != NULL && (exists i :: 0 <= i < |s| && Selects(sel, s[i]) && s[i].watcher == w)
        ensures w in TeardownOf(s, sel).stopped
      {
        var i :| 0 <= i < |s| && Selects(sel, s[i]) && s[i].watcher == w;
        if i < |p| {
          assert p[i] == s[i];
        }
      }
    }
  }

  /** A pass never destroys the same broker window twice in a row, and destroys only
      non-NULL broker windows of destroyed slots. */
  lemma {:induction false} TeardownDestroysBrokers(s: seq<Item>, sel: Selector)
    ensures forall k :: 0 <= k < |TeardownOf(s, sel).destroyed| ==>
              TeardownOf(s, sel).destroyed[k] != NULL
              && exists i :: 0 <= i < |s| && Selects(sel, s[i]) && s[i].hwndBroker == TeardownOf(s, sel).destroyed[k]
    ensures forall k :: 0 <= k < |TeardownOf(s, sel).destroyed| - 1 ==>
              TeardownOf(s, sel).destroyed[k] != TeardownOf(s, sel).destroyed[k + 1]
    ensures TeardownOf(s, sel).destroyed == [] ==> TeardownOf(s, sel).lastBroker == NULL
    ensures TeardownOf(s, sel).destroyed != [] ==>
              TeardownOf(s, sel).lastBroker == TeardownOf(s, sel).destroyed[|TeardownOf(s, sel).destroyed| - 1]
  {
    if s != [] {
      var p := s[..|s| - 1];
      TeardownDestroysBrokers(p, sel);
      assert forall i :: 0 <= i < |p| ==> p[i] == s[i];
      var acc := TeardownOf(p, sel);
      var t := TeardownOf(s, sel);
      forall k | 0 <= k < |t.destroyed|
        ensures t.destroyed[k] != NULL
        ensures exists i :: 0 <= i < |s| && Selects(sel, s[i]) && s[i].hwndBroker == t.destroyed[k]
      {
        if k < |acc.destroyed| {
          assert t.destroyed[k] == acc.destroyed[k];
          var i :| 0 <= i < |p| && Selects(sel, p[i]) && p[i].hwndBroker == acc.destroyed[k];
          assert s[i] == p[i];
        } else {
          assert t.destroyed[k] == s[|s| - 1].hwndBroker;
        }
      }
    }
  }

  /** A pass over a table whose keyed slots hold distinct live handles frees distinct handles,
      none of them NULL: no entry is freed twice. */
  lemma FreesOnce(s: seq<Item>, sel: Selector)
    requires forall i :: 0 <= i < |s| && Selects(sel, s[i]) ==> s[i].regEntry != NULL
    requires forall i, j :: 0 <= i < j < |s| && Selects(sel, s[i]) && Selects(sel, s[j]) ==>
               s[i].regEntry != s[j].regEntry
    ensures forall k :: 0 <= k < |TeardownOf(s, sel).freed| ==> TeardownOf(s, sel).freed[k] != NULL
    ensures forall k, l :: 0 <= k < l < |TeardownOf(s, sel).freed| ==>
              TeardownOf(s, sel).freed[k] != TeardownOf(s, sel).freed[l]
  {
    TeardownFreesVictims(s, sel);
  }

  /** A pass over a table where no slot matches destroys nothing. */
  lemma {:induction false} NothingSelected(s: seq<Item>, sel: Selector)
    requires forall i :: 0 <= i < |s| ==> !Selects(sel, s[i])
    ensures Victims(s, sel) == [] && TeardownOf(s, sel) == Teardown([], [], [], NULL)
  {
    if s != [] {
      NothingSelected(s[..|s| - 1], sel);
    }
  }

  /** After a pass with a real key, no slot matches the key any more: a second pass finds
      nothing (so RemoveItemsByRegID then returns FALSE) and changes nothing. */
  lemma RemovalIdempotent(s: seq<Item>, sel: Selector)
    requires KeyOk(sel)
    ensures Victims(Cleared(s, sel), sel) == []
    ensures Cleared(Cleared(s, sel), sel) == Cleared(s, sel)
  {
    var c := Cleared(s, sel);
    assert !Selects(sel, EMPTY_ITEM);
    NothingSelected(c, sel);
  }

  /** A pass finds something exactly when some slot matched the key beforehand. */
  lemma FoundIffPresent(s: seq<Item>, sel: Selector)
    ensures Victims(s, sel) != [] <==> exists i :: 0 <= i < |s| && Selects(sel, s[i])
  {
    if Victims(s, sel) != [] {
      var k := Victims(s, sel)[0];
      assert Selects(sel, s[k]);
    }
  }

  // ---------------------------------------------------------------------------------------
  // DeliverNotification

  /** A slot DeliverNotification sends to: in use, with a non-NULL entry handle whose block
      locks and passes the magic check, and for which ShouldNotify holds. */
  predicate Eligible(it: Item, shm: map<Handle, Block>, t: DeliTicket, il: PidlOracle) {
    && !IsFree(it)
    && it.regEntry != NULL
    && LockedEntry(shm, it.regEntry).Some?
    && ShouldNotify(t, LockedEntry(shm, it.regEntry).value, il)
  }

  /** One SendMessageW(pRegEntry->hwnd, pRegEntry->uMsg, hTicket, dwOwnerPID) call,
      together with the slot it was made for. */
  datatype Send = Send(slot: nat, hwnd: Hwnd, msg: nat, ticket: Handle, ownerPid: Pid)

  /** The send DeliverNotification makes for an eligible slot i. */
  function SendFor(i: nat, e: RegEntry, hTicket: Handle, pid: Pid): (m: Send) {
    Send(i, e.hwnd, e.msg, hTicket, pid)
  }

  /** The sends of one delivery pass, in the order of the loop. */
  function Deliveries(s: seq<Item>, shm: map<Handle, Block>, t: DeliTicket, il: PidlOracle,
                      hTicket: Handle, pid: Pid): (r: seq<Send>)
  {
    if s == [] then []
    else
      var last := s[|s| - 1];
      Deliveries(s[..|s| - 1], shm, t, il, hTicket, pid)
      + (if Eligible(last, shm, t, il)
         then [SendFor(|s| - 1, LockedEntry(shm, last.regEntry).value, hTicket, pid)] else [])
  }

  /** r sends to exactly the eligible slots of s, once each, in index order, and each send
      carries the slot's window and message with the ticket and its owner. */
  ghost predicate SendsExactly(r: seq<Send>, s: seq<Item>, shm: map<Handle, Block>, t: DeliTicket,
                               il: PidlOracle, hTicket: Handle, pid: Pid)
  {
    && (forall k :: 0 <= k < |r| ==>
          r[k].slot < |s| && Eligible(s[r[k].slot], shm, t, il)
          && r[k] == SendFor(r[k].slot, LockedEntry(shm, s[r[k].slot].regEntry).value, hTicket, pid))
    && (forall i :: 0 <= i < |s| && Eligible(s[i], shm, t, il) ==>
          exists k :: 0 <= k < |r| && r[k].slot == i)
    && (forall k, l :: 0 <= k < l < |r| ==> r[k].slot < r[l].slot)
  }

  /** A delivery pass makes exactly the sends the server owes. */
  lemma {:induction false} DeliveriesExact(s: seq<Item>, shm: map<Handle, Block>, t: DeliTicket,
                                           il: PidlOracle, hTicket: Handle, pid: Pid)
    ensures SendsExactly(Deliveries(s, shm, t, il, hTicket, pid), s, shm, t, il, hTicket, pid)
  {
    if s != [] {
      var init := s[..|s| - 1];
      DeliveriesExact(init, shm, t, il, hTicket, pid);
      var p := Deliveries(init, shm, t, il, hTicket, pid);
      var r := Deliveries(s, shm, t, il, hTicket, pid);
      assert forall i :: 0 <= i < |s| - 1 ==> init[i] == s[i];
      assert forall k :: 0 <= k < |p| ==> r[k] == p[k];
      forall k | 0 <= k < |p|
        ensures p[k].slot < |s| - 1 && Eligible(s[p[k].slot], shm, t, il)
        ensures p[k] == SendFor(p[k].slot, LockedEntry(shm, s[p[k].slot].regEntry).value, hTicket, pid)
      {
        assert init[p[k].slot] == s[p[k].slot];
      }
      if Eligible(s[|s| - 1], shm, t, il) {
        var last := SendFor(|s| - 1, LockedEntry(shm, s[|s| - 1].regEntry).value, hTicket, pid);
        assert r == p + [last];
        assert r[|p|] == last;
      } else {
        assert r == p;
      }
    }
  }

  /** One more slot visited by the delivery loop adds at most its own send. */
  lemma DeliveriesStep(s: seq<Item>, i: nat, shm: map<Handle, Block>, t: DeliTicket, il: PidlOracle,
                       hTicket: Handle, pid: Pid)
    requires i < |s|
    ensures Deliveries(s[..i + 1], shm, t, il, hTicket, pid)
              == Deliveries(s[..i], shm, t, il, hTicket, pid)
                 + (if Eligible(s[i], shm, t, il)
                    then [SendFor(i, LockedEntry(shm, s[i].regEntry).value, hTicket, pid)] else [])
  {
    assert s[..i + 1][..i] == s[..i];
  }

  // ---------------------------------------------------------------------------------------
  // Ownership of the cloned entries

  function Elems(hs: seq<Handle>): (r: set<Handle>) { set h | h in hs }

  /** The table owns exactly the cloned entries `clones`: free slots are blank, every slot in
      use holds a non-NULL clone of its own, and every clone is held by a slot in use. */
  ghost predicate Owns(s: seq<Item>, clones: set<Handle>) {
    && (forall i :: 0 <= i < |s| && IsFree(s[i]) ==> s[i] == EMPTY_ITEM)
    && (forall i :: 0 <= i < |s| && !IsFree(s[i]) ==> s[i].regEntry != NULL && s[i].regEntry in clones)
    && (forall h :: h in clones ==> exists i :: 0 <= i < |s| && !IsFree(s[i]) && s[i].regEntry == h)
    && (forall i, j :: 0 <= i < j < |s| && !IsFree(s[i]) && !IsFree(s[j]) ==> s[i].regEntry != s[j].regEntry)
  }

  /** The handles a pass frees are exactly the entries of the slots it destroys. */
  lemma FreedAreVictimEntries(s: seq<Item>, sel: Selector)
    ensures forall h :: h in TeardownOf(s, sel).freed <==>
              exists i :: 0 <= i < |s| && Selects(sel, s[i]) && s[i].regEntry == h
  {
    TeardownFreesVictims(s, sel);
    var t := TeardownOf(s, sel);
    var v := Victims(s, sel);
    forall h | exists i :: 0 <= i < |s| && Selects(sel, s[i]) && s[i].regEntry == h
      ensures h in t.freed
    {
      var i :| 0 <= i < |s| && Selects(sel, s[i]) && s[i].regEntry == h;
      var k :| 0 <= k < |v| && v[k] == i;
      assert t.freed[k] == h;
    }
  }

  /** A removal pass with a real key keeps the table owning its clones minus the freed ones,
      and frees each of those exactly once. */
  lemma OwnsAfterClear(s: seq<Item>, clones: set<Handle>, sel: Selector)
    requires Owns(s, clones) && KeyOk(sel)
    ensures Owns(Cleared(s, sel), clones - Elems(TeardownOf(s, sel).freed))
    ensures Elems(TeardownOf(s, sel).freed) <= clones
    ensures forall k, l :: 0 <= k < l < |TeardownOf(s, sel).freed| ==>
              TeardownOf(s, sel).freed[k] != TeardownOf(s, sel).freed[l]
  {
    var f := TeardownOf(s, sel).freed;
    SelectedInUse(s, clones, sel);
    FreedAreVictimEntries(s, sel);
    FreesOnce(s, sel);
    assert Elems(f) <= clones;
    ClearedOwns(s, clones, sel);
  }

  /** With a real key, only slots in use are selected: a free slot is blank and matches no
      real key. */
  lemma SelectedInUse(s: seq<Item>, clones: set<Handle>, sel: Selector)
    requires Owns(s, clones) && KeyOk(sel)
    ensures forall i :: 0 <= i < |s| && Selects(sel, s[i]) ==> !IsFree(s[i])
  {
    assert !Selects(sel, EMPTY_ITEM);
  }

  /** The cleared table owns the clones that were not freed. */
  lemma ClearedOwns(s: seq<Item>, clones: set<Handle>, sel: Selector)
    requires Owns(s, clones) && KeyOk(sel)
    ensures Owns(Cleared(s, sel), clones - Elems(TeardownOf(s, sel).freed))
  {
    var c := Cleared(s, sel);
    var f := TeardownOf(s, sel).freed;
    FreedAreVictimEntries(s, sel);
    SelectedInUse(s, clones, sel);
    forall h | h in clones - Elems(f)
      ensures exists i :: 0 <= i < |c| && !IsFree(c[i]) && c[i].regEntry == h
    {
      var i :| 0 <= i < |s| && !IsFree(s[i]) && s[i].regEntry == h;
      assert !Selects(sel, s[i]);
      assert c[i] == s[i];
    }
    forall i | 0 <= i < |c| && !IsFree(c[i])
      ensures c[i].regEntry in clones - Elems(f)
    {
      assert c[i] == s[i] && !Selects(sel, s[i]);
      assert s[i].regEntry !in f;
    }
  }

  /** Filling a slot with a new registration that holds a fresh clone keeps ownership. */
  lemma OwnsAfterAdd(s: seq<Item>, clones: set<Handle>, it: Item)
    requires Owns(s, clones)
    requires !IsFree(it) && it.regEntry != NULL && it.regEntry !in clones
    ensures Owns(AddedTo(s, it), clones + {it.regEntry})
  {
    var r := AddedTo(s, it);
    var k :| 0 <= k < |r| && r[k] == it && (k < |s| ==> IsFree(s[k]))
              && (forall j :: 0 <= j < |s| && j != k ==> r[j] == s[j]);
    assert |r| == |s| || |r| == |s| + 1;
    assert |r| == |s| + 1 ==> k == |s|;
    forall h | h in clones + {it.regEntry}
      ensures exists i :: 0 <= i < |r| && !IsFree(r[i]) && r[i].regEntry == h
    {
      if h in clones {
        var i :| 0 <= i < |s| && !IsFree(s[i]) && s[i].regEntry == h;
        assert i != k;
        assert r[i] == s[i];
      } else {
        assert r[k].regEntry == h;
      }
    }
  }

  /** A clone that no slot holds is a leak: the table no longer owns its clone set. */
  lemma UnheldCloneBreaksOwnership(s: seq<Item>, clones: set<Handle>, h: Handle)
    requires Owns(s, clones) && h !in clones
    ensures !Owns(s, clones + {h})
  {
    assert h in clones + {h};
  }

  /** A clone parked in a slot whose id is the sentinel is held by a slot that counts as
      free: the next AddItem may overwrite it, and nothing will ever free it. */
  lemma SentinelSlotBreaksOwnership(s: seq<Item>, clones: set<Handle>, it: Item)
    requires Owns(s, clones)
    requires IsFree(it) && it.regEntry != NULL && it.regEntry !in clones
    ensures !Owns(AddedTo(s, it), clones + {it.regEntry})
  {
    var r := AddedTo(s, it);
    var k :| 0 <= k < |r| && r[k] == it && (k < |s| ==> IsFree(s[k]))
              && (forall j :: 0 <= j < |s| && j != k ==> r[j] == s[j]);
    assert IsFree(r[k]) && r[k] != EMPTY_ITEM;
  }
}

=== FILE: tui_centered_text.dfy ===
/**
 * TuiDrawCenteredText: measures a possibly multi-line text, centres its box on the
 * rectangle it is given, and draws it one character at a time.
 *
 * The measuring scan keeps LastIndex, the index of the last newline seen, which starts at
 * 0 rather than before the text; a character at Index counts Index - LastIndex columns.
 * A later line of m characters therefore measures m, but the first line of m characters
 * measures only m - 1, while the drawing scan puts the first line's characters in columns
 * 0 to m - 1 like every other line.
 */
module TuiCenteredText {
  import opened TuiStrings
  import opened TuiScreen

  /** The index of the last newline of q, or -1 when it has none. */
  function BreakBefore(q: seq<char>): (r: int)
    ensures -1 <= r < |q|
  {
    if q == [] then -1
    else if q[|q| - 1] == NEWLINE then |q| - 1
    else BreakBefore(q[..|q| - 1])
  }

  /** LastIndex after the measuring scan has read q. */
  function LastIndex(q: seq<char>): (i: nat) {
    Max(0, BreakBefore(q))
  }

  /** BoxWidth after the measuring scan has read q. */
  function ScanWidth(q: seq<char>): (w: nat) {
    if q == [] then 0
    else
      var p := q[..|q| - 1];
      if q[|q| - 1] == NEWLINE then ScanWidth(p)
      else Max(ScanWidth(p), |p| - LastIndex(p))
  }

  /** The width a text of lines ls measures: its first line one short, every other line in
      full. */
  function MeasuredWidth(ls: seq<seq<char>>): (w: nat)
    requires |ls| >= 1
  {
    Max(Max(0, |ls[0]| - 1), Longest(ls[1..], |ls| - 1))
  }

  /** The first "Count the new lines and the box width" scan. */
  method Measure(text: seq<char>) returns (boxWidth: nat, boxHeight: nat)
    ensures boxWidth == ScanWidth(Content(text))
    ensures boxHeight == |Lines(Content(text))|
  {
    ghost var c := Content(text);
    var textLength := StrLen(text);
    var lineBreakCount := 0;
    boxWidth := 0;
    var lastIndex := 0;
    var index := 0;
    while index < textLength
      invariant 0 <= index <= textLength == |c|
      invariant lineBreakCount == NewlineCount(c[..index])
      invariant lastIndex == LastIndex(c[..index])
      invariant boxWidth == ScanWidth(c[..index])
    {
      assert c[..index + 1][..index] == c[..index];
      if text[index] == NEWLINE {
        lastIndex := index;
        lineBreakCount := lineBreakCount + 1;
      } else {
        if index - lastIndex > boxWidth {
          boxWidth := index - lastIndex;
        }
      }
      index := index + 1;
    }
    assert c[..index] == c;
    LinesCount(c);
    boxHeight := lineBreakCount + 1;
  }

  /** The shape of the lines read so far: there is one line exactly when no newline has
      been read, and the last line is what follows the last newline. */
  lemma {:induction false} LinesShape(q: seq<char>)
    ensures BreakBefore(q) == -1 <==> |Lines(q)| == 1
    ensures |Lines(q)[|Lines(q)| - 1]| == |q| - BreakBefore(q) - 1
    decreases |q|
  {
    if q == [] {
      assert Lines(q) == [[]];
    } else {
      var p := q[..|q| - 1];
      var ch := q[|q| - 1];
      assert q == p + [ch];
      LinesShape(p);
      LinesSnoc(p, ch);
    }
  }

  lemma {:induction false} LongestSnoc(ls: seq<seq<char>>, x: seq<char>)
    ensures Longest(ls + [x], |ls| + 1) == Max(Longest(ls, |ls|), |x|)
  {
    LongestPrefix(ls + [x], ls, |ls|);
  }

  lemma {:induction false} LongestPrefix(a: seq<seq<char>>, b: seq<seq<char>>, n: nat)
    requires n <= |a| && n <= |b| && a[..n] == b[..n]
    ensures Longest(a, n) == Longest(b, n)
  {
    if n > 0 {
      assert a[..n - 1] == b[..n - 1] by {
        assert a[..n - 1] == a[..n][..n - 1];
        assert b[..n - 1] == b[..n][..n - 1];
      }
      assert a[n - 1] == a[..n][n - 1];
      assert b[n - 1] == b[..n][n - 1];
      LongestPrefix(a, b, n - 1);
    }
  }

  /** The measuring scan measures every line after the first in full and the first line one
      column short (a one-line text of m >= 1 characters measures m - 1). */
  lemma {:induction false} ScanWidthMeasures(q: seq<char>)
    ensures ScanWidth(q) == MeasuredWidth(Lines(q))
    decreases |q|
  {
    if q == [] {
      assert Lines(q) == [[]];
    } else {
      var p := q[..|q| - 1];
      var ch := q[|q| - 1];
      assert q == p + [ch];
      ScanWidthMeasures(p);
      LinesShape(p);
      LinesSnoc(p, ch);
      if ch == NEWLINE {
        MeasuredAfterNewline(Lines(p));
      } else if |Lines(p)| == 1 {
        assert Lines(q) == [Lines(p)[0] + [ch]];
      } else {
        MeasuredAfterChar(Lines(p), ch);
      }
    }
  }

  lemma MeasuredAfterNewline(ls: seq<seq<char>>)
    requires |ls| >= 1
    ensures MeasuredWidth(ls + [[]]) == MeasuredWidth(ls)
  {
    assert (ls + [[]])[1..] == ls[1..] + [[]];
    LongestSnoc(ls[1..], []);
  }

  lemma MeasuredAfterChar(ls: seq<seq<char>>, ch: char)
    requires |ls| >= 2
    ensures MeasuredWidth(ls[..|ls| - 1] + [ls[|ls| - 1] + [ch]])
            == Max(MeasuredWidth(ls), |ls[|ls| - 1]| + 1)
  {
    var n := |ls|;
    var last := ls[n - 1];
    var ls' := ls[..n - 1] + [last + [ch]];
    assert ls[1..] == ls[1..n - 1] + [last];
    assert ls'[1..] == ls[1..n - 1] + [last + [ch]];
    LongestSnoc(ls[1..n - 1], last);
    LongestSnoc(ls[1..n - 1], last + [ch]);
  }

  /** The measured width of a text without newlines undercounts it by one column. */
  lemma OneLineUndercount(c: seq<char>)
    requires |c| >= 1 && forall j :: 0 <= j < |c| ==> c[j] != NEWLINE
    ensures ScanWidth(c) == |c| - 1
  {
    ScanWidthMeasures(c);
    LineEndIsFirstNewline(c);
    assert LineEnd(c) == |c|;
    assert Lines(c) == [c];
  }

  /** RealLeft and RealTop: the text box centred on the hint rectangle, in ULONG arithmetic. */
  function Origin(left: nat, top: nat, right: nat, bottom: nat, boxWidth: nat, boxHeight: nat): (o: (nat, nat)) {
    (U32(left + right - boxWidth + 1) / 2, U32(top + bottom - boxHeight + 1) / 2)
  }

  /** When the box fits in the rectangle without wrap-around it is centred: it lies inside
      the rectangle, and the space left of it equals the space right of it or is one less. */
  lemma OriginCentres(left: nat, right: nat, boxWidth: nat)
    requires left + boxWidth <= right + 1 && left + right + 1 < 0x1_0000_0000
    ensures var x := Origin(left, 0, right, 0, boxWidth, 0).0;
            && left <= x && x + boxWidth <= right + 1
            && (right + 1 - (x + boxWidth)) - (x - left) in {0, 1}
  {
  }

  /** The first line's undercount moves the box but does not misplace it: centred by a
      width of boxWidth - 1, a box boxWidth columns wide still lies inside the rectangle, and
      its left margin is its right margin or one column more. */
  lemma UndercountStillCentred(left: nat, right: nat, boxWidth: nat)
    requires 1 <= boxWidth && left + boxWidth <= right + 1 && left + right + 1 < 0x1_0000_0000
    ensures var x := Origin(left, 0, right, 0, boxWidth - 1, 0).0;
            && left <= x && x + boxWidth <= right + 1
            && (x - left) - (right + 1 - (x + boxWidth)) in {0, 1}
  {
  }

  /** One single-character TuiDrawText call: column, row and character. */
  datatype Glyph = Glyph(x: nat, y: nat, ch: char)

  /** The glyphs of line k of a text whose box starts at (x, y): its j-th character at
      column x + j on row y + k. */
  function LineGlyphs(line: seq<char>, k: nat, x: nat, y: nat): (g: seq<Glyph>)
    ensures |g| == |line|
    ensures forall j :: 0 <= j < |line| ==> g[j] == Glyph(U32(x + j), U32(y + k), line[j])
  {
    if line == [] then []
    else
      var g := LineGlyphs(line[..|line| - 1], k, x, y) + [Glyph(U32(x + |line| - 1), U32(y + k), line[|line| - 1])];
      assert forall j :: 0 <= j < |line| - 1 ==> line[..|line| - 1][j] == line[j];
      g
  }

  /** The glyphs of the first n lines, line after line. */
  function Glyphs(ls: seq<seq<char>>, n: nat, x: nat, y: nat): (g: seq<Glyph>)
    requires n <= |ls|
  {
    if n == 0 then [] else Glyphs(ls, n - 1, x, y) + LineGlyphs(ls[n - 1], n - 1, x, y)
  }

  lemma {:induction false} GlyphsPrefix(a: seq<seq<char>>, b: seq<seq<char>>, n: nat, x: nat, y: nat)
    requires n <= |a| && n <= |b| && a[..n] == b[..n]
    ensures Glyphs(a, n, x, y) == Glyphs(b, n, x, y)
  {
    if n > 0 {
      assert a[..n - 1] == a[..n][..n - 1] && b[..n - 1] == b[..n][..n - 1];
      assert a[n - 1] == a[..n][n - 1] && b[n - 1] == b[..n][n - 1];
      GlyphsPrefix(a, b, n - 1, x, y);
    }
  }

  lemma GlyphsAfterNewline(ls: seq<seq<char>>, x: nat, y: nat)
    ensures Glyphs(ls + [[]], |ls| + 1, x, y) == Glyphs(ls, |ls|, x, y)
  {
    GlyphsPrefix(ls + [[]], ls, |ls|, x, y);
  }

  lemma GlyphsAfterChar(ls: seq<seq<char>>, ch: char, x: nat, y: nat)
    requires |ls| >= 1
    ensures var n := |ls|;
            Glyphs(ls[..n - 1] + [ls[n - 1] + [ch]], n, x, y)
            == Glyphs(ls, n, x, y) + [Glyph(U32(x + |ls[n - 1]|), U32(y + (n - 1)), ch)]
  {
    var n := |ls|;
    var ls' := ls[..n - 1] + [ls[n - 1] + [ch]];
    GlyphsPrefix(ls', ls, n - 1, x, y);
    var line := ls[n - 1] + [ch];
    assert line[..|line| - 1] == ls[n - 1];
  }

  /** What reading character i does to the lines read so far and to their glyphs. */
  lemma GlyphsStep(c: seq<char>, i: nat, line: nat, x: nat, y: nat)
    requires i < |c| && |Lines(c[..i])| == line + 1
    ensures c[i] == NEWLINE ==>
              && |Lines(c[..i + 1])| == line + 2 && Lines(c[..i + 1])[line + 1] == []
              && Glyphs(Lines(c[..i + 1]), line + 2, x, y) == Glyphs(Lines(c[..i]), line + 1, x, y)
    ensures c[i] != NEWLINE ==>
              && |Lines(c[..i + 1])| == line + 1
              && |Lines(c[..i + 1])[line]| == |Lines(c[..i])[line]| + 1
              && Glyphs(Lines(c[..i + 1]), line + 1, x, y)
                 == Glyphs(Lines(c[..i]), line + 1, x, y) + [Glyph(U32(x + |Lines(c[..i])[line]|), U32(y + line), c[i])]
  {
    if c[i] == NEWLINE {
      GlyphsStepNewline(c, i, line, x, y);
    } else {
      GlyphsStepChar(c, i, line, x, y);
    }
  }

  lemma GlyphsStepNewline(c: seq<char>, i: nat, line: nat, x: nat, y: nat)
    requires i < |c| && |Lines(c[..i])| == line + 1 && c[i] == NEWLINE
    ensures |Lines(c[..i + 1])| == line + 2 && Lines(c[..i + 1])[line + 1] == []
    ensures Glyphs(Lines(c[..i + 1]), line + 2, x, y) == Glyphs(Lines(c[..i]), line + 1, x, y)
  {
    assert c[..i + 1] == c[..i] + [NEWLINE];
    LinesSnocNewline(c[..i]);
    GlyphsAfterNewline(Lines(c[..i]), x, y);
  }

  lemma GlyphsStepChar(c: seq<char>, i: nat, line: nat, x: nat, y: nat)
    requires i < |c| && |Lines(c[..i])| == line + 1 && c[i] != NEWLINE
    ensures |Lines(c[..i + 1])| == line + 1
    ensures |Lines(c[..i + 1])[line]| == |Lines(c[..i])[line]| + 1
    ensures Glyphs(Lines(c[..i + 1]), line + 1, x, y)
            == Glyphs(Lines(c[..i]), line + 1, x, y) + [Glyph(U32(x + |Lines(c[..i])[line]|), U32(y + line), c[i])]
  {
    var ls := Lines(c[..i]);
    var ls' := ls[..line] + [ls[line] + [c[i]]];
    assert Lines(c[..i + 1]) == ls' by {
      assert c[..i + 1] == c[..i] + [c[i]];
      LinesSnocOther(c[..i], c[i]);
    }
    assert ls'[line] == ls[line] + [c[i]];
    var g := Glyph(U32(x + |ls[line]|), U32(y + line), c[i]);
    assert Glyphs(ls', line + 1, x, y) == Glyphs(ls, line + 1, x, y) + [g] by {
      GlyphsAfterChar(ls, c[i], x, y);
      assert |ls| - 1 == line;
    }
  }

  /** The second scan: draws every character of line k, j-th in its line, at column
      realLeft + j on row realTop + k. */
  method DrawGlyphs(scr: Screen, text: seq<char>, realLeft: nat, realTop: nat, attr: byte) returns (drawn: seq<Glyph>)
    requires scr.Valid() && realTop < 0x1_0000_0000
    modifies scr.mem
    ensures drawn == Glyphs(Lines(Content(text)), |Lines(Content(text))|, realLeft, realTop)
  {
    ghost var c := Content(text);
    var textLength := StrLen(text);
    var lastIndex: nat := 0;
    var y := realTop;
    ghost var line: nat := 0;
    assert c[..0] == [];
    drawn := [];
    var index := 0;
    while index < textLength
      invariant 0 <= index <= textLength == |c|
      invariant |Lines(c[..index])| == line + 1
      invariant lastIndex == |Lines(c[..index])[line]| && y == U32(realTop + line)
      invariant drawn == Glyphs(Lines(c[..index]), line + 1, realLeft, realTop)
    {
      line, lastIndex, y, drawn := ScanGlyph(scr, text, index, realLeft, realTop, attr, line, lastIndex, y, drawn);
      index := index + 1;
    }
    assert c[..index] == c;
  }

  /** One turn of the second scan, reading character `index` of the text: a newline moves
      to the start of the next row; any other character is drawn after the current line's
      last one. */
  method ScanGlyph(scr: Screen, text: seq<char>, index: nat, realLeft: nat, realTop: nat, attr: byte,
                   ghost line: nat, lastIndex: nat, y: nat, drawn: seq<Glyph>)
    returns (ghost line': nat, lastIndex': nat, y': nat, drawn': seq<Glyph>)
    requires scr.Valid() && index < |Content(text)|
    requires |Lines(Content(text)[..index])| == line + 1
    requires lastIndex == |Lines(Content(text)[..index])[line]| && y == U32(realTop + line)
    requires drawn == Glyphs(Lines(Content(text)[..index]), line + 1, realLeft, realTop)
    modifies scr.mem
    ensures |Lines(Content(text)[..index + 1])| == line' + 1
    ensures lastIndex' == |Lines(Content(text)[..index + 1])[line']| && y' == U32(realTop + line')
    ensures drawn' == Glyphs(Lines(Content(text)[..index + 1]), line' + 1, realLeft, realTop)
  {
    ghost var c := Content(text);
    GlyphsStep(c, index, line, realLeft, realTop);
    assert text[index] == c[index];
    if text[index] == NEWLINE {
      U32Succ(realTop + line);
      y' := U32(y + 1);
      lastIndex' := 0;
      line' := line + 1;
      drawn' := drawn;
    } else {
      var g := Glyph(U32(realLeft + lastIndex), y, text[index]);
      scr.DrawText(g.x, g.y, [g.ch], attr);
      drawn' := drawn + [g];
      lastIndex' := lastIndex + 1;
      y', line' := y, line;
    }
  }

  /** Adding one in ULONG arithmetic commutes with the wrap-around. */
  lemma U32Succ(v: nat)
    ensures U32(U32(v) + 1) == U32(v + 1)
  {
    var m := 0x1_0000_0000;
    var q, r := v / m, v % m;
    assert v + 1 == m * q + (r + 1);
    if r + 1 < m {
      DivModUnique(v + 1, m, q, r + 1);
    } else {
      assert v + 1 == m * (q + 1) + 0;
      DivModUnique(v + 1, m, q + 1, 0);
    }
  }

  /** TuiDrawCenteredText: measures the text, centres its box on the rectangle
      [left..right] x [top..bottom] and draws it. */
  method DrawCenteredText(scr: Screen, left: nat, top: nat, right: nat, bottom: nat, text: seq<char>, attr: byte)
    returns (drawn: seq<Glyph>)
    requires scr.Valid()
    modifies scr.mem
    ensures var ls := Lines(Content(text));
            var origin := Origin(left, top, right, bottom, MeasuredWidth(ls), |ls|);
            drawn == Glyphs(ls, |ls|, origin.0, origin.1)
  {
    var boxWidth, boxHeight := Measure(text);
    ScanWidthMeasures(Content(text));
    var realLeft := U32(left + right - boxWidth + 1) / 2;
    var realTop := U32(top + bottom - boxHeight + 1) / 2;
    drawn := DrawGlyphs(scr, text, realLeft, realTop, attr);
  }
}

=== FILE: tui_date_time.dfy ===
/**
 * TuiUpdateDateTime: draws the date ("<month name><day><suffix> <year>") right-aligned on
 * row 1 and the time ("    h:mm:ss AM" in 12-hour form) right-aligned on row 2, two
 * columns from the screen's right edge, or draws nothing when a field of the clock is out
 * of range.  _itoa is modelled by Decimal.
 */
module TuiDateTime {
  import opened TuiStrings
  import opened TuiScreen

  // ---------------------------------------------------------------------------------------
  // Decimal numbers

  function Digit(d: nat): (c: char)
    requires d < 10
    ensures '0' <= c <= '9'
  {
    (48 + d) as char
  }

  /** _itoa(n, s, 10): the decimal digits of n, most significant first, "0" for zero. */
  function Decimal(n: nat): (s: seq<char>)
    ensures |s| >= 1
    decreases n
  {
    if n < 10 then [Digit(n)] else Decimal(n / 10) + [Digit(n % 10)]
  }

  /** The number a string of decimal digits denotes. */
  function Parse(s: seq<char>): (n: nat)
    decreases |s|
  {
    if s == [] then 0
    else Parse(s[..|s| - 1]) * 10 + (if '0' <= s[|s| - 1] <= '9' then s[|s| - 1] as int - 48 else 0)
  }

  predicate AllDigits(s: seq<char>) {
    forall i :: 0 <= i < |s| ==> '0' <= s[i] <= '9'
  }

  /** Decimal writes digits only, without a leading zero, and reads back as the number. */
  lemma {:induction false} DecimalRoundTrip(n: nat)
    ensures AllDigits(Decimal(n))
    ensures Parse(Decimal(n)) == n
    ensures Decimal(n)[0] == '0' <==> n == 0
    decreases n
  {
    var s := Decimal(n);
    if n >= 10 {
      DecimalRoundTrip(n / 10);
      assert s[..|s| - 1] == Decimal(n / 10);
      assert Parse(s) == Parse(Decimal(n / 10)) * 10 + n % 10;
      assert s[0] == Decimal(n / 10)[0];
    }
  }

  /** Numbers below 10, 100, 1000 and 10000 take at most one, two, three and four digits. */
  lemma {:induction false} DecimalLength(n: nat)
    ensures n < 10 ==> |Decimal(n)| == 1
    ensures 10 <= n < 100 ==> |Decimal(n)| == 2
    ensures n < 1000 ==> |Decimal(n)| <= 3
    ensures n < 10000 ==> |Decimal(n)| <= 4
    decreases n
  {
    if n >= 10 {
      DecimalLength(n / 10);
    }
  }

  /** A minute or second as the time shows it: a "0" before a single digit. */
  function TwoDigits(n: nat): (s: seq<char>) {
    (if n < 10 then "0" else "") + Decimal(n)
  }

  /** Minutes and seconds always take exactly two digits and read back as themselves. */
  lemma TwoDigitsRoundTrip(n: nat)
    requires n <= 59
    ensures |TwoDigits(n)| == 2 && AllDigits(TwoDigits(n)) && Parse(TwoDigits(n)) == n
  {
    DecimalLength(n);
    DecimalRoundTrip(n);
    if n < 10 {
      var s := TwoDigits(n);
      assert s == ['0', Digit(n)];
      assert s[..1] == ['0'];
      assert s[..1][..0] == [];
    }
  }

  // ---------------------------------------------------------------------------------------
  // The date

  /** The ordinal suffix TuiUpdateDateTime gives a day of the month. */
  function DaySuffix(day: nat): (s: seq<char>) {
    if day == 1 || day == 21 || day == 31 then "st"
    else if day == 2 || day == 22 then "nd"
    else if day == 3 || day == 23 then "rd"
    else "th"
  }

  /** For the days of a month the suffix follows the English rule: "st", "nd" and "rd" after
      a last digit 1, 2 and 3, except in the teens, and "th" otherwise. */
  lemma DaySuffixIsOrdinal(day: nat)
    requires 1 <= day <= 31
    ensures DaySuffix(day) == (if day / 10 == 1 then "th"
                               else if day % 10 == 1 then "st"
                               else if day % 10 == 2 then "nd"
                               else if day % 10 == 3 then "rd"
                               else "th")
  {
  }

  /** The date string: month name, day, suffix, a blank and the year. */
  function DateText(monthName: seq<char>, day: nat, year: nat): (s: seq<char>) {
    monthName + Decimal(day) + DaySuffix(day) + " " + Decimal(year)
  }

  /** With month names of at most 30 characters the date fits DateString[40] with its NUL. */
  lemma DateFits(monthName: seq<char>, day: nat, year: nat)
    requires |monthName| <= 30 && 1 <= day <= 31 && 1 <= year <= 9999
    ensures |DateText(monthName, day, year)| + 1 <= 40
  {
    DecimalLength(day);
    DecimalLength(year);
  }

  // ---------------------------------------------------------------------------------------
  // The time

  /** The hour on the 12-hour clock and whether it is PM, as the source converts it: hours
      13 to 23 become 1 to 11 PM, hour 0 becomes 12 AM, and hour 12 stays 12 AM. */
  function Clock(hour: nat): (c: (nat, bool))
  {
    var pm := hour > 12;
    var h := if hour > 12 then hour - 12 else hour;
    (if h == 0 then 12 else h, pm)
  }

  /** The 12-hour clock with noon as 12 PM. */
  function ClockFixed(hour: nat): (c: (nat, bool))
  {
    (if hour % 12 == 0 then 12 else hour % 12, hour >= 12)
  }

  /** Every hour of the day shows as 1 to 12, PM exactly for hours 13 to 23 ... */
  lemma ClockRange(hour: nat)
    requires hour <= 23
    ensures 1 <= Clock(hour).0 <= 12
    ensures Clock(hour).1 <==> hour >= 13
    ensures hour >= 13 ==> Clock(hour).0 == hour - 12
    ensures 1 <= hour <= 12 ==> Clock(hour).0 == hour
    ensures hour == 0 ==> Clock(hour) == (12, false)
  {
  }

  /** ... so noon and midnight show alike: both are "12:mm:ss AM". */
  lemma NoonShownAsMidnight(minute: nat, second: nat)
    ensures Clock(12) == Clock(0) == (12, false)
    ensures TimeText(12, minute, second) == TimeText(0, minute, second)
  {
  }

  /** With noon as 12 PM, the clock tells every hour of the day apart and the hour can be
      read back from it. */
  lemma ClockFixedRoundTrip(hour: nat)
    requires hour <= 23
    ensures 1 <= ClockFixed(hour).0 <= 12
    ensures ClockFixed(hour).1 <==> hour >= 12
    ensures ClockFixed(12) == (12, true) && ClockFixed(0) == (12, false)
    ensures var (h, pm) := ClockFixed(hour);
            hour == (if h == 12 then 0 else h) + (if pm then 12 else 0)
  {
  }

  /** The time string: four blanks, the hour, two-digit minutes and seconds, AM or PM. */
  function TimeText(hour: nat, minute: nat, second: nat): (s: seq<char>) {
    var (h, pm) := Clock(hour);
    "    " + Decimal(h) + ":" + TwoDigits(minute) + ":" + TwoDigits(second) + (if pm then " PM" else " AM")
  }

  /** The time string takes 14 or 15 characters: it fits TimeString[40]. */
  lemma TimeFits(hour: nat, minute: nat, second: nat)
    requires hour <= 23 && minute <= 59 && second <= 59
    ensures 14 <= |TimeText(hour, minute, second)| <= 15
  {
    ClockRange(hour);
    DecimalLength(Clock(hour).0);
    TwoDigitsRoundTrip(minute);
    TwoDigitsRoundTrip(second);
  }

  // ---------------------------------------------------------------------------------------
  // Drawing

  /** TIMEINFO as ArcGetTime returns it; TuiUpdateDateTime changes its Hour in place. */
  class TimeInfo {
    var year: nat
    var month: nat
    var day: nat
    var hour: nat
    var minute: nat
    var second: nat

    constructor(year: nat, month: nat, day: nat, hour: nat, minute: nat, second: nat)
      ensures this.year == year && this.month == month && this.day == day
      ensures this.hour == hour && this.minute == minute && this.second == second
    {
      this.year, this.month, this.day := year, month, day;
      this.hour, this.minute, this.second := hour, minute, second;
    }

    /** Every field within the range TuiUpdateDateTime accepts. */
    predicate InRange()
      reads this
    {
      1 <= year <= 9999 && 1 <= month <= 12 && 1 <= day <= 31 && hour <= 23 && minute <= 59 && second <= 59
    }
  }

  /** The column a right-aligned string starts at: two columns before the right edge, in
      ULONG arithmetic. */
  function RightAligned(screenWidth: nat, s: seq<char>): (x: nat)
    ensures |s| + 2 <= screenWidth < 0x1_0000_0000 ==> x + |s| + 2 == screenWidth
  {
    U32(screenWidth - |s| - 2)
  }

  /** What TuiDrawText leaves after drawing a string right-aligned on row y of a w x h
      screen: the text from RightAligned when that column and the row are on the screen,
      no change otherwise; no other row ever changes. */
  function LineDrawn(s: seq<byte>, w: nat, h: nat, y: nat, text: seq<char>, attr: byte): (r: seq<byte>)
    ensures |r| == |s|
    ensures w > 0 ==> forall k :: 0 <= k < |s| && Row(w, k) != y ==> r[k] == s[k]
  {
    var x := RightAligned(w, text);
    if x < w && y < h then TextDrawn(s, w, x, y, DrawnCount(w, x, 0, text), text, attr) else s
  }

  /** The date as TuiUpdateDateTime assembles it in DateString: the month's name, then the
      day with its suffix, a blank and the year. */
  method BuildDate(monthName: seq<char>, day: nat, year: nat) returns (date: seq<char>)
    ensures date == DateText(monthName, day, year)
  {
    date := monthName;
    var temp := Decimal(day);
    if day == 1 || day == 21 || day == 31 {
      temp := temp + "st";
    } else if day == 2 || day == 22 {
      temp := temp + "nd";
    } else if day == 3 || day == 23 {
      temp := temp + "rd";
    } else {
      temp := temp + "th";
    }
    date := date + temp;
    date := date + " ";
    temp := Decimal(year);
    date := date + temp;
  }

  /** The change of the clock's hour to 12-hour form, in place. */
  method ToTwelveHour(t: TimeInfo) returns (pmHour: bool)
    modifies t
    ensures (t.hour, pmHour) == Clock(old(t.hour))
    ensures unchanged(t`year, t`month, t`day, t`minute, t`second)
  {
    pmHour := false;
    if t.hour > 12 {
      t.hour := t.hour - 12;
      pmHour := true;
    }
    if t.hour == 0 {
      t.hour := 12;
    }
  }

  /** The time as TuiUpdateDateTime assembles it in TimeString from the 12-hour clock. */
  method BuildTime(hour: nat, pmHour: bool, minute: nat, second: nat) returns (time: seq<char>)
    ensures time == "    " + Decimal(hour) + ":" + TwoDigits(minute) + ":" + TwoDigits(second)
                    + (if pmHour then " PM" else " AM")
  {
    time := "    " + Decimal(hour) + ":";
    ghost var upToMinutes := time;
    if minute < 10 {
      time := time + "0";
    }
    time := time + Decimal(minute);
    assert time == upToMinutes + TwoDigits(minute);
    time := time + ":";
    ghost var upToSeconds := time;
    if second < 10 {
      time := time + "0";
    }
    time := time + Decimal(second);
    assert time == upToSeconds + TwoDigits(second);
    if pmHour {
      time := time + " PM";
    } else {
      time := time + " AM";
    }
  }

  /** TuiUpdateDateTime: nothing when drawing the time is disabled or the clock is out of
      range; otherwise the date on row 1 and the time on row 2, each drawn at its
      right-aligned column, with the clock's hour left in 12-hour form. */
  method UpdateDateTime(scr: Screen, t: TimeInfo, monthNames: seq<seq<char>>, drawTime: bool, attr: byte)
    returns (date: seq<char>, time: seq<char>)
    requires scr.Valid() && |monthNames| == 12
    modifies scr.mem, t
    ensures unchanged(t`year, t`month, t`day, t`minute, t`second)
    ensures !drawTime || !old(t.InRange()) ==> scr.mem[..] == old(scr.mem[..]) && t.hour == old(t.hour)
    ensures drawTime && old(t.InRange()) ==>
              && date == DateText(monthNames[old(t.month) - 1], old(t.day), old(t.year))
              && time == TimeText(old(t.hour), old(t.minute), old(t.second))
              && t.hour == Clock(old(t.hour)).0
              && scr.mem[..] == LineDrawn(LineDrawn(old(scr.mem[..]), scr.width, scr.height, 1, date, attr),
                                          scr.width, scr.height, 2, time, attr)
    ensures scr.width > 0 ==>
              forall k :: 0 <= k < scr.mem.Length && Row(scr.width, k) != 1 && Row(scr.width, k) != 2 ==>
                scr.mem[k] == old(scr.mem[k])
  {
    date, time := [], [];
    if !drawTime {
      return;
    }
    if t.year < 1 || 9999 < t.year || t.month < 1 || 12 < t.month || t.day < 1 || 31 < t.day
       || 23 < t.hour || 59 < t.minute || 59 < t.second {
      return;
    }
    date := BuildDate(monthNames[t.month - 1], t.day, t.year);
    scr.DrawText(RightAligned(scr.width, date), 1, date, attr);
    var pmHour := ToTwelveHour(t);
    time := BuildTime(t.hour, pmHour, t.minute, t.second);
    scr.DrawText(RightAligned(scr.width, time), 2, time, attr);
  }
}

=== FILE: tui_edit_box.dfy ===
/**
 * TuiEditBox: a one-line editor over the caller's NUL-terminated buffer of Length
 * characters, in insertion mode.  The editor's state is the buffer, the text length and the
 * cursor position; each key either ends the edit (ENTER accepts, ESC cancels) or edits the
 * state, beeping when it cannot.
 */
module TuiEditBox {
  import opened TuiStrings
  import opened TuiScreen
  import opened TuiMessageBox
  import opened Wrappers

  // Key codes as MachConsGetCh returns them; an extended key comes as KEY_EXTENDED and then
  // its scan code.
  const KEY_EXTENDED: char := 0x00 as char
  const KEY_BACKSPACE: char := 0x08 as char
  const KEY_ENTER: char := 0x0D as char
  const KEY_ESC: char := 0x1B as char
  const KEY_HOME: char := 0x47 as char
  const KEY_LEFT: char := 0x4B as char
  const KEY_RIGHT: char := 0x4D as char
  const KEY_END: char := 0x4F as char
  const KEY_DELETE: char := 0x53 as char

  /** One key press: whether it came after KEY_EXTENDED, and its code. */
  datatype Key = Key(extended: bool, code: char)

  /** A plain key is never KEY_EXTENDED itself: that code announces an extended key. */
  predicate WellFormed(k: Key) {
    k.extended || k.code != KEY_EXTENDED
  }

  /** The editor's state: EditTextBuffer, EditBoxTextLength and EditBoxTextPosition. */
  datatype EditState = EditState(buf: seq<char>, len: nat, pos: nat)

  /** The cursor lies within the text, the text within the buffer, and a NUL ends it. */
  predicate Inv(s: EditState) {
    s.pos <= s.len < |s.buf| && s.buf[s.len] == NUL
  }

  /** The text being edited. */
  function Text(s: EditState): (t: seq<char>)
    requires s.len <= |s.buf|
  {
    s.buf[..s.len]
  }

  /** What a key does: ends the edit, or gives the next state and whether the box beeped. */
  datatype Outcome = Accepted | Cancelled | Edited(next: EditState, beep: bool)

  /** The buffer after memmove(buf + p, buf + p + 1, len - p): the characters from p + 1 up
      to and including the NUL at len move one place down; the rest keep their places. */
  function Removed(buf: seq<char>, p: nat, len: nat): (r: seq<char>)
    requires p <= len < |buf|
    ensures |r| == |buf|
  {
    buf[..p] + buf[p + 1..len + 1] + buf[len..]
  }

  /** The buffer after memmove(buf + p + 1, buf + p, len - p), buf[p] = key and
      buf[len + 1] = 0. */
  function Inserted(buf: seq<char>, p: nat, len: nat, key: char): (r: seq<char>)
    requires p <= len && len + 2 <= |buf|
    ensures |r| == |buf|
  {
    buf[..p] + [key] + buf[p..len] + [NUL] + buf[len + 2..]
  }

  /** The key handling of TuiEditBox's loop, in its order of tests. */
  function Apply(s: EditState, k: Key): (o: Outcome)
    requires Inv(s)
  {
    if k.code == KEY_ENTER then Accepted
    else if k.code == KEY_ESC then Cancelled
    else if k.code == KEY_BACKSPACE then
      if s.len > 0 && s.pos > 0 && s.pos <= s.len
      then Edited(EditState(Removed(s.buf, s.pos - 1, s.len), s.len - 1, s.pos - 1), false)
      else Edited(s, true)
    else if k.extended && k.code == KEY_DELETE then
      if s.len > 0 && s.pos < s.len
      then Edited(EditState(Removed(s.buf, s.pos, s.len), s.len - 1, s.pos), false)
      else Edited(s, true)
    else if k.extended && k.code == KEY_HOME then Edited(s.(pos := 0), false)
    else if k.extended && k.code == KEY_END then Edited(s.(pos := s.len), false)
    else if k.extended && k.code == KEY_RIGHT then
      if s.pos < s.len then Edited(s.(pos := s.pos + 1), false) else Edited(s, true)
    else if k.extended && k.code == KEY_LEFT then
      if s.pos > 0 then Edited(s.(pos := s.pos - 1), false) else Edited(s, true)
    else if !k.extended then
      if s.len < |s.buf| - 1 && s.pos < |s.buf| - 1
      then Edited(EditState(Inserted(s.buf, s.pos, s.len, k.code), s.len + 1, s.pos + 1), false)
      else Edited(s, true)
    else Edited(s, true)
  }

  // ---------------------------------------------------------------------------------------
  // What each key does

  /** Every key keeps the cursor within the text, the text within the buffer and its NUL
      terminator, and the buffer's size; a beep leaves the state as it was. */
  lemma ApplyKeepsInv(s: EditState, k: Key)
    requires Inv(s)
    ensures Apply(s, k).Edited? ==> Inv(Apply(s, k).next) && |Apply(s, k).next.buf| == |s.buf|
    ensures Apply(s, k).Edited? && Apply(s, k).beep ==> Apply(s, k).next == s
  {
    if k.code == KEY_ENTER || k.code == KEY_ESC {
    } else if k.code == KEY_BACKSPACE {
      if s.len > 0 && s.pos > 0 {
        RemovedKeepsInv(s, s.pos - 1);
      }
    } else if k.extended && k.code == KEY_DELETE {
      if s.len > 0 && s.pos < s.len {
        RemovedKeepsInv(s, s.pos);
      }
    } else if !k.extended {
      if s.len < |s.buf| - 1 && s.pos < |s.buf| - 1 {
        InsertedKeepsInv(s, k.code);
      }
    }
  }

  /** Removing place p of the text, with the cursor left on p, keeps the invariant. */
  lemma RemovedKeepsInv(s: EditState, p: nat)
    requires Inv(s) && p < s.len
    ensures Inv(EditState(Removed(s.buf, p, s.len), s.len - 1, p))
  {
    RemovedText(s.buf, p, s.len);
  }

  /** Inserting at the cursor, which moves past the new character, keeps the invariant. */
  lemma InsertedKeepsInv(s: EditState, ch: char)
    requires Inv(s) && s.len < |s.buf| - 1
    ensures Inv(EditState(Inserted(s.buf, s.pos, s.len, ch), s.len + 1, s.pos + 1))
  {
    var r := Inserted(s.buf, s.pos, s.len, ch);
    assert r[s.len + 1] == NUL;
  }

  /** A plain key is inserted at the cursor, which moves past it, unless the buffer is full
      (the text and the cursor must both be below Length - 1), when the box beeps. */
  lemma InsertAtCursor(s: EditState, ch: char)
    requires Inv(s) && ch != KEY_ENTER && ch != KEY_ESC && ch != KEY_BACKSPACE
    ensures var o := Apply(s, Key(false, ch));
            && o.Edited?
            && (o.beep <==> s.len >= |s.buf| - 1)
            && (!o.beep ==> Text(o.next) == Text(s)[..s.pos] + [ch] + Text(s)[s.pos..] && o.next.pos == s.pos + 1)
  {
    var o := Apply(s, Key(false, ch));
    if s.len < |s.buf| - 1 {
      var t := Text(o.next);
      assert t == s.buf[..s.pos] + [ch] + s.buf[s.pos..s.len];
      assert Text(s)[..s.pos] == s.buf[..s.pos] && Text(s)[s.pos..] == s.buf[s.pos..s.len];
    }
  }

  /** BACKSPACE removes the character before the cursor, which moves back onto its place;
      at the start of the text it beeps. */
  lemma BackspaceRemovesBefore(s: EditState, extended: bool)
    requires Inv(s)
    ensures var o := Apply(s, Key(extended, KEY_BACKSPACE));
            && o.Edited?
            && (o.beep <==> s.pos == 0)
            && (!o.beep ==> Text(o.next) == Text(s)[..s.pos - 1] + Text(s)[s.pos..] && o.next.pos == s.pos - 1)
  {
    var o := Apply(s, Key(extended, KEY_BACKSPACE));
    if s.pos > 0 {
      RemovedText(s.buf, s.pos - 1, s.len);
    }
  }

  /** DELETE removes the character under the cursor, which stays; at the end of the text it
      beeps. */
  lemma DeleteRemovesAt(s: EditState)
    requires Inv(s)
    ensures var o := Apply(s, Key(true, KEY_DELETE));
            && o.Edited?
            && (o.beep <==> s.pos == s.len)
            && (!o.beep ==> Text(o.next) == Text(s)[..s.pos] + Text(s)[s.pos + 1..] && o.next.pos == s.pos)
  {
    if s.pos < s.len {
      RemovedText(s.buf, s.pos, s.len);
    }
  }

  /** Inserted is memmove(buf + p + 1, buf + p, len - p) followed by the two writes. */
  lemma InsertedByMemmove(buf: seq<char>, p: nat, len: nat, key: char)
    requires p <= len && len + 2 <= |buf|
    ensures Inserted(buf, p, len, key) == (buf[..p + 1] + buf[p..len] + buf[len + 1..])[p := key][len + 1 := NUL]
  {
    var m := buf[..p + 1] + buf[p..len] + buf[len + 1..];
    var r := Inserted(buf, p, len, key);
    forall j | 0 <= j < |buf|
      ensures r[j] == m[p := key][len + 1 := NUL][j]
    {
      if j < p {
        assert r[j] == buf[j] && m[j] == buf[j];
      } else if p < j <= len {
        assert r[j] == buf[j - 1] && m[j] == buf[j - 1];
      } else if j > len + 1 {
        assert r[j] == buf[j] && m[j] == buf[j];
      }
    }
  }

  /** Removing place p leaves the text without its p-th character. */
  lemma RemovedText(buf: seq<char>, p: nat, len: nat)
    requires p < len < |buf| && buf[len] == NUL
    ensures Removed(buf, p, len)[..len - 1] == buf[..p] + buf[p + 1..len]
    ensures Removed(buf, p, len)[len - 1] == NUL
  {
    var r := Removed(buf, p, len);
    assert r[..len - 1] == (buf[..p] + buf[p + 1..len + 1])[..len - 1];
    assert (buf[..p] + buf[p + 1..len + 1])[..len - 1] == buf[..p] + buf[p + 1..len];
  }

  /** HOME and END put the cursor at the start and the end of the text; RIGHT and LEFT move
      it by one within [0, len] and beep at the ends.  None of them changes the text. */
  lemma CursorKeys(s: EditState)
    requires Inv(s)
    ensures Apply(s, Key(true, KEY_HOME)) == Edited(s.(pos := 0), false)
    ensures Apply(s, Key(true, KEY_END)) == Edited(s.(pos := s.len), false)
    ensures var o := Apply(s, Key(true, KEY_RIGHT));
            o.Edited? && (o.beep <==> s.pos == s.len) && o.next.buf == s.buf && o.next.len == s.len
            && o.next.pos == (if s.pos < s.len then s.pos + 1 else s.pos)
    ensures var o := Apply(s, Key(true, KEY_LEFT));
            o.Edited? && (o.beep <==> s.pos == 0) && o.next.buf == s.buf && o.next.len == s.len
            && o.next.pos == (if s.pos > 0 then s.pos - 1 else s.pos)
  {
  }

  /** Typed keys never bring a NUL into the text: a text without NUL keeps none. */
  lemma TextStaysNulFree(s: EditState, k: Key)
    requires Inv(s) && WellFormed(k) && NUL !in Text(s)
    ensures Apply(s, k).Edited? ==> NUL !in Text(Apply(s, k).next)
  {
    var o := Apply(s, k);
    if o.Edited? && !o.beep {
      if k.code == KEY_BACKSPACE {
        BackspaceRemovesBefore(s, k.extended);
      } else if k.extended && k.code == KEY_DELETE {
        DeleteRemovesAt(s);
      } else if !k.extended {
        InsertAtCursor(s, k.code);
      }
    }
  }

  // ---------------------------------------------------------------------------------------
  // The edit box over the caller's buffer

  class EditBox {
    /** EditTextBuffer, Length characters. */
    const buffer: array<char>
    /** EditBoxTextLength. */
    var length: nat
    /** EditBoxTextPosition. */
    var position: nat

    /** The state as a value. */
    function State(): (s: EditState)
      reads this, buffer
    {
      EditState(buffer[..], length, position)
    }

    predicate Valid()
      reads this, buffer
    {
      Inv(State())
    }

    /** The start of TuiEditBox: the text is the buffer up to its NUL, at most Length - 1
        characters, and the cursor is at its start. */
    constructor(editTextBuffer: array<char>)
      requires NUL in editTextBuffer[..]
      ensures buffer == editTextBuffer && Valid()
      ensures length == StrLen(editTextBuffer[..]) && position == 0
    {
      buffer := editTextBuffer;
      var n := StrLen(editTextBuffer[..]);
      length := Min(n, editTextBuffer.Length - 1);
      position := 0;
    }

    /** One key of the edit loop, with the state changed as Apply says. */
    method Press(k: Key) returns (o: Outcome)
      requires Valid()
      modifies this, buffer
      ensures o == Apply(old(State()), k)
      ensures State() == if o.Edited? then o.next else old(State())
    {
      if k.code == KEY_ENTER {
        o := Accepted;
      } else if k.code == KEY_ESC {
        o := Cancelled;
      } else if k.code == KEY_BACKSPACE {
        var beep := Backspace(k);
        o := Edited(State(), beep);
      } else if k.extended && k.code == KEY_DELETE {
        var beep := Delete(k);
        o := Edited(State(), beep);
      } else if k.extended && k.code == KEY_HOME {
        position := 0;
        o := Edited(State(), false);
      } else if k.extended && k.code == KEY_END {
        position := length;
        o := Edited(State(), false);
      } else if k.extended && k.code == KEY_RIGHT {
        var beep := true;
        if position < length {
          position, beep := position + 1, false;
        }
        o := Edited(State(), beep);
      } else if k.extended && k.code == KEY_LEFT {
        var beep := true;
        if position > 0 {
          position, beep := position - 1, false;
        }
        o := Edited(State(), beep);
      } else if !k.extended {
        var beep := Insert(k);
        o := Edited(State(), beep);
      } else {
        o := Edited(State(), true);
      }
    }

    /** BACKSPACE: the cursor moves back and the character there is removed. */
    method Backspace(ghost k: Key) returns (beep: bool)
      requires Valid() && k.code == KEY_BACKSPACE
      modifies this, buffer
      ensures Apply(old(State()), k) == Edited(State(), beep)
    {
      ghost var s := State();
      if length > 0 && position > 0 && position <= length {
        ghost var p := s.pos - 1;
        assert Apply(s, k) == Edited(EditState(Removed(s.buf, p, s.len), s.len - 1, p), false);
        RemovedText(s.buf, p, s.len);
        position := position - 1;
        MoveDown(position, length - position);
        assert buffer[..] == Removed(s.buf, p, s.len);
        length := length - 1;
        buffer[length] := NUL;
        assert buffer[..] == Removed(s.buf, p, s.len);
        return false;
      }
      return true;
    }

    /** DELETE: the character at the cursor is removed. */
    method Delete(ghost k: Key) returns (beep: bool)
      requires Valid() && k.extended && k.code == KEY_DELETE
      modifies this, buffer
      ensures Apply(old(State()), k) == Edited(State(), beep)
    {
      ghost var s := State();
      if length > 0 && position < length {
        assert Apply(s, k) == Edited(EditState(Removed(s.buf, s.pos, s.len), s.len - 1, s.pos), false);
        RemovedText(s.buf, s.pos, s.len);
        MoveDown(position, length - position);
        assert buffer[..] == Removed(s.buf, s.pos, s.len);
        length := length - 1;
        buffer[length] := NUL;
        assert buffer[..] == Removed(s.buf, s.pos, s.len);
        return false;
      }
      return true;
    }

    /** A plain key: the text from the cursor moves up and the key goes in its place. */
    method Insert(k: Key) returns (beep: bool)
      requires Valid() && !k.extended
      requires k.code != KEY_ENTER && k.code != KEY_ESC && k.code != KEY_BACKSPACE
      modifies this, buffer
      ensures Apply(old(State()), k) == Edited(State(), beep)
    {
      ghost var s := State();
      if length < buffer.Length - 1 && position < buffer.Length - 1 {
        assert Apply(s, k) == Edited(EditState(Inserted(s.buf, s.pos, s.len, k.code), s.len + 1, s.pos + 1), false);
        PutKey(k.code);
        return false;
      }
      return true;
    }

    /** The insertion itself: memmove up from the cursor, the key at the cursor, the cursor
        and the length one further, and a NUL after the text. */
    method PutKey(ch: char)
      requires Valid() && length < buffer.Length - 1
      modifies this, buffer
      ensures State() == EditState(Inserted(old(buffer[..]), old(position), old(length), ch),
                                   old(length) + 1, old(position) + 1)
    {
      ghost var s := State();
      InsertedByMemmove(s.buf, s.pos, s.len, ch);
      MoveUp(position, length - position);
      ghost var moved := buffer[..];
      assert moved == s.buf[..s.pos + 1] + s.buf[s.pos..s.len] + s.buf[s.len + 1..];
      buffer[position] := ch;
      position := position + 1;
      length := length + 1;
      buffer[length] := NUL;
      assert buffer[..] == moved[s.pos := ch][s.len + 1 := NUL];
    }

    /** memmove(buffer + p, buffer + p + 1, n): n characters move one place down. */
    method MoveDown(p: nat, n: nat)
      requires p + n + 1 <= buffer.Length
      modifies buffer
      ensures buffer[..] == old(buffer[..p] + buffer[p + 1..p + n + 1] + buffer[p + n..])
    {
      ghost var b := buffer[..];
      var i := 0;
      while i < n
        invariant 0 <= i <= n
        invariant forall j :: p <= j < p + i ==> buffer[j] == b[j + 1]
        invariant forall j :: 0 <= j < p || p + i <= j < buffer.Length ==> buffer[j] == b[j]
      {
        buffer[p + i] := buffer[p + i + 1];
        i := i + 1;
      }
      assert buffer[..] == b[..p] + b[p + 1..p + n + 1] + b[p + n..];
    }

    /** memmove(buffer + p + 1, buffer + p, n): n characters move one place up, copied from
        the last, so that none is overwritten before it moves. */
    method MoveUp(p: nat, n: nat)
      requires p + n + 1 <= buffer.Length
      modifies buffer
      ensures buffer[..] == old(buffer[..p + 1] + buffer[p..p + n] + buffer[p + n + 1..])
    {
      ghost var b := buffer[..];
      var i := n;
      while i > 0
        invariant 0 <= i <= n
        invariant forall j :: p + i < j <= p + n ==> buffer[j] == b[j - 1]
        invariant forall j :: 0 <= j <= p + i || p + n < j < buffer.Length ==> buffer[j] == b[j]
      {
        buffer[p + i] := buffer[p + i - 1];
        i := i - 1;
      }
      assert buffer[..] == b[..p + 1] + b[p..p + n] + b[p + n + 1..];
    }
  }

  // ---------------------------------------------------------------------------------------
  // Where the box goes and where the cursor is shown

  /** The edit line and its first and last columns: EditBoxLine = y2 - 2,
      EditBoxStartX = x1 + 3 and EditBoxEndX = x2 - 3 of the message box. */
  datatype EditLine = EditLine(line: int, startX: int, endX: int)

  function EditLineOf(b: Box): (e: EditLine) {
    EditLine(b.y2 - 2, b.x1 + 3, b.x2 - 3)
  }

  /** The edit line lies inside the box, below the message and within its frame, and is
      width - 2 >= 6 columns wide. */
  lemma EditLineInsideBox(screenWidth: nat, screenHeight: nat, width: int, height: nat)
    requires width >= MIN_BOX_WIDTH
    ensures var b := BoxArea(screenWidth, screenHeight, width, height);
            var e := EditLineOf(b);
            && b.y1 + height < e.line < b.y2
            && b.x1 < e.startX <= e.endX < b.x2
            && e.endX - e.startX + 1 == width - 2
  {
  }

  /** EditBoxTextDisplayIndex and EditBoxCursorX: the text is shown from the display index,
      and the cursor at the end column once the position is past the line's span. */
  function Cursor(e: EditLine, pos: nat): (c: (int, nat))
    requires e.startX <= e.endX
  {
    if pos > e.endX - e.startX then (e.endX, pos - (e.endX - e.startX))
    else (e.startX + pos, 0)
  }

  /** The cursor is always shown on the edit line, over the character at the position: its
      column's distance from the start plus the display index is the position, and the
      shown part of the text (from the display index, endX - startX + 1 characters) holds
      it. */
  lemma CursorOnLine(e: EditLine, pos: nat)
    requires e.startX <= e.endX
    ensures var c := Cursor(e, pos);
            && e.startX <= c.0 <= e.endX
            && c.0 - e.startX + c.1 == pos
            && c.1 <= pos <= c.1 + (e.endX - e.startX)
  {
  }

  /** The edit line of TuiEditBox after a key: the line's background filled with blanks,
      the text drawn from the display index over at most the line's width, and the cursor
      column returned. */
  method ShowEditLine(scr: Screen, e: EditLine, box: EditBox, attr: byte) returns (cursorX: int)
    requires scr.Valid() && box.Valid()
    requires 0 <= e.line && 0 <= e.startX <= e.endX
    modifies scr.mem
    ensures cursorX == Cursor(e, box.position).0
  {
    scr.FillArea(e.startX, e.line, e.endX, e.line, ' ', attr);
    var displayIndex: nat;
    if box.position > e.endX - e.startX {
      displayIndex := box.position - (e.endX - e.startX);
      cursorX := e.endX;
    } else {
      displayIndex := 0;
      cursorX := e.startX + box.position;
    }
    scr.DrawText2(e.startX, e.line, e.endX - e.startX + 1, box.buffer[displayIndex..], attr);
  }

  // ---------------------------------------------------------------------------------------
  // The whole dialog

  /** The keys in order until one ends the edit: Some(true) for ENTER, Some(false) for ESC,
      None when the keys run out first; and the state the edit leaves. */
  function Run(s: EditState, keys: seq<Key>): (r: (Option<bool>, EditState))
    requires Inv(s)
    decreases |keys|
  {
    if keys == [] then (None, s)
    else
      match Apply(s, keys[0])
      case Accepted => (Some(true), s)
      case Cancelled => (Some(false), s)
      case Edited(next, _) =>
        ApplyKeepsInv(s, keys[0]);
        Run(next, keys[1..])
  }

  /** The first key of a run either ends it or hands the rest to the state it leaves. */
  lemma RunStep(s: EditState, keys: seq<Key>)
    requires Inv(s) && keys != []
    ensures Apply(s, keys[0]).Accepted? ==> Run(s, keys) == (Some(true), s)
    ensures Apply(s, keys[0]).Cancelled? ==> Run(s, keys) == (Some(false), s)
    ensures Apply(s, keys[0]).Edited? ==>
              Inv(Apply(s, keys[0]).next) && Run(s, keys) == Run(Apply(s, keys[0]).next, keys[1..])
  {
    ApplyKeepsInv(s, keys[0]);
  }

  /** The state an edit starts from: the caller's text, the cursor at its start. */
  function Start(buf: seq<char>): (s: EditState)
    requires NUL in buf
    ensures Inv(s)
  {
    EditState(buf, StrLen(buf), 0)
  }

  /** Whatever keys are typed, the buffer keeps its size and its NUL-terminated text, and
      the cursor stays within the text. */
  lemma {:induction false} RunKeepsInv(s: EditState, keys: seq<Key>)
    requires Inv(s)
    ensures Inv(Run(s, keys).1) && |Run(s, keys).1.buf| == |s.buf|
    decreases |keys|
  {
    if keys != [] {
      ApplyKeepsInv(s, keys[0]);
      match Apply(s, keys[0])
      case Accepted =>
      case Cancelled =>
      case Edited(next, _) => RunKeepsInv(next, keys[1..]);
    }
  }

  /** ENTER and ESC end the edit whatever else came before them, and nothing after them is
      read. */
  lemma {:induction false} RunStopsAtEnd(s: EditState, keys: seq<Key>, more: seq<Key>)
    requires Inv(s) && Run(s, keys).0.Some?
    ensures Run(s, keys + more) == Run(s, keys)
    decreases |keys|
  {
    assert keys != [];
    assert (keys + more)[0] == keys[0];
    match Apply(s, keys[0])
    case Accepted =>
    case Cancelled =>
    case Edited(next, _) =>
      ApplyKeepsInv(s, keys[0]);
      assert (keys + more)[1..] == keys[1..] + more;
      RunStopsAtEnd(next, keys[1..], more);
  }

  /** TuiEditBox, with the keys it reads given in order: saves the screen, draws the
      message box and the edit line, edits the caller's buffer key by key, redrawing the edit
      line after each key, and once ENTER or ESC ends the edit restores the screen and
      returns whether it was ENTER. */
  method EditBoxDialog(scr: Screen, messageText: seq<char>, editTextBuffer: array<char>, keys: seq<Key>,
                       boxAttr: byte, editAttr: byte)
    returns (result: Option<bool>)
    requires scr.Valid() && NUL in editTextBuffer[..]
    modifies scr.mem, editTextBuffer
    ensures (result, editTextBuffer[..]) == (Run(Start(old(editTextBuffer[..])), keys).0,
                                            Run(Start(old(editTextBuffer[..])), keys).1.buf)
    ensures result.Some? ==> scr.mem[..] == old(scr.mem[..])
  {
    var screenBuffer := new byte[scr.width * scr.height * 2];
    scr.SaveScreen(screenBuffer);
    var e := DrawDialog(scr, messageText, boxAttr);
    var eb := new EditBox(editTextBuffer);
    var _ := ShowEditLine(scr, e, eb, editAttr);
    result := EditKeys(scr, e, eb, keys, editAttr);
    if result.Some? {
      scr.RestoreScreen(screenBuffer);
    }
  }

  /** The message box of TuiEditBox, laid out as TuiMessageBoxCritical's, and its edit line. */
  method DrawDialog(scr: Screen, messageText: seq<char>, boxAttr: byte) returns (e: EditLine)
    requires scr.Valid()
    modifies scr.mem
    ensures var ls := Lines(Content(messageText));
            e == EditLineOf(BoxArea(scr.width, scr.height, Max(MIN_BOX_WIDTH, Longest(ls, |ls|)), |ls|))
    ensures 0 <= e.line && 0 <= e.startX <= e.endX
  {
    var height := MessageHeight(messageText);
    var width := MessageWidth(messageText, height);
    var b := BoxArea(scr.width, scr.height, width, height);
    scr.FillArea(b.x1, b.y1, b.x2, b.y2, ' ', boxAttr);
    var _ := DrawLines(scr, messageText, b.x1 + 2, b.y1 + 1, boxAttr);
    e := EditLineOf(b);
  }

  /** The edit loop over the keys: each key changes the state as Apply says and the edit
      line is redrawn, until ENTER or ESC ends it or the keys run out. */
  method EditKeys(scr: Screen, e: EditLine, eb: EditBox, keys: seq<Key>, editAttr: byte)
    returns (result: Option<bool>)
    requires scr.Valid() && eb.Valid() && 0 <= e.line && 0 <= e.startX <= e.endX
    modifies scr.mem, eb, eb.buffer
    ensures eb.Valid() && (result, eb.State()) == Run(old(eb.State()), keys)
  {
    ghost var s0 := eb.State();
    result := None;
    var i := 0;
    while i < |keys|
      invariant 0 <= i <= |keys|
      invariant eb.Valid() && Run(s0, keys) == Run(eb.State(), keys[i..])
      decreases |keys| - i
    {
      assert keys[i..][1..] == keys[i + 1..];
      RunStep(eb.State(), keys[i..]);
      var o := eb.Press(keys[i]);
      if !o.Edited? {
        result := Some(o.Accepted?);
        return;
      }
      var _ := ShowEditLine(scr, e, eb, editAttr);
      i := i + 1;
    }
  }
}

=== FILE: tui_message_box.dfy ===
/**
 * The message box of the FreeLoader text UI: TuiMessageBoxCritical measures the message
 * (one line more than it has newlines, at least 8 columns wide), centres a box for it on
 * the screen and draws each line inside; TuiMessageBox brackets it with TuiSaveScreen and
 * TuiRestoreScreen.  TuiEditBox measures and places its box the same way.
 */
module TuiMessageBox {
  import opened TuiStrings
  import opened TuiScreen

  /** The least box width, in columns. */
  const MIN_BOX_WIDTH: int := 8

  /** "Find the height": one line, plus one per newline before the NUL. */
  method MessageHeight(text: seq<char>) returns (height: nat)
    ensures height == |Lines(Content(text))|
  {
    var c := Content(text);
    height := 1;
    var i := 0;
    var n := StrLen(text);
    while i < n
      invariant 0 <= i <= n == |c|
      invariant height == NewlineCount(c[..i]) + 1
    {
      assert c[..i + 1][..i] == c[..i];
      if text[i] == NEWLINE {
        height := height + 1;
      }
      i := i + 1;
    }
    assert c[..i] == c;
    LinesCount(c);
  }

  /** "Find the width": the longest line, but at least MIN_BOX_WIDTH. */
  method MessageWidth(text: seq<char>, height: nat) returns (width: int)
    requires height == |Lines(Content(text))|
    ensures width == Max(MIN_BOX_WIDTH, Longest(Lines(Content(text)), height))
  {
    ghost var c := Content(text);
    ghost var ls := Lines(c);
    width := MIN_BOX_WIDTH;
    var i: nat, j: nat := 0, 0;
    while i < height
      invariant 0 <= i <= height
      invariant i < height ==> j <= |c| && Lines(c[j..]) == ls[i..]
      invariant width == Max(MIN_BOX_WIDTH, Longest(ls, i))
    {
      var k;
      j, k := MeasureLine(text, j, ls, i);
      if k > width {
        width := k;
      }
      assert width == Max(MIN_BOX_WIDTH, Max(Longest(ls, i), k));
      i := i + 1;
    }
  }

  /** One turn of the width scan: line i starts at j; returns its length k and the index
      just past its newline, where the next line starts. */
  method MeasureLine(text: seq<char>, j: nat, ghost ls: seq<seq<char>>, i: nat) returns (next: nat, k: nat)
    requires j <= |Content(text)| && i < |ls| && Lines(Content(text)[j..]) == ls[i..]
    ensures k == |ls[i]| && Longest(ls, i + 1) == Max(Longest(ls, i), k)
    ensures i + 1 < |ls| ==> next <= |Content(text)| && Lines(Content(text)[next..]) == ls[i + 1..]
  {
    var end;
    end, k := ScanLine(text, j);
    NextLine(Content(text), j, k, ls, i);
    next := end + 1;
  }

  /** The inner "while" of the width scan: walks from j to the newline or NUL ending the line. */
  method ScanLine(text: seq<char>, j: nat) returns (end: nat, k: nat)
    requires j <= StrLen(text)
    ensures k == LineEnd(Content(text)[j..]) && end == j + k
  {
    ghost var c := Content(text);
    ghost var p := LineEnd(c[j..]);
    LineEndOfRest(c, j);
    end, k := j, 0;
    while At(text, end) != NEWLINE && At(text, end) != NUL
      invariant j <= end <= j + p
      invariant k == end - j
      decreases j + p - end
    {
      end, k := end + 1, k + 1;
    }
  }

  /** The line of k characters starting at j is line i of the message, and when more lines
      follow it, the rest of the text after its newline holds exactly those lines. */
  lemma NextLine(c: seq<char>, j: nat, k: nat, ls: seq<seq<char>>, i: nat)
    requires j <= |c| && i < |ls| && Lines(c[j..]) == ls[i..] && k == LineEnd(c[j..])
    ensures k == |ls[i]|
    ensures Longest(ls, i + 1) == Max(Longest(ls, i), k)
    ensures i + 1 < |ls| ==> j + k + 1 <= |c| && Lines(c[j + k + 1..]) == ls[i + 1..]
  {
    var r := c[j..];
    assert Lines(r)[0] == ls[i];
    if i + 1 < |ls| {
      assert k < |r|;
      assert r[k + 1..] == c[j + k + 1..];
      assert Lines(r)[1..] == ls[i + 1..];
    }
  }

  /** The line starting at j0 ends at a newline or at the end of the string. */
  lemma LineEndOfRest(c: seq<char>, j0: nat)
    requires j0 <= |c|
    ensures j0 + LineEnd(c[j0..]) <= |c|
    ensures forall j :: j0 <= j < j0 + LineEnd(c[j0..]) ==> c[j] != NEWLINE
    ensures j0 + LineEnd(c[j0..]) < |c| ==> c[j0 + LineEnd(c[j0..])] == NEWLINE
  {
    var p := LineEnd(c[j0..]);
    LineEndIsFirstNewline(c[j0..]);
    forall j | j0 <= j < j0 + p
      ensures c[j] != NEWLINE
    {
      assert c[j0..][j - j0] == c[j];
    }
  }

  // ---------------------------------------------------------------------------------------
  // Placing and drawing the box

  /** The corners of the box, (x1, y1) and (x2, y2). */
  datatype Box = Box(x1: nat, y1: nat, x2: nat, y2: nat)

  /** "Calculate box area" for a message of `height` lines at most `width` columns wide on a
      screenWidth x screenHeight screen, in the source's ULONG arithmetic. */
  function BoxArea(screenWidth: nat, screenHeight: nat, width: int, height: nat): (b: Box)
    requires width >= MIN_BOX_WIDTH
  {
    var x1 := U32(screenWidth - (width + 2)) / 2;
    var y1 := U32(screenHeight - height - 2) / 2 + 1;
    Box(x1, y1, x1 + width + 3, y1 + height + 4)
  }

  /** When the message fits on the screen the box is centred on it (the left edge is half of
      the spare columns, the top edge one row below half of the spare rows), it is width + 4
      columns and height + 5 rows, and the lines, drawn from column x1 + 2 on rows y1 + 1
      to y1 + height, lie strictly inside its frame. */
  lemma BoxAreaCentred(screenWidth: nat, screenHeight: nat, width: int, height: nat)
    requires width >= MIN_BOX_WIDTH && width + 2 <= screenWidth < 0x1_0000_0000
    requires height + 2 <= screenHeight < 0x1_0000_0000
    ensures var b := BoxArea(screenWidth, screenHeight, width, height);
            && b.x1 == (screenWidth - width - 2) / 2
            && b.y1 == (screenHeight - height - 2) / 2 + 1
            && b.x2 - b.x1 + 1 == width + 4 && b.y2 - b.y1 + 1 == height + 5
            && b.x1 < b.x1 + 2 && b.x1 + 2 + width - 1 < b.x2
            && b.y1 < b.y1 + 1 && b.y1 + height < b.y2
  {
  }

  /** The cell column where the OK button starts: three columns left of the box's middle. */
  function OkButtonX(b: Box): (x: int) {
    b.x1 + (b.x2 - b.x1) / 2 - 3
  }

  const OK_BUTTON: seq<char> := "   OK   "

  /** TuiMessageBoxCritical up to its wait for a key: measures the message, fills the box,
      draws each line of the message on its own row and the OK button on the row above the
      bottom edge.  Returns the box and the text drawn on each row, in order. */
  method DrawMessageBoxCritical(scr: Screen, text: seq<char>, attr: byte, buttonAttr: byte)
    returns (box: Box, rows: seq<(nat, seq<char>)>)
    requires scr.Valid()
    modifies scr.mem
    ensures var c := Content(text);
            var ls := Lines(c);
            && box == BoxArea(scr.width, scr.height, Max(MIN_BOX_WIDTH, Longest(ls, |ls|)), |ls|)
            && |rows| == |ls|
            && forall l :: 0 <= l < |rows| ==> rows[l] == (box.y1 + 1 + l, ls[l])
  {
    var height := MessageHeight(text);
    var width := MessageWidth(text, height);
    box := BoxArea(scr.width, scr.height, width, height);
    ghost var ls := Lines(Content(text));
    assert box == BoxArea(scr.width, scr.height, Max(MIN_BOX_WIDTH, Longest(ls, |ls|)), |ls|);
    scr.FillArea(box.x1, box.y1, box.x2, box.y2, ' ', attr);

    rows := DrawLines(scr, text, box.x1 + 2, box.y1 + 1, attr);
    assert forall l :: 0 <= l < |rows| ==> rows[l] == (box.y1 + 1 + l, ls[l]);
    scr.DrawText(U32(OkButtonX(box)), U32(box.y2 - 2), OK_BUTTON, buttonAttr);
  }

  /** The "Draw the text" loop: copies characters into temp until a newline or the NUL,
      then draws temp at column x on row y + curline and starts the next line. */
  method DrawLines(scr: Screen, text: seq<char>, x: nat, y: nat, attr: byte) returns (rows: seq<(nat, seq<char>)>)
    requires scr.Valid()
    modifies scr.mem
    ensures |rows| == |Lines(Content(text))|
    ensures forall l :: 0 <= l < |rows| ==> rows[l] == (y + l, Lines(Content(text))[l])
  {
    ghost var c := Content(text);
    var n := StrLen(text);
    var temp: seq<char> := [];
    var curline: nat := 0;
    rows := [];
    var i := 0;
    ghost var ls := Lines(c[..0]);
    assert c[..0] == [];
    while i < n + 1
      invariant 0 <= i <= n + 1 && n == |c| && |rows| == curline
      invariant i <= n ==> ls == Lines(c[..i]) && |ls| == curline + 1 && ls[curline] == temp
      invariant i == n + 1 ==> ls == Lines(c) && |ls| == curline
      invariant forall l :: 0 <= l < curline ==> rows[l] == (y + l, ls[l])
    {
      if i == n || text[i] == NEWLINE {
        scr.DrawText(x, y + curline, temp, attr);
        rows := rows + [(y + curline, temp)];
        RowsAfterLine(rows[..curline], ls, y, curline);
        if i < n {
          assert c[..i + 1] == c[..i] + [NEWLINE];
          LinesSnocNewline(c[..i]);
          ls := ls + [[]];
        } else {
          assert c[..i] == c;
        }
        temp := [];
        curline := curline + 1;
      } else {
        assert c[..i + 1] == c[..i] + [text[i]];
        LinesSnocOther(c[..i], text[i]);
        RowsAfterChar(rows, ls, y, curline, text[i]);
        ls := ls[..curline] + [ls[curline] + [text[i]]];
        temp := temp + [text[i]];
      }
      i := i + 1;
    }
  }

  /** Drawing the current line adds its row; a newline after it adds an empty line and
      leaves the lines before it as they were. */
  lemma RowsAfterLine(rows: seq<(nat, seq<char>)>, ls: seq<seq<char>>, y: nat, curline: nat)
    requires |rows| == curline && |ls| == curline + 1
    requires forall l :: 0 <= l < curline ==> rows[l] == (y + l, ls[l])
    ensures var rows' := rows + [(y + curline, ls[curline])];
            && (forall l :: 0 <= l < curline + 1 ==> rows'[l] == (y + l, ls[l]))
            && (forall l :: 0 <= l < curline + 1 ==> rows'[l] == (y + l, (ls + [[]])[l]))
  {
  }

  /** Reading a character only lengthens the current line: the rows drawn so far still
      hold the lines before it. */
  lemma RowsAfterChar(rows: seq<(nat, seq<char>)>, ls: seq<seq<char>>, y: nat, curline: nat, ch: char)
    requires |ls| == curline + 1 && |rows| == curline
    requires forall l :: 0 <= l < curline ==> rows[l] == (y + l, ls[l])
    ensures forall l :: 0 <= l < curline ==> rows[l] == (y + l, (ls[..curline] + [ls[curline] + [ch]])[l])
  {
  }

  /** TuiMessageBox: saves the screen into a fresh buffer, shows the message box and
      restores the screen, which ends as it was. */
  method MessageBox(scr: Screen, text: seq<char>, attr: byte, buttonAttr: byte)
    requires scr.Valid()
    modifies scr.mem
    ensures scr.mem[..] == old(scr.mem[..])
  {
    var buffer := new byte[scr.width * scr.height * 2];
    scr.SaveScreen(buffer);
    var _, _ := DrawMessageBoxCritical(scr, text, attr, buttonAttr);
    scr.RestoreScreen(buffer);
  }
}

=== FILE: tui_names.dfy ===
/**
 * TuiTextToColor and TuiTextToFillStyle: the names a FreeLoader configuration uses for the
 * sixteen text colours and the three fill styles, looked up without regard to case.
 */
module TuiNames {
  import opened TuiStrings
  import opened TuiScreen

  /** ASCII lower case, as the C library folds letters for _stricmp. */
  function Lower(c: char): (l: char)
    ensures 'A' <= c <= 'Z' ==> l as int == c as int + 32
    ensures !('A' <= c <= 'Z') ==> l == c
  {
    if 'A' <= c <= 'Z' then (c as int + 32) as char else c
  }

  /** _stricmp(a, b) == 0: the same length and the same letters up to case. */
  predicate SameIgnoringCase(a: seq<char>, b: seq<char>) {
    |a| == |b| && forall i :: 0 <= i < |a| ==> Lower(a[i]) == Lower(b[i])
  }

  /** Comparing up to case is an equivalence. */
  lemma SameIgnoringCaseEquivalence(a: seq<char>, b: seq<char>, c: seq<char>)
    ensures SameIgnoringCase(a, a)
    ensures SameIgnoringCase(a, b) ==> SameIgnoringCase(b, a)
    ensures SameIgnoringCase(a, b) && SameIgnoringCase(b, c) ==> SameIgnoringCase(a, c)
  {
  }

  /** A name table: each entry a name and its value. */
  type Table = seq<(seq<char>, byte)>

  /** The value of the first entry whose name matches, or dflt when none does. */
  function Lookup(table: Table, name: seq<char>, dflt: byte): (v: byte)
  {
    if table == [] then dflt
    else if SameIgnoringCase(name, table[0].0) then table[0].1
    else Lookup(table[1..], name, dflt)
  }

  /** Looking up a name gives the value of the first entry it matches ... */
  lemma {:induction false} LookupFirstMatch(table: Table, name: seq<char>, dflt: byte, i: nat)
    requires i < |table| && SameIgnoringCase(name, table[i].0)
    requires forall j :: 0 <= j < i ==> !SameIgnoringCase(name, table[j].0)
    ensures Lookup(table, name, dflt) == table[i].1
  {
    if i > 0 {
      LookupFirstMatch(table[1..], name, dflt, i - 1);
    }
  }

  /** ... and the default when it matches none. */
  lemma {:induction false} LookupNoMatch(table: Table, name: seq<char>, dflt: byte)
    requires forall j :: 0 <= j < |table| ==> !SameIgnoringCase(name, table[j].0)
    ensures Lookup(table, name, dflt) == dflt
  {
    if table != [] {
      LookupNoMatch(table[1..], name, dflt);
    }
  }

  /** Two spellings that differ only in case look up the same value. */
  lemma {:induction false} LookupIgnoresCase(table: Table, a: seq<char>, b: seq<char>, dflt: byte)
    requires SameIgnoringCase(a, b)
    ensures Lookup(table, a, dflt) == Lookup(table, b, dflt)
  {
    if table != [] {
      SameIgnoringCaseEquivalence(a, b, table[0].0);
      SameIgnoringCaseEquivalence(b, a, table[0].0);
      LookupIgnoresCase(table[1..], a, b, dflt);
    }
  }

  /** The lookup loop both functions share: walks the table in order and stops at the first
      name that matches. */
  method Find(table: Table, name: seq<char>, dflt: byte) returns (value: byte)
    ensures value == Lookup(table, name, dflt)
  {
    var i := 0;
    while i < |table|
      invariant 0 <= i <= |table|
      invariant Lookup(table, name, dflt) == Lookup(table[i..], name, dflt)
    {
      assert table[i..][1..] == table[i + 1..];
      if SameIgnoringCase(name, table[i].0) {
        return table[i].1;
      }
      i := i + 1;
    }
    return dflt;
  }

  // ---------------------------------------------------------------------------------------
  // Colours

  const COLOR_BLACK: byte := 0
  const COLOR_WHITE: byte := 15

  /** The colour names in the order of their values, COLOR_BLACK (0) to COLOR_WHITE (15). */
  const COLORS: Table := [
    ("Black", 0), ("Blue", 1), ("Green", 2), ("Cyan", 3),
    ("Red", 4), ("Magenta", 5), ("Brown", 6), ("Gray", 7),
    ("DarkGray", 8), ("LightBlue", 9), ("LightGreen", 10), ("LightCyan", 11),
    ("LightRed", 12), ("LightMagenta", 13), ("Yellow", 14), ("White", 15)
  ]

  /** What TuiTextToColor returns for a name: the machine's default text colour for
      "Default", otherwise the matching colour, and COLOR_BLACK for an unknown name. */
  function ColorOf(name: seq<char>, machDefaultTextColor: byte): (c: byte) {
    if SameIgnoringCase(name, "Default") then machDefaultTextColor
    else Lookup(COLORS, name, COLOR_BLACK)
  }

  /** TuiTextToColor: the colour named by the NUL-terminated text. */
  method TextToColor(colorText: seq<char>, machDefaultTextColor: byte) returns (color: byte)
    ensures color == ColorOf(Content(colorText), machDefaultTextColor)
  {
    var name := Content(colorText);
    if SameIgnoringCase(name, "Default") {
      return machDefaultTextColor;
    }
    color := Find(COLORS, name, COLOR_BLACK);
  }

  /** No two colour names, nor "Default" and a colour name, are the same up to case. */
  lemma ColorNamesDistinct()
    ensures forall i, j :: 0 <= i < j < |COLORS| ==> !SameIgnoringCase(COLORS[i].0, COLORS[j].0)
    ensures forall i :: 0 <= i < |COLORS| ==> !SameIgnoringCase("Default", COLORS[i].0)
  {
    forall i, j | 0 <= i < j < |COLORS|
      ensures !SameIgnoringCase(COLORS[i].0, COLORS[j].0)
    {
      ColorPairDistinct(i, j);
    }
    forall i | 0 <= i < |COLORS|
      ensures !SameIgnoringCase("Default", COLORS[i].0)
    {
      DefaultIsNoColor(i);
    }
  }

  lemma ColorPairDistinct(i: nat, j: nat)
    requires i < j < |COLORS|
    ensures !SameIgnoringCase(COLORS[i].0, COLORS[j].0)
  {
    var a, b := COLORS[i].0, COLORS[j].0;
    if |a| == |b| {
      assert exists k :: 0 <= k < |a| && Lower(a[k]) != Lower(b[k]) by {
        NamesDiffer(i, j);
      }
    }
  }

  lemma DefaultIsNoColor(i: nat)
    requires i < |COLORS|
    ensures !SameIgnoringCase("Default", COLORS[i].0)
  {
    var b := COLORS[i].0;
    if |b| == 7 {
      assert Lower("Default"[0]) != Lower(b[0]);
    }
  }

  /** Colour names of equal length differ at their first letter or their second, or, for
      the "Light..." names, at their sixth. */
  lemma NamesDiffer(i: nat, j: nat)
    requires 0 <= i < j < |COLORS| && |COLORS[i].0| == |COLORS[j].0|
    ensures exists k :: 0 <= k < |COLORS[i].0| && Lower(COLORS[i].0[k]) != Lower(COLORS[j].0[k])
  {
    var a, b := COLORS[i].0, COLORS[j].0;
    if Lower(a[0]) != Lower(b[0]) {
    } else if Lower(a[1]) != Lower(b[1]) {
      assert Lower(a[1]) != Lower(b[1]);
    } else {
      assert Lower(a[5]) != Lower(b[5]);
    }
  }

  /** Each colour's value is its position in the table. */
  lemma ColorValueIsPosition(i: nat)
    requires i < |COLORS|
    ensures COLORS[i].1 == i as byte
  {
  }

  /** Every colour's own name, in any case, gives that colour, which is its position in the
      table. */
  lemma ColorNameGivesColor(name: seq<char>, i: nat, machDefaultTextColor: byte)
    requires i < |COLORS| && SameIgnoringCase(name, COLORS[i].0)
    ensures ColorOf(name, machDefaultTextColor) == i as byte
  {
    assert !SameIgnoringCase(name, "Default") by {
      DefaultIsNoColor(i);
      SameIgnoringCaseEquivalence(name, COLORS[i].0, "Default");
      SameIgnoringCaseEquivalence("Default", name, COLORS[i].0);
    }
    forall j | 0 <= j < i
      ensures !SameIgnoringCase(name, COLORS[j].0)
    {
      ColorPairDistinct(j, i);
      SameIgnoringCaseEquivalence(COLORS[j].0, name, COLORS[i].0);
      SameIgnoringCaseEquivalence(name, COLORS[j].0, COLORS[i].0);
    }
    LookupFirstMatch(COLORS, name, COLOR_BLACK, i);
    ColorValueIsPosition(i);
  }

  /** A name that is neither "Default" nor a colour gives COLOR_BLACK; every result is a
      colour of the table or the machine's default. */
  lemma UnknownColorIsBlack(name: seq<char>, machDefaultTextColor: byte)
    ensures (!SameIgnoringCase(name, "Default") && forall i :: 0 <= i < |COLORS| ==> !SameIgnoringCase(name, COLORS[i].0))
            ==> ColorOf(name, machDefaultTextColor) == COLOR_BLACK
    ensures ColorOf(name, machDefaultTextColor) <= COLOR_WHITE || ColorOf(name, machDefaultTextColor) == machDefaultTextColor
  {
    if !SameIgnoringCase(name, "Default") {
      var v := Lookup(COLORS, name, COLOR_BLACK);
      LookupInTable(COLORS, name, COLOR_BLACK);
      if v != COLOR_BLACK {
        var i :| 0 <= i < |COLORS| && v == COLORS[i].1;
        ColorValueIsPosition(i);
      }
      if forall i :: 0 <= i < |COLORS| ==> !SameIgnoringCase(name, COLORS[i].0) {
        LookupNoMatch(COLORS, name, COLOR_BLACK);
      }
    }
  }

  /** A lookup gives the default or one of the table's values. */
  lemma {:induction false} LookupInTable(table: Table, name: seq<char>, dflt: byte)
    ensures Lookup(table, name, dflt) == dflt
            || exists i :: 0 <= i < |table| && Lookup(table, name, dflt) == table[i].1
  {
    if table != [] && !SameIgnoringCase(name, table[0].0) {
      LookupInTable(table[1..], name, dflt);
      if Lookup(table, name, dflt) != dflt {
        var i :| 0 <= i < |table[1..]| && Lookup(table[1..], name, dflt) == table[1..][i].1;
        assert table[i + 1].1 == Lookup(table, name, dflt);
      }
    } else if table != [] {
      assert Lookup(table, name, dflt) == table[0].1;
    }
  }

  // ---------------------------------------------------------------------------------------
  // Fill styles

  const LIGHT_FILL: byte := 0xB0
  const MEDIUM_FILL: byte := 0xB1
  const DARK_FILL: byte := 0xB2

  const FILL_STYLES: Table := [("Light", LIGHT_FILL), ("Medium", MEDIUM_FILL), ("Dark", DARK_FILL)]

  /** TuiTextToFillStyle: the fill character named by the NUL-terminated text, LIGHT_FILL
      for an unknown name. */
  method TextToFillStyle(fillStyleText: seq<char>) returns (style: byte)
    ensures style == Lookup(FILL_STYLES, Content(fillStyleText), LIGHT_FILL)
  {
    style := Find(FILL_STYLES, Content(fillStyleText), LIGHT_FILL);
  }

  /** Each style's name, in any case, gives that style; any other name gives LIGHT_FILL; and
      the result is always one of the three shading characters. */
  lemma FillStyleNames(name: seq<char>)
    ensures SameIgnoringCase(name, "Light") ==> Lookup(FILL_STYLES, name, LIGHT_FILL) == LIGHT_FILL
    ensures SameIgnoringCase(name, "Medium") ==> Lookup(FILL_STYLES, name, LIGHT_FILL) == MEDIUM_FILL
    ensures SameIgnoringCase(name, "Dark") ==> Lookup(FILL_STYLES, name, LIGHT_FILL) == DARK_FILL
    ensures (forall i :: 0 <= i < |FILL_STYLES| ==> !SameIgnoringCase(name, FILL_STYLES[i].0))
            ==> Lookup(FILL_STYLES, name, LIGHT_FILL) == LIGHT_FILL
    ensures LIGHT_FILL <= Lookup(FILL_STYLES, name, LIGHT_FILL) <= DARK_FILL
  {
    // The three names have different lengths, so a name matches at most one of them.
    if SameIgnoringCase(name, "Medium") {
      LookupFirstMatch(FILL_STYLES, name, LIGHT_FILL, 1);
    }
    if SameIgnoringCase(name, "Dark") {
      LookupFirstMatch(FILL_STYLES, name, LIGHT_FILL, 2);
    }
    if forall i :: 0 <= i < |FILL_STYLES| ==> !SameIgnoringCase(name, FILL_STYLES[i].0) {
      LookupNoMatch(FILL_STYLES, name, LIGHT_FILL);
    }
  }
}

=== FILE: tui_progress_bar.dfy ===
/**
 * TuiDrawProgressBar: inside a box, a line of text above a bar one row high; of the bar's
 * Width cells the first Position * Width / Range are solid (0xDB) and the rest shaded
 * (0xB2), all in ULONG arithmetic.
 */
module TuiProgressBar {
  import opened TuiStrings
  import opened TuiScreen
  import opened TuiMessageBox
  import TuiCenteredText
  import opened TuiDateTime

  /** The solid bar character. */
  const SOLID: char := 0xDB as char
  /** The shaded character of the part still to come. */
  const SHADED: char := 0xB2 as char

  /** The box with its margins excluded: two columns left and right, one row top and bottom. */
  function BarRect(left: nat, top: nat, right: nat, bottom: nat): (b: Box)
    ensures b.x1 == U32(left + 2) && b.x2 == U32(right - 2)
    ensures b.y1 == U32(top + 1) && b.y2 == U32(bottom - 1)
  {
    Box(U32(left + 2), U32(top + 1), U32(right - 2), U32(bottom - 1))
  }

  /** ProgressBarWidth: the cells from x1 to x2. */
  function BarWidth(b: Box): (w: nat) {
    U32(b.x2 - b.x1 + 1)
  }

  /** The position clipped to the range. */
  function Clip(position: nat, range: nat): (p: nat)
    ensures p <= range && p <= position
    ensures p == position || p == range
  {
    if position > range then range else position
  }

  /** How many cells are solid: the clipped position times the width, in ULONG, over the range. */
  function FilledCells(position: nat, range: nat, width: nat): (f: nat)
    requires range > 0
  {
    U32(Clip(position, range) * width) / range
  }

  // ---------------------------------------------------------------------------------------
  // What the fill count means

  /** However the product wraps, the solid part never exceeds the bar. */
  lemma FilledWithinWidth(position: nat, range: nat, width: nat)
    requires range > 0
    ensures FilledCells(position, range, width) <= width
  {
    var p := Clip(position, range);
    var x := U32(p * width);
    assert p * width <= range * width by { MulMonotone(p, range, width); }
    assert x <= range * width by {
      if p * width >= 0x1_0000_0000 { assert x < 0x1_0000_0000; }
    }
    DivAtMost(x, range, width);
  }

  /** Without wrap-around the solid part is the clipped position's share of the bar, rounded
      down: n / width of the bar for position / range of the work. */
  lemma FilledProportional(position: nat, range: nat, width: nat)
    requires range > 0 && Clip(position, range) * width < 0x1_0000_0000
    ensures var n := FilledCells(position, range, width);
            n * range <= Clip(position, range) * width < (n + 1) * range
  {
    var p := Clip(position, range);
    var x := p * width;
    var n := x / range;
    assert x == range * n + x % range;
    assert (n + 1) * range == n * range + range;
  }

  /** Nothing is solid at position 0 ... */
  lemma FilledNoneAtStart(range: nat, width: nat)
    requires range > 0
    ensures FilledCells(0, range, width) == 0
  {
  }

  /** ... and the whole bar is, from the range on, as long as range * width fits in a ULONG. */
  lemma FilledAllAtEnd(position: nat, range: nat, width: nat)
    requires range > 0 && position >= range && range * width < 0x1_0000_0000
    ensures FilledCells(position, range, width) == width
  {
    assert U32(range * width) == range * width;
    DivModUnique(range * width, range, width, 0);
  }

  /** Once range * width wraps, a finished bar is not full: position == range == 2^31 on a
      two-cell bar leaves it empty. */
  lemma WrappedBarNotFull()
    ensures FilledCells(0x8000_0000, 0x8000_0000, 2) == 0
  {
  }

  lemma DivAtMost(x: nat, d: nat, w: nat)
    requires d > 0 && x <= d * w
    ensures x / d <= w
  {
    var q := x / d;
    assert x == d * q + x % d;
    if q > w {
      MulMonotone(w + 1, q, d);
      assert false;
    }
  }

  // ---------------------------------------------------------------------------------------
  // Drawing

  /** Cell (row, col) of screen bytes s holds (ch, attr). */
  predicate CellHolds(s: seq<byte>, w: nat, row: nat, col: nat, ch: char, attr: byte) {
    CellOffset(w, row, col) + 1 < |s|
    && s[CellOffset(w, row, col)] == CharByte(ch) && s[CellOffset(w, row, col) + 1] == attr
  }

  /** Cell (row, col) has the same two bytes in s and r. */
  predicate SameCell(s: seq<byte>, r: seq<byte>, w: nat, row: nat, col: nat) {
    |s| == |r|
    && (CellOffset(w, row, col) + 1 < |s| ==>
          s[CellOffset(w, row, col)] == r[CellOffset(w, row, col)]
          && s[CellOffset(w, row, col) + 1] == r[CellOffset(w, row, col) + 1])
  }

  /** A cell keeps what it holds when no byte of its row changes. */
  lemma CellKeptWithRow(s: seq<byte>, r: seq<byte>, w: nat, row: nat, col: nat, ch: char, attr: byte)
    requires col < w && |r| == |s| && CellHolds(s, w, row, col, ch, attr)
    requires forall k :: 0 <= k < |s| && Row(w, k) == row ==> r[k] == s[k]
    ensures CellHolds(r, w, row, col, ch, attr)
  {
    var o := CellOffset(w, row, col);
    CellBytes(w, o, row, col);
    CellBytes(w, o + 1, row, col);
  }

  /** On row y2 of screen bytes s, the bar's first `filled` cells from x1 are solid and the
      rest up to x2 shaded, as far as they are on the screen. */
  predicate BarHolds(s: seq<byte>, w: nat, b: Box, filled: nat, attr: byte) {
    && (forall col: nat :: b.x1 <= col < b.x1 + filled && col < w ==> CellHolds(s, w, b.y2, col, SOLID, attr))
    && (forall col: nat :: b.x1 + filled <= col <= b.x2 && col < w ==> CellHolds(s, w, b.y2, col, SHADED, attr))
  }

  /** A drawn bar survives any drawing that leaves its row alone. */
  lemma BarKept(s: seq<byte>, r: seq<byte>, w: nat, b: Box, filled: nat, attr: byte)
    requires |r| == |s| && BarHolds(s, w, b, filled, attr)
    requires w > 0 ==> forall k :: 0 <= k < |s| && Row(w, k) == b.y2 ==> r[k] == s[k]
    ensures BarHolds(r, w, b, filled, attr)
  {
    forall col: nat | b.x1 <= col < b.x1 + filled && col < w
      ensures CellHolds(r, w, b.y2, col, SOLID, attr)
    {
      CellKeptWithRow(s, r, w, b.y2, col, SOLID, attr);
    }
    forall col: nat | b.x1 + filled <= col <= b.x2 && col < w
      ensures CellHolds(r, w, b.y2, col, SHADED, attr)
    {
      CellKeptWithRow(s, r, w, b.y2, col, SHADED, attr);
    }
  }

  /** TuiDrawProgressBar after its box: clips the position, draws the text centred in the
      rows above the bar, then the solid cells and the shaded rest on the bar's row, and
      ends with TuiUpdateDateTime, which may redraw rows 1 and 2.  When the margins leave a
      bar (x1 <= x2 + 1), its row is on the screen and the date and time lines leave that
      row alone, every bar cell on the screen is solid up to the fill count and shaded
      after it. */
  method DrawProgressBar(scr: Screen, left: nat, top: nat, right: nat, bottom: nat,
                         position: nat, range: nat, text: seq<char>, attr: byte,
                         clock: TimeInfo, monthNames: seq<seq<char>>, drawTime: bool, clockAttr: byte)
    returns (filled: nat)
    requires scr.Valid() && range > 0 && |monthNames| == 12
    modifies scr.mem, clock
    ensures var b := BarRect(left, top, right, bottom);
            filled == FilledCells(position, range, BarWidth(b)) && filled <= BarWidth(b)
    ensures var b := BarRect(left, top, right, bottom);
            && b.x1 <= b.x2 + 1 < 0x1_0000_0000 && b.y2 < scr.height
            && (!drawTime || !old(clock.InRange()) || (b.y2 != 1 && b.y2 != 2)) ==>
              BarHolds(scr.mem[..], scr.width, b, filled, attr)
    ensures unchanged(clock`year, clock`month, clock`day, clock`minute, clock`second)
    ensures clock.hour == if drawTime && old(clock.InRange()) then Clock(old(clock.hour)).0 else old(clock.hour)
  {
    var b := BarRect(left, top, right, bottom);
    var width := BarWidth(b);
    var pos := position;
    if pos > range {
      pos := range;
    }
    DrawCaption(scr, b, text, attr);
    filled := U32(pos * width) / range;
    assert filled == FilledCells(position, range, width);
    FilledWithinWidth(position, range, width);
    DrawBar(scr, b, filled, attr);
    RedrawClock(scr, b, filled, attr, clock, monthNames, drawTime, clockAttr);
  }

  /** The closing TuiUpdateDateTime: a bar drawn before it is still there afterwards unless
      the date or time line is drawn on the bar's row. */
  method RedrawClock(scr: Screen, b: Box, filled: nat, attr: byte,
                     clock: TimeInfo, monthNames: seq<seq<char>>, drawTime: bool, clockAttr: byte)
    requires scr.Valid() && |monthNames| == 12
    modifies scr.mem, clock
    ensures BarHolds(old(scr.mem[..]), scr.width, b, filled, attr)
            && (!drawTime || !old(clock.InRange()) || (b.y2 != 1 && b.y2 != 2)) ==>
              BarHolds(scr.mem[..], scr.width, b, filled, attr)
    ensures unchanged(clock`year, clock`month, clock`day, clock`minute, clock`second)
    ensures clock.hour == if drawTime && old(clock.InRange()) then Clock(old(clock.hour)).0 else old(clock.hour)
  {
    ghost var barDrawn := scr.mem[..];
    ghost var clockInRange := clock.InRange();
    var _, _ := UpdateDateTime(scr, clock, monthNames, drawTime, clockAttr);
    if BarHolds(barDrawn, scr.width, b, filled, attr) && (!drawTime || !clockInRange || (b.y2 != 1 && b.y2 != 2)) {
      if scr.width > 0 {
        assert forall k :: 0 <= k < |barDrawn| && Row(scr.width, k) == b.y2 ==> scr.mem[..][k] == barDrawn[k];
      }
      BarKept(barDrawn, scr.mem[..], scr.width, b, filled, attr);
    }
  }

  /** The two loops on the bar's row: `filled` solid cells from x1, then shaded cells from
      where the first loop stopped to x2. */
  method DrawBar(scr: Screen, b: Box, filled: nat, attr: byte)
    requires scr.Valid() && b.x2 < 0x1_0000_0000 && filled <= BarWidth(b)
    modifies scr.mem
    ensures b.x1 <= b.x2 + 1 < 0x1_0000_0000 && b.y2 < scr.height ==>
              BarHolds(scr.mem[..], scr.width, b, filled, attr)
  {
    assert b.x1 <= b.x2 + 1 ==> BarWidth(b) <= b.x2 - b.x1 + 1;
    var i := DrawSolidRun(scr, b, filled, attr);
    if b.x1 <= b.x2 + 1 < 0x1_0000_0000 {
      assert U32(b.x1 + i) == b.x1 + filled;
    }
    ShadeRest(scr, b, U32(b.x1 + i), filled, attr);
  }

  /** The "Loading..." text, centred in the rows above the bar. */
  method DrawCaption(scr: Screen, b: Box, text: seq<char>, attr: byte)
    requires scr.Valid()
    modifies scr.mem
  {
    var _ := TuiCenteredText.DrawCenteredText(scr, b.x1, b.y1, b.x2, U32(b.y2 - 1), text, attr);
  }

  /** The "percent complete" loop: the solid character in the first `filled` cells of the bar. */
  method DrawSolidRun(scr: Screen, b: Box, filled: nat, attr: byte) returns (i: nat)
    requires scr.Valid()
    requires b.x2 < 0x1_0000_0000 && (b.x1 <= b.x2 + 1 ==> filled <= b.x2 - b.x1 + 1)
    modifies scr.mem
    ensures i == filled
    ensures b.x1 <= b.x2 + 1 && b.y2 < scr.height ==>
              forall col: nat :: b.x1 <= col < b.x1 + filled && col < scr.width ==>
                CellHolds(scr.mem[..], scr.width, b.y2, col, SOLID, attr)
  {
    i := 0;
    while i < filled
      invariant i <= filled
      invariant b.x1 <= b.x2 + 1 && b.y2 < scr.height ==>
                  forall col: nat :: b.x1 <= col < b.x1 + i && col < scr.width ==>
                    CellHolds(scr.mem[..], scr.width, b.y2, col, SOLID, attr)
    {
      ghost var before := scr.mem[..];
      DrawSolid(scr, U32(b.x1 + i), b.y2, attr);
      if b.x1 <= b.x2 + 1 && b.y2 < scr.height {
        assert U32(b.x1 + i) == b.x1 + i;
        forall col: nat | b.x1 <= col < b.x1 + i + 1 && col < scr.width
          ensures CellHolds(scr.mem[..], scr.width, b.y2, col, SOLID, attr)
        {
          if col < b.x1 + i {
            assert CellHolds(before, scr.width, b.y2, col, SOLID, attr);
            assert SameCell(before, scr.mem[..], scr.width, b.y2, col);
          }
        }
      }
      i := i + 1;
    }
  }

  /** One TuiDrawText of the solid character: that cell changes and no other. */
  method DrawSolid(scr: Screen, x: nat, y: nat, attr: byte)
    requires scr.Valid()
    modifies scr.mem
    ensures x < scr.width && y < scr.height ==> CellHolds(scr.mem[..], scr.width, y, x, SOLID, attr)
    ensures forall row: nat, col: nat :: row < scr.height && col < scr.width && (row != y || col != x) ==>
              SameCell(old(scr.mem[..]), scr.mem[..], scr.width, row, col)
  {
    ghost var s := scr.mem[..];
    scr.DrawText(x, y, [SOLID], attr);
    if x < scr.width && y < scr.height {
      assert StrLen([SOLID]) == 1;
      OneCellDrawn(s, scr.width, scr.height, x, y, SOLID, attr);
    }
  }

  /** Writing one character at (y, x) sets that cell's two bytes and keeps every other cell's. */
  lemma OneCellDrawn(s: seq<byte>, w: nat, h: nat, x: nat, y: nat, ch: char, attr: byte)
    requires |s| == w * h * 2 && x < w && y < h
    ensures var r := TextDrawn(s, w, x, y, 1, [ch], attr);
            && CellHolds(r, w, y, x, ch, attr)
            && forall row: nat, col: nat :: row < h && col < w && (row != y || col != x) ==> SameCell(s, r, w, row, col)
  {
    var r := TextDrawn(s, w, x, y, 1, [ch], attr);
    DrawnCellHolds(s, w, h, x, y, ch, attr);
    forall row: nat, col: nat | row < h && col < w && (row != y || col != x)
      ensures SameCell(s, r, w, row, col)
    {
      OtherCellKept(s, w, h, x, y, ch, attr, row, col);
    }
  }

  lemma DrawnCellHolds(s: seq<byte>, w: nat, h: nat, x: nat, y: nat, ch: char, attr: byte)
    requires |s| == w * h * 2 && x < w && y < h
    ensures CellHolds(TextDrawn(s, w, x, y, 1, [ch], attr), w, y, x, ch, attr)
  {
    var r := TextDrawn(s, w, x, y, 1, [ch], attr);
    var o := CellOffset(w, y, x);
    CellInside(w, h, y, x);
    assert r[o] == CharByte(ch) by {
      CellBytes(w, o, y, x);
      assert r[o] == CellByte(o, CharByte(ch), attr);
    }
    assert r[o + 1] == attr by {
      CellBytes(w, o + 1, y, x);
      assert r[o + 1] == CellByte(o + 1, CharByte(ch), attr);
    }
  }

  lemma OtherCellKept(s: seq<byte>, w: nat, h: nat, x: nat, y: nat, ch: char, attr: byte, row: nat, col: nat)
    requires |s| == w * h * 2 && x < w && y < h
    requires row < h && col < w && (row != y || col != x)
    ensures SameCell(s, TextDrawn(s, w, x, y, 1, [ch], attr), w, row, col)
  {
    var r := TextDrawn(s, w, x, y, 1, [ch], attr);
    var o := CellOffset(w, row, col);
    CellInside(w, h, row, col);
    CellBytes(w, o, row, col);
    CellBytes(w, o + 1, row, col);
    assert r[o] == s[o] && r[o + 1] == s[o + 1];
  }

  /** The closing TuiFillArea of the shaded character from column x to x2 on row y2: the
      cells left of x keep their solid character and the rest of the bar is shaded. */
  method ShadeRest(scr: Screen, b: Box, x: nat, filled: nat, attr: byte)
    requires scr.Valid()
    requires b.x1 <= b.x2 + 1 < 0x1_0000_0000 ==> x == b.x1 + filled
    modifies scr.mem
    ensures b.x1 <= b.x2 + 1 < 0x1_0000_0000 && b.y2 < scr.height ==>
              && (forall col: nat :: b.x1 <= col < x && col < scr.width ==>
                    CellHolds(old(scr.mem[..]), scr.width, b.y2, col, SOLID, attr) ==>
                    CellHolds(scr.mem[..], scr.width, b.y2, col, SOLID, attr))
              && (forall col: nat :: x <= col <= b.x2 && col < scr.width ==>
                    CellHolds(scr.mem[..], scr.width, b.y2, col, SHADED, attr))
  {
    ghost var s := scr.mem[..];
    scr.FillArea(x, b.y2, b.x2, b.y2, SHADED, attr);
    FillResultInside(s, scr.width, scr.height, x, b.y2, b.x2, b.y2, CharByte(SHADED), attr);
    FillResultOutside(s, scr.width, scr.height, x, b.y2, b.x2, b.y2, CharByte(SHADED), attr);
  }
}

=== FILE: tui_screen.dfy ===
/**
 * The off-screen text buffer of the FreeLoader text UI (TextVideoBuffer) and the routines
 * that write it directly: TuiFillArea, TuiDrawText2, TuiSaveScreen, TuiRestoreScreen and the
 * screen save around TuiMessageBox.  The buffer holds two bytes per character cell, the
 * character and its attribute, row after row: cell (row, col) of a screen `width` cells
 * wide starts at byte 2 * (row * width + col).
 */
module TuiScreen {
  import opened TuiStrings

  /** UCHAR. */
  newtype byte = x: int | 0 <= x < 256

  /** The (UCHAR) cast of a CHAR: the low eight bits of its code. */
  function CharByte(c: char): (b: byte)
    ensures b as int == c as int % 256
  {
    (c as int % 256) as byte
  }

  // ---------------------------------------------------------------------------------------
  // Cell arithmetic

  /** The row of the cell that byte k belongs to. */
  function Row(w: nat, k: nat): (r: int)
    requires w > 0
  {
    k / (2 * w)
  }

  /** The column of the cell that byte k belongs to. */
  function Col(w: nat, k: nat): (c: int)
    requires w > 0
  {
    k % (2 * w) / 2
  }

  /** The byte of a cell: its character at even offsets, its attribute at odd ones. */
  function CellByte(k: nat, ch: byte, attr: byte): (b: byte) {
    if k % 2 == 0 then ch else attr
  }

  lemma MulAtLeast(d: int, x: int)
    requires d > 0 && x >= 1
    ensures d * x >= d
    decreases x
  {
    if x > 1 {
      MulAtLeast(d, x - 1);
      assert d * x == d * (x - 1) + d;
    }
  }

  /** ULONG arithmetic: the value modulo 2^32. */
  function U32(x: int): (r: nat)
    ensures r < 0x1_0000_0000
    ensures 0 <= x < 0x1_0000_0000 ==> r == x
  {
    x % 0x1_0000_0000
  }

  lemma DivModUnique(n: int, d: int, q: int, r: int)
    requires d > 0 && 0 <= r < d && n == d * q + r
    ensures n / d == q && n % d == r
  {
    var q', r' := n / d, n % d;
    assert n == d * q' + r';
    if q' < q {
      MulAtLeast(d, q - q');
    } else if q' > q {
      MulAtLeast(d, q' - q);
    }
  }

  /** The two bytes of cell (row, col) are exactly the bytes at 2 * (row * w + col) and
      the one after it. */
  lemma CellBytes(w: nat, k: nat, row: nat, col: nat)
    requires col < w
    ensures (Row(w, k) == row && Col(w, k) == col) <==> (k == 2 * (row * w + col) || k == 2 * (row * w + col) + 1)
  {
    if k == 2 * (row * w + col) || k == 2 * (row * w + col) + 1 {
      CellOfByte(w, k, row, col);
    }
    if Row(w, k) == row && Col(w, k) == col {
      ByteOfCell(w, k, row, col);
    }
  }

  /** The two bytes at 2 * (row * w + col) belong to cell (row, col) ... */
  lemma CellOfByte(w: nat, k: nat, row: nat, col: nat)
    requires col < w && (k == 2 * (row * w + col) || k == 2 * (row * w + col) + 1)
    ensures Row(w, k) == row && Col(w, k) == col
  {
    var b := k - 2 * (row * w + col);
    assert k == (2 * w) * row + (2 * col + b);
    DivModUnique(k, 2 * w, row, 2 * col + b);
  }

  /** ... and no other byte does. */
  lemma ByteOfCell(w: nat, k: nat, row: nat, col: nat)
    requires col < w && w > 0 && Row(w, k) == row && Col(w, k) == col
    ensures k == 2 * (row * w + col) || k == 2 * (row * w + col) + 1
  {
    var m := k % (2 * w);
    assert k == (2 * w) * row + m;
    assert (2 * w) * row == 2 * (row * w);
  }

  /** Every cell of a w x h screen lies inside its w * h * 2 bytes. */
  lemma CellInside(w: nat, h: nat, row: nat, col: nat)
    requires row < h && col < w
    ensures 2 * (row * w + col) + 1 < w * h * 2
  {
    assert row * w + w == (row + 1) * w;
    MulMonotone(row + 1, h, w);
    assert h * w == w * h;
  }

  /** a <= b gives a * c <= b * c. */
  lemma MulMonotone(a: nat, b: nat, c: nat)
    requires a <= b
    ensures a * c <= b * c
  {
    if a < b && c > 0 {
      MulAtLeast(c, b - a);
      assert b * c == a * c + c * (b - a);
    }
  }

  // ---------------------------------------------------------------------------------------
  // Specification functions

  /** The clipped rectangle [top..bottom] x [left..right] holds byte k's cell. */
  predicate InRect(w: nat, k: nat, top: int, bottom: int, left: int, right: int)
    requires w > 0
  {
    top <= Row(w, k) <= bottom && left <= Col(w, k) <= right
  }

  /** The screen s after the rectangle [top..bottom] x [left..right] is filled with (ch, attr). */
  function Filled(s: seq<byte>, w: nat, top: int, bottom: int, left: int, right: int, ch: byte, attr: byte)
    : (r: seq<byte>)
    requires w > 0
    ensures |r| == |s|
    ensures forall k :: 0 <= k < |s| ==> r[k] == if InRect(w, k, top, bottom, left, right) then CellByte(k, ch, attr) else s[k]
  {
    seq(|s|, k requires 0 <= k < |s| => if InRect(w, k, top, bottom, left, right) then CellByte(k, ch, attr) else s[k])
  }

  function Min(a: int, b: int): (m: int) { if a <= b then a else b }

  /** What TuiFillArea leaves on a w x h screen: nothing when the corner (left, top) is off
      the screen, otherwise the rectangle with its right and bottom edges clipped. */
  function FillResult(s: seq<byte>, w: nat, h: nat, left: nat, top: nat, right: nat, bottom: nat,
                      ch: byte, attr: byte): (r: seq<byte>)
  {
    if left >= w || top >= h then s
    else Filled(s, w, top, Min(bottom, h - 1), left, Min(right, w - 1), ch, attr)
  }

  /** The byte offset of cell (row, col) on a screen w cells wide. */
  function CellOffset(w: nat, row: nat, col: nat): (o: nat) {
    2 * (row * w + col)
  }

  /** TuiFillArea in the byte offsets of the source: every cell of the clipped rectangle
      gets (ch, attr) at 2 * (row * w + col) and the byte after it. */
  lemma FillResultInside(s: seq<byte>, w: nat, h: nat, left: nat, top: nat, right: nat, bottom: nat,
                         ch: byte, attr: byte)
    requires |s| == w * h * 2
    ensures var r := FillResult(s, w, h, left, top, right, bottom, ch, attr);
            && |r| == |s|
            && (left >= w || top >= h ==> r == s)
            && (forall row: nat, col: nat ::
                  top <= row <= Min(bottom, h - 1) && left <= col <= Min(right, w - 1) ==>
                    CellOffset(w, row, col) + 1 < |r|
                    && r[CellOffset(w, row, col)] == ch && r[CellOffset(w, row, col) + 1] == attr)
  {
    var r := FillResult(s, w, h, left, top, right, bottom, ch, attr);
    forall row: nat, col: nat | top <= row <= Min(bottom, h - 1) && left <= col <= Min(right, w - 1)
      ensures CellOffset(w, row, col) + 1 < |r|
      ensures r[CellOffset(w, row, col)] == ch && r[CellOffset(w, row, col) + 1] == attr
    {
      CellInside(w, h, row, col);
      var o := CellOffset(w, row, col);
      CellBytes(w, o, row, col);
      CellBytes(w, o + 1, row, col);
    }
  }

  /** ... and the two bytes of every cell outside the rectangle keep their values. */
  lemma FillResultOutside(s: seq<byte>, w: nat, h: nat, left: nat, top: nat, right: nat, bottom: nat,
                          ch: byte, attr: byte)
    requires |s| == w * h * 2
    ensures var r := FillResult(s, w, h, left, top, right, bottom, ch, attr);
            forall row: nat, col: nat ::
              row < h && col < w && !(top <= row <= bottom && left <= col <= right) ==>
                CellOffset(w, row, col) + 1 < |r|
                && r[CellOffset(w, row, col)] == s[CellOffset(w, row, col)]
                && r[CellOffset(w, row, col) + 1] == s[CellOffset(w, row, col) + 1]
  {
    var r := FillResult(s, w, h, left, top, right, bottom, ch, attr);
    forall row: nat, col: nat | row < h && col < w && !(top <= row <= bottom && left <= col <= right)
      ensures CellOffset(w, row, col) + 1 < |r|
      ensures r[CellOffset(w, row, col)] == s[CellOffset(w, row, col)]
      ensures r[CellOffset(w, row, col) + 1] == s[CellOffset(w, row, col) + 1]
    {
      CellInside(w, h, row, col);
      var o := CellOffset(w, row, col);
      CellBytes(w, o, row, col);
      CellBytes(w, o + 1, row, col);
    }
  }

  /** The screen s after the first n characters of text are written from cell (y, x). */
  function TextDrawn(s: seq<byte>, w: nat, x: nat, y: nat, n: nat, text: seq<char>, attr: byte): (r: seq<byte>)
    requires w > 0 && n <= |text|
    ensures |r| == |s|
    ensures forall k :: 0 <= k < |s| ==>
              r[k] == if Row(w, k) == y && x <= Col(w, k) < x + n
                      then CellByte(k, CharByte(text[Col(w, k) - x]), attr) else s[k]
  {
    seq(|s|, k requires 0 <= k < |s| =>
      if Row(w, k) == y && x <= Col(w, k) < x + n then CellByte(k, CharByte(text[Col(w, k) - x]), attr) else s[k])
  }

  /** How many characters TuiDrawText2 writes from column x: the string's length, the room
      left on the line and MaxNumChars, whichever is smallest, where MaxNumChars == 0 sets
      no limit. */
  function DrawnCount(w: nat, x: nat, maxNumChars: nat, text: seq<char>): (n: nat)
    requires x < w
    ensures n <= StrLen(text) && n <= w - x
    ensures maxNumChars > 0 ==> n <= maxNumChars
    ensures n == StrLen(text) || n == w - x || (maxNumChars > 0 && n == maxNumChars)
  {
    var m := Min(StrLen(text), w - x);
    if maxNumChars > 0 then Min(m, maxNumChars) else m
  }

  // ---------------------------------------------------------------------------------------
  // The screen

  class Screen {
    /** UiScreenWidth and UiScreenHeight, in cells. */
    const width: nat
    const height: nat
    /** TextVideoBuffer. */
    const mem: array<byte>

    ghost predicate Valid()
      reads this
    {
      mem.Length == width * height * 2
    }

    constructor (w: nat, h: nat)
      ensures Valid() && width == w && height == h && fresh(mem)
    {
      width, height := w, h;
      mem := new byte[w * h * 2];
    }

    /** Writes one cell: the character byte at 2 * (row * width + col), the attribute after it. */
    method PutCell(row: nat, col: nat, ch: byte, attr: byte)
      requires Valid() && row < height && col < width
      modifies mem
      ensures forall k :: 0 <= k < mem.Length ==>
                mem[k] == if Row(width, k) == row && Col(width, k) == col then CellByte(k, ch, attr) else old(mem[k])
    {
      CellInside(width, height, row, col);
      var o := 2 * (row * width + col);
      mem[o] := ch;
      mem[o + 1] := attr;
      forall k | 0 <= k < mem.Length
        ensures mem[k] == if Row(width, k) == row && Col(width, k) == col then CellByte(k, ch, attr) else old(mem[k])
      {
        CellBytes(width, k, row, col);
      }
    }

    /** TuiFillArea: clips the rectangle to the screen and fills it row by row. */
    method FillArea(left: nat, top: nat, right: nat, bottom: nat, fillChar: char, attr: byte)
      requires Valid()
      modifies mem
      ensures mem[..] == FillResult(old(mem[..]), width, height, left, top, right, bottom, CharByte(fillChar), attr)
    {
      if left >= width || top >= height {
        return;
      }
      var r := Min(right, width - 1);
      var b := Min(bottom, height - 1);
      var ch := CharByte(fillChar);
      ghost var s := mem[..];
      var i := top;
      while i <= b
        invariant top <= i <= b + 1 || (i == top && b < top)
        invariant forall k :: 0 <= k < mem.Length ==>
                    mem[k] == if InRect(width, k, top, i - 1, left, r) then CellByte(k, ch, attr) else s[k]
      {
        var j := left;
        while j <= r
          invariant left <= j && (j <= r + 1 || j == left)
          invariant forall k :: 0 <= k < mem.Length ==>
                      mem[k] == if InRect(width, k, top, i - 1, left, r) || InRect(width, k, i, i, left, j - 1)
                                then CellByte(k, ch, attr) else s[k]
        {
          PutCell(i, j, ch, attr);
          j := j + 1;
        }
        i := i + 1;
      }
      assert mem[..] == Filled(s, width, top, b, left, r, ch, attr);
    }

    /** TuiDrawText2: writes nothing when (x, y) is off the screen, otherwise the string's
        characters from cell (y, x) onwards, stopping at its NUL, at the right edge or after
        maxNumChars characters (no limit when it is 0). */
    method DrawText2(x: nat, y: nat, maxNumChars: nat, text: seq<char>, attr: byte)
      requires Valid()
      modifies mem
      ensures x >= width || y >= height ==> mem[..] == old(mem[..])
      ensures x < width && y < height ==>
                mem[..] == TextDrawn(old(mem[..]), width, x, y, DrawnCount(width, x, maxNumChars, text), text, attr)
    {
      if x >= width || y >= height {
        return;
      }
      ghost var s := mem[..];
      var i, j := x, 0;
      while j < |text| && text[j] != NUL && i < width && (if maxNumChars > 0 then j < maxNumChars else true)
        invariant i == x + j && j <= StrLen(text) && i <= width
        invariant maxNumChars > 0 ==> j <= maxNumChars
        invariant forall k :: 0 <= k < mem.Length ==>
                    mem[k] == if Row(width, k) == y && x <= Col(width, k) < x + j
                              then CellByte(k, CharByte(text[Col(width, k) - x]), attr) else s[k]
      {
        PutCell(y, i, CharByte(text[j]), attr);
        i, j := i + 1, j + 1;
      }
      assert j == DrawnCount(width, x, maxNumChars, text);
      assert mem[..] == TextDrawn(s, width, x, y, j, text, attr);
    }

    /** TuiDrawText: TuiDrawText2 without a character limit. */
    method DrawText(x: nat, y: nat, text: seq<char>, attr: byte)
      requires Valid()
      modifies mem
      ensures x >= width || y >= height ==> mem[..] == old(mem[..])
      ensures x < width && y < height ==>
                mem[..] == TextDrawn(old(mem[..]), width, x, y, DrawnCount(width, x, 0, text), text, attr)
    {
      DrawText2(x, y, 0, text, attr);
    }

    /** TuiSaveScreen: copies all width * height * 2 bytes of the screen into buffer. */
    method SaveScreen(buffer: array<byte>)
      requires Valid() && buffer != mem && buffer.Length >= mem.Length
      modifies buffer
      ensures buffer[..mem.Length] == mem[..]
      ensures buffer[mem.Length..] == old(buffer[mem.Length..])
    {
      var i := 0;
      while i < mem.Length
        invariant 0 <= i <= mem.Length
        invariant buffer[..i] == mem[..i]
        invariant buffer[mem.Length..] == old(buffer[mem.Length..])
      {
        buffer[i] := mem[i];
        i := i + 1;
      }
      assert buffer[..mem.Length] == buffer[..i];
    }

    /** TuiRestoreScreen: copies width * height * 2 bytes of buffer back onto the screen. */
    method RestoreScreen(buffer: array<byte>)
      requires Valid() && buffer != mem && buffer.Length >= mem.Length
      modifies mem
      ensures mem[..] == old(buffer[..mem.Length])
    {
      var i := 0;
      while i < mem.Length
        invariant 0 <= i <= mem.Length
        invariant mem[..i] == buffer[..i]
      {
        mem[i] := buffer[i];
        i := i + 1;
      }
      assert mem[..] == mem[..i];
    }
  }
}

=== FILE: tui_strings.dfy ===
/**
 * C strings of the FreeLoader text UI, as sequences of characters: the string held in a
 * sequence ends at its first NUL (or at the end of the sequence), and a message is cut
 * into lines at each '\n'.
 */
module TuiStrings {

  const NUL: char := 0 as char
  const NEWLINE: char := 10 as char

  /** strlen: the length up to the first NUL, or all of s. */
  function StrLen(s: seq<char>): (n: nat)
    ensures n <= |s|
    ensures forall j :: 0 <= j < n ==> s[j] != NUL
    ensures n < |s| ==> s[n] == NUL
  {
    if s == [] || s[0] == NUL then 0 else 1 + StrLen(s[1..])
  }

  /** The characters of the C string held in s. */
  function Content(s: seq<char>): (c: seq<char>)
    ensures NUL !in c && c <= s
  {
    s[..StrLen(s)]
  }

  /** Reading s[j] in C: past the string's end the terminating NUL. */
  function At(s: seq<char>, j: nat): (ch: char)
    ensures j < StrLen(s) ==> ch == s[j] && ch != NUL
    ensures j >= StrLen(s) ==> ch == NUL
  {
    if j < StrLen(s) then s[j] else NUL
  }

  function Max(a: int, b: int): (m: int) { if a >= b then a else b }

  /** The number of newlines in c. */
  function NewlineCount(c: seq<char>): (n: nat) {
    if c == [] then 0 else NewlineCount(c[..|c| - 1]) + (if c[|c| - 1] == NEWLINE then 1 else 0)
  }

  /** The index of the first newline of c, or |c| when it has none. */
  function LineEnd(c: seq<char>): (p: nat)
    ensures p <= |c|
  {
    if c == [] || c[0] == NEWLINE then 0 else 1 + LineEnd(c[1..])
  }

  /** LineEnd finds the first newline: none comes before it, and it is one unless it is
      the end of the text. */
  lemma {:induction false} LineEndIsFirstNewline(c: seq<char>)
    ensures forall j :: 0 <= j < LineEnd(c) ==> c[j] != NEWLINE
    ensures LineEnd(c) < |c| ==> c[LineEnd(c)] == NEWLINE
  {
    if c != [] && c[0] != NEWLINE {
      LineEndIsFirstNewline(c[1..]);
    }
  }

  /** The lines of c: the pieces between its newlines. */
  function Lines(c: seq<char>): (ls: seq<seq<char>>)
    ensures |ls| >= 1
    decreases |c|
  {
    var p := LineEnd(c);
    if p == |c| then [c] else [c[..p]] + Lines(c[p + 1..])
  }

  /** The inverse of Lines: the lines put back together with a newline between each two. */
  function JoinLines(ls: seq<seq<char>>): (c: seq<char>)
    requires |ls| >= 1
  {
    if |ls| == 1 then ls[0] else ls[0] + [NEWLINE] + JoinLines(ls[1..])
  }

  /** Cutting a text into lines loses nothing: joining the lines gives the text back. */
  lemma {:induction false} JoinLinesOfLines(c: seq<char>)
    ensures JoinLines(Lines(c)) == c
    decreases |c|
  {
    var p := LineEnd(c);
    LineEndIsFirstNewline(c);
    if p < |c| {
      JoinLinesOfLines(c[p + 1..]);
      assert Lines(c)[1..] == Lines(c[p + 1..]);
      assert c == c[..p] + [NEWLINE] + c[p + 1..];
    }
  }

  /** A text has one line more than it has newlines. */
  lemma {:induction false} LinesCount(c: seq<char>)
    ensures |Lines(c)| == NewlineCount(c) + 1
    decreases |c|
  {
    var p := LineEnd(c);
    LineEndIsFirstNewline(c);
    if p == |c| {
      NoNewlineCount(c);
    } else {
      LinesCount(c[p + 1..]);
      NewlineCountSplit(c, p);
    }
  }

  lemma {:induction false} NoNewlineCount(c: seq<char>)
    requires forall j :: 0 <= j < |c| ==> c[j] != NEWLINE
    ensures NewlineCount(c) == 0
  {
    if c != [] {
      NoNewlineCount(c[..|c| - 1]);
    }
  }

  lemma {:induction false} NewlineCountAppend(a: seq<char>, b: seq<char>)
    ensures NewlineCount(a + b) == NewlineCount(a) + NewlineCount(b)
    decreases |b|
  {
    if b != [] {
      assert (a + b)[..|a + b| - 1] == a + b[..|b| - 1];
      assert (a + b)[|a + b| - 1] == b[|b| - 1];
      NewlineCountAppend(a, b[..|b| - 1]);
    } else {
      assert a + b == a;
    }
  }

  lemma NewlineCountSplit(c: seq<char>, p: nat)
    requires p < |c| && c[p] == NEWLINE && forall j :: 0 <= j < p ==> c[j] != NEWLINE
    ensures NewlineCount(c) == 1 + NewlineCount(c[p + 1..])
  {
    assert c == c[..p] + [NEWLINE] + c[p + 1..];
    NewlineCountAppend(c[..p] + [NEWLINE], c[p + 1..]);
    NewlineCountAppend(c[..p], [NEWLINE]);
    NoNewlineCount(c[..p]);
    assert [NEWLINE][..0] == [];
  }

  lemma {:induction false} LineEndAppend(c: seq<char>, d: seq<char>)
    ensures LineEnd(c) < |c| ==> LineEnd(c + d) == LineEnd(c)
    ensures LineEnd(c) == |c| ==> LineEnd(c + d) == |c| + LineEnd(d)
  {
    if c != [] {
      assert (c + d)[0] == c[0];
      if c[0] != NEWLINE {
        assert (c + d)[1..] == c[1..] + d;
        LineEndAppend(c[1..], d);
      }
    } else {
      assert c + d == d;
    }
  }

  /** Reading one more character: a newline opens a new, empty line; any other character
      lengthens the last line. */
  lemma LinesSnoc(c: seq<char>, ch: char)
    ensures ch == NEWLINE ==> Lines(c + [ch]) == Lines(c) + [[]]
    ensures ch != NEWLINE ==>
              Lines(c + [ch]) == Lines(c)[..|Lines(c)| - 1] + [Lines(c)[|Lines(c)| - 1] + [ch]]
  {
    if ch == NEWLINE {
      LinesSnocNewline(c);
    } else {
      LinesSnocOther(c, ch);
    }
  }

  /** A newline at the end of a text opens a new, empty last line. */
  lemma {:induction false} LinesSnocNewline(c: seq<char>)
    ensures Lines(c + [NEWLINE]) == Lines(c) + [[]]
    decreases |c|
  {
    var p := LineEnd(c);
    LineEndAppend(c, [NEWLINE]);
    var d := c + [NEWLINE];
    if p < |c| {
      assert d[..p] == c[..p];
      assert d[p + 1..] == c[p + 1..] + [NEWLINE];
      LinesSnocNewline(c[p + 1..]);
      assert Lines(d) == [c[..p]] + Lines(c[p + 1..] + [NEWLINE]);
    } else {
      assert LineEnd([NEWLINE]) == 0;
      assert d[..p] == c && d[p + 1..] == [];
      assert Lines([]) == [[]];
    }
  }

  /** Any other character at the end of a text lengthens its last line. */
  lemma {:induction false} LinesSnocOther(c: seq<char>, ch: char)
    requires ch != NEWLINE
    ensures Lines(c + [ch]) == Lines(c)[..|Lines(c)| - 1] + [Lines(c)[|Lines(c)| - 1] + [ch]]
    decreases |c|
  {
    var p := LineEnd(c);
    LineEndAppend(c, [ch]);
    var d := c + [ch];
    if p < |c| {
      assert d[..p] == c[..p];
      assert d[p + 1..] == c[p + 1..] + [ch];
      LinesSnocOther(c[p + 1..], ch);
      var rest := Lines(c[p + 1..]);
      assert Lines(c) == [c[..p]] + rest;
      assert Lines(d) == [c[..p]] + Lines(c[p + 1..] + [ch]);
      ExtendLastOfCons(c[..p], rest, ch);
    } else {
      assert LineEnd([ch]) == 1 by { assert [ch][1..] == []; }
      assert Lines(d) == [d];
    }
  }

  /** Lengthening the last line commutes with putting a first line in front. */
  lemma ExtendLastOfCons(first: seq<char>, rest: seq<seq<char>>, ch: char)
    requires |rest| >= 1
    ensures var ls := [first] + rest;
            [first] + (rest[..|rest| - 1] + [rest[|rest| - 1] + [ch]])
            == ls[..|ls| - 1] + [ls[|ls| - 1] + [ch]]
  {
    var ls := [first] + rest;
    assert ls[..|ls| - 1] == [first] + rest[..|rest| - 1];
  }

  /** The length of the longest of the first n lines (0 for none). */
  function Longest(ls: seq<seq<char>>, n: nat): (m: nat)
    requires n <= |ls|
    ensures forall l :: 0 <= l < n ==> |ls[l]| <= m
    ensures n == 0 ==> m == 0
    ensures n > 0 ==> exists l :: 0 <= l < n && |ls[l]| == m
  {
    if n == 0 then 0 else Max(Longest(ls, n - 1), |ls[n - 1]|)
  }
}

=== FILE: wrappers.dfy ===
/** Optional values, standing in for the C convention of a NULL pointer or a "not found" result. */
module Wrappers {
  datatype Option<+T> = None | Some(value: T)
}
